=== FILE: README.md ===
# vdm, modelled in Dafny

This project models the core of vdm, a vendoring dependency manager for
Bazel workspaces, and proves properties of it. vdm reads a dependency
manifest (`deps.bzl`) that lists Go modules and the packages used from each.
The `vendor` command turns the manifest into a plan of actions under
`vendor/`:

- remove loose files and stale directories;
- download each module;
- write a BUILD file for each package;
- finally write a cache manifest (`vendor/manifest.bzl`).

On the next run, the cache manifest lets vdm drop the downloads whose
content is already in place. The `check` command reports declared packages
that the build never uses, or uses only from tests, and fails on known
vulnerabilities. The `update` command's field unmarshaller stores the
arguments of a Starlark call into a struct of string fields.

Files, one module each:

- `results.dfy`: `Option`, `Result`, and generic sequence lemmas (`Filter`, subsequences).
- `paths.dfy`: Go's `strings` and `path` helpers on strings (`HasPrefix`, `TrimSuffix`, `Split`, `path.Join`, `path.Clean`, `path.Dir`, `path.Base`), with lemmas relating joined paths to their segments.
- `ordering.dfy`: Go's string order, the sorted listing of a set of strings (a Go map's keys after `sort.Strings`), and a stable sort by key.
- `vendeps.dfy`: the manifest datatypes (`Deps`, `GoModule`, `GoPackage`, `TextFiles`), the file-name constants, and the actions.
- `planner.dfy`: the planner `Vendor`/`vendorGo` as the function `Plan`, over a snapshot of the file tree.
- `planner_lemmas.dfy`: the planner's properties (order, removals, downloads, safety).
- `cache.dfy`: the cache filter `StripCachedActions`, both as a reference function and as the Go loop, and `GenerateCacheManifest`.
- `convergence.dfy`: a plan filtered with the manifest its own last action writes keeps no download.
- `actions.dfy`: recording a package's files, the actions' descriptions, and writing the cache manifest.
- `templates.dfy`: `binaryName` and `packageName`.
- `command.dfy`: the `vendor` command's `Main`: load, plan, filter, then print or perform.
- `check.dfy`: the `check` command's analysis.
- `update.dfy`: `UnmarshalFields` and `StringField`.

The file system is a value:

- `Snapshot`: the kind of `vendor`, the files directly in it, the directories below it, and the directories whose listing fails.
- `Digester`: two functions standing for `DigestDirectory` and `DigestFiles`.

Performing an action is a step function over an abstract world. Results of
`bazel query` and of the vulnerability database are inputs.

The manifest check in the planner runs before the vendor directory is
read, and it covers build dependencies (`deps`) only: a missing
`test_deps` entry is not reported (cmd/vendor/vendor.go:56-64).

## Model

| member | source | states |
|---|---|---|
| Planner.Plan | cmd/vendor/vendor.go:40-43 | An empty manifest plans a single action, removing `vendor`. A missing-dependency error always lists at least one pair. |
| PlannerLemmas.PlanOfChecks | cmd/vendor/vendor.go:40-115 | For a non-empty manifest, the first failing check (dependencies, stat, read) is the plan's error. Otherwise the plan succeeds exactly when planning the modules does, and fails with its error. |
| PlannerLemmas.MissingDependenciesReported | cmd/vendor/vendor.go:48-68 | The plan fails with missing dependencies exactly when some package has a build dependency no module declares. The error lists exactly those (package, dependency) pairs. |
| PlannerLemmas.PreflightMissing | cmd/vendor/vendor.go:55-68 | The same if-and-only-if for the checks before the module walk. |
| PlannerLemmas.PlanSucceedsExactly | cmd/vendor/vendor.go:40-178 | The plan succeeds exactly on an empty manifest, or when every build dependency is declared, `vendor` is absent or a readable directory, every module is well formed, and the walk meets no unreadable directory (`Plannable`). |
| Planner.Validate | cmd/vendor/vendor.go:126-146 | No error exactly when every module has a name, a version, packages and named packages. Otherwise the error is the first failing module's problem. |
| Planner.ModuleProblem | cmd/vendor/vendor.go:129-145 | A module has no problem exactly when it is well formed. A missing name is reported as such, with the module's index. |
| Planner.FirstUnnamed | cmd/vendor/vendor.go:141-145 | The first package without an import path, or none when all have one. |
| Planner.LooseFiles | cmd/vendor/vendor.go:86-103 | Sorted by name, and exactly the files directly in an existing `vendor` other than `manifest.bzl`. |
| Planner.LooseFileRemovals | cmd/vendor/vendor.go:91-103 | One `RemoveAll` of `vendor/<name>` per loose file, in order. |
| PlannerLemmas.LooseFilesRemoved | cmd/vendor/vendor.go:91-103 | Every loose file other than the cache manifest is removed by a successful plan. |
| Planner.StaleRemovalPaths | cmd/vendor/vendor.go:157-208 | Sorted, and exactly the walked directories that contain no module and whose parent is not itself stale. |
| PlannerLemmas.StaleRemovalsExact | cmd/vendor/vendor.go:180-208 | Every directory removed is stale, and every stale directory is removed or lies under one that is. |
| PlannerLemmas.StaleRemovalsDoNotNest | cmd/vendor/vendor.go:192-204 | No directory removed lies inside another directory removed. |
| PlannerLemmas.StaleRemovalSafe | cmd/vendor/vendor.go:163-190 | A stale directory is never the directory of a module with a well-formed name, nor an ancestor of it, nor inside it. |
| PlannerLemmas.SiblingRemoved | cmd/vendor/vendor.go:183-201 | A walked directory beside a module, whose parent holds a module, is removed itself, and its parent is not. |
| PlannerLemmas.ModuleAncestorIsSegmentPrefix | cmd/vendor/vendor.go:183-189 | The `HasPrefix(modname, filepath+"/")` test holds exactly when the one module path's segments are a proper prefix of the other's. |
| Planner.PlanGoModules | cmd/vendor/vendor.go:122-234 | Planning the modules succeeds exactly when every module is well formed and the walk meets no unreadable directory. |
| PlannerLemmas.GoModulesParts | cmd/vendor/vendor.go:197-231 | A successful module plan is the stale removals followed by each module's block of actions. |
| PlannerLemmas.PlanParts | cmd/vendor/vendor.go:86-117 | A successful plan is the loose-file removals, the stale removals, the module blocks and the cache-manifest action, in that order. |
| PlannerLemmas.PlanOrder | cmd/vendor/vendor.go:91-117 | Every removal comes before every other action, and the only cache-manifest action is the last one. It carries the manifest with `bzlmod` set and the path `vendor/manifest.bzl`. |
| PlannerLemmas.PlanDownloads | cmd/vendor/vendor.go:214-216 | The plan's downloads are exactly one per module, in manifest order, each to `vendor/<module>`. |
| PlannerLemmas.PlanRemovalsSafe | cmd/vendor/vendor.go:91-208 | Every removal in a successful plan is a loose file other than the manifest, or a stale directory clear of the directory of every module with a well-formed name. |
| PlannerLemmas.ManifestNeverRemoved | cmd/vendor/vendor.go:94-96 | When `vendor` holds no directory named `manifest.bzl`, a successful plan never removes `vendor/manifest.bzl`. |
| Planner.WithBzlmod | cmd/vendor/vendor.go:217-218 | Every package gets the `bzlmod` flag, and nothing else in the module changes. |
| Planner.PackageAction | cmd/vendor/vendor.go:219-224 | The action targets `vendor/<package>/BUILD.bazel`. It copies the package's own BUILD file exactly when it names one, and otherwise generates one. |
| Planner.ModuleActions | cmd/vendor/vendor.go:214-231 | The download first, then one action per package, then one per text-file directory. No action other than the first is a download. |
| Cache.LookupFinds | internal/vendeps/cache.go:46-49 | A lookup by name finds nothing exactly when no cached module has the name. Otherwise it finds the last module with that name, as the map assignment keeps. |
| Cache.StripCached | internal/vendeps/cache.go:25-119 | With no cache or an empty one, the actions are unchanged. Otherwise the result is a subsequence that keeps every action except the redundant downloads, and the non-download actions are unchanged and in order. |
| Cache.StripCachedActions | internal/vendeps/cache.go:25-119 | The Go loop computes the reference filter `StripCached`. |
| Cache.IndexCache | internal/vendeps/cache.go:46-49 | The map built from the cached modules agrees with the lookup by name. |
| Cache.KeepDownload | internal/vendeps/cache.go:61-114 | A download is kept exactly when it is not redundant: wrong version, a directory digest that differs or fails, or (when either side has patches) a patch digest that differs or fails or patch arguments that are not deeply equal, an absent list differing from an empty one. |
| Cache.KeepUncached | internal/vendeps/cache.go:54-116 | The loop's output is the actions filtered by "not redundant". |
| Cache.CacheEntry | internal/vendeps/cache.go:133-159 | A module's entry is the module with the digest of `vendor/<module>` (package BUILD files ignored) and, when it has patches, their digest. It fails exactly when a digest fails. |
| Cache.GenerateCacheManifest | internal/vendeps/cache.go:124-163 | One entry per module, in order, otherwise equal to the module. The error is that of the first module whose digest fails. |
| Convergence.IgnoreListsAgree | internal/vendeps/cache.go:79-83 | For a download to `vendor/<module>`, the filter ignores exactly the BUILD files the generator ignores (cache.go:136-139). |
| Convergence.GeneratedManifestCoversModules | internal/vendeps/cache.go:132-159 | For modules with distinct, well-formed names, every module's download is redundant against a manifest generated from the same modules with the same digests. |
| Convergence.PlanDownloadsRedundant | internal/vendeps/cache.go:61-114 | For modules with distinct, well-formed names, every download of a successful plan is redundant against the manifest generated from what its last action records. |
| Convergence.CacheConverges | internal/vendeps/cache.go:54-118 | For modules with distinct, well-formed names, filtering a successful plan with the manifest generated from its last action's modules drops every download and keeps every other action in order. |
| Actions.RecordGoPackageFiles | cmd/vendor/actions.go:32-56 | A failed listing gives the error naming the package. Otherwise the package's files gain the source files and its test files gain the `_test.go` files, in listing order, and nothing else changes. |
| Actions.NamesOfMembers | cmd/vendor/actions.go:38-53 | A name is recorded as a kind exactly when some entry with that name is classified as that kind. |
| Actions.RecordedKinds | cmd/vendor/actions.go:38-53 | Recorded test files end in `_test.go`, and recorded source files end in `.go` or `.s` but not `_test.go`. Every such plain file of the listing is recorded. |
| Actions.Description | cmd/vendor/actions.go:104-169 | The three actions of this package have a description, and no other action has one here. |
| Actions.DescriptionNames | cmd/vendor/actions.go:104-169 | Removing the fixed lead and the `to <path>` tail from a description gives back the package or directory name. |
| Actions.DescriptionsDistinguishKinds | cmd/vendor/actions.go:104-169 | Equal descriptions come from actions of the same kind. |
| Actions.DoBuildCacheManifest | cmd/vendor/actions.go:148-165 | The manifest is written exactly when it can be generated and rendered, and the result is written to the action's path. Failures carry the messages of the source. |
| Actions.WrittenManifestListsSameModules | cmd/vendor/actions.go:148-165 | What is written renders a manifest with the same modules, names and versions, in order. |
| Templates.BinaryName | cmd/vendor/templates.go:32-34 | The binary name is non-empty and holds no separator, except for the name `/` itself. |
| Templates.PackageName | cmd/vendor/templates.go:38-45 | The package name starts with the binary name, and is longer exactly for a binary package. Dropping `_lib` from it then gives the binary name back. |
| Templates.BinaryNameIsLastSegment | cmd/vendor/templates.go:32-34 | For a well-formed import path, the binary name is its last segment. |
| Templates.BinaryNameIgnoresParent | cmd/vendor/templates.go:32-34 | `<parent>/<last>` is named `<last>`, whatever the parent. |
| Templates.NamesDependOnPathAndBinary | cmd/vendor/templates.go:38-45 | Equal import paths give equal binary names, and equal package names exactly when the binary flags agree. |
| VendorCommand.ExecuteStopsAtFirstError | cmd/vendor/main.go:55-64 | Performing actions completes a prefix of them. Without an error that prefix is all of them; with one, the error is that of the next action. |
| VendorCommand.ExecutePrefix | cmd/vendor/main.go:55-64 | Replaying the completed prefix from the same world succeeds and reaches the same world. |
| VendorCommand.RunActions | cmd/vendor/main.go:55-64 | The loop performs the actions as `Execute` describes. |
| VendorCommand.Main | cmd/vendor/main.go:43-66 | A load or plan failure does nothing. Main never both prints and performs. |
| VendorCommand.PlanFailureStopsMain | cmd/vendor/main.go:45-48 | On a load or plan failure nothing is printed or done, and the error is the failure prefixed with "failed to load dependency manifest: ". |
| VendorCommand.CacheFilterAppliedOnce | cmd/vendor/main.go:50-52 | `-no-cache` keeps the plan as is; otherwise the cache filter is applied once. Either way the non-download actions are unchanged. |
| VendorCommand.DryRunPrintsOnly | cmd/vendor/main.go:55-58 | A dry run prints the selected actions in order and performs none. |
| VendorCommand.RunStopsAtFirstError | cmd/vendor/main.go:55-64 | A real run performs a prefix of the selected actions. It stops at the first failing action and returns that action's error. |
| VendorCommand.SecondRunDownloadsNothing | cmd/vendor/main.go:45-52 | For modules with distinct, well-formed names and unchanged digests, when the cache manifest read back equals the one generated from the previous plan's last action, the actions selected are the plan without its downloads. |
| Check.GraphsShape | cmd/check/main.go:80-101 | Both maps have a key `vendor/<name>` for each declared package. Each key's entry holds the children of the last package declared with that name: build then test dependencies in `all`, build dependencies in `directOnly`. |
| Check.BuiltGraphsConsistent | cmd/check/main.go:87-99 | The two maps have the same keys, each with the `vendor/` prefix. Each key's build children are among its children. |
| Check.AllPackagesCount | cmd/check/main.go:82-86 | The package count equals the number of packages gathered over all modules. |
| Check.AsWrittenReportsUsedPackageUnused | cmd/check/main.go:135-152 | As written, a used package can remain in `all` (reported unused) while absent from `directOnly`. |
| Check.ProcessUsedKeeps | cmd/check/main.go:135-152 | After the corrected loop, a package remains in `all` (resp. `directOnly`) exactly when it is neither a used declared package nor a child (resp. build child) of one. Remaining entries are unchanged. |
| Check.ProcessUsedProperties | cmd/check/main.go:135-152 | After the corrected loop, no used package remains in either map, and every key of `all` is a key of `directOnly`. |
| Check.CorrectedReportsNoUsedPackage | cmd/check/main.go:135-152 | On the input that shows the finding, the corrected loop leaves both maps empty. |
| Check.SortedKeys | cmd/check/main.go:156-184 | The listing fails exactly when a key lacks the `vendor/` prefix. Otherwise it is the keys, sorted, each once. |
| Check.SummaryContents | cmd/check/main.go:154-186 | With the corrected loop of the finding below in place of lines 135-152: the summary never fails and counts modules and packages. It lists, sorted, the declared packages neither used nor a child of a used package (unused), and those neither used nor a build child (tests only). |
| Check.QueryFor | cmd/check/main.go:195-203 | The query names the module in the Go ecosystem, at its version with one leading "v" dropped. |
| Check.Queries | cmd/check/main.go:191-203 | One query per module, in manifest order. |
| Check.FirstById | cmd/check/main.go:215-230 | The records kept come from the input, cover every ID of the input, and have distinct IDs. |
| Check.FirstByIdKeepsFirst | cmd/check/main.go:223-229 | Each record kept is the first in the input with its ID. |
| Check.Vulnerabilities | cmd/check/main.go:215-232 | One record per distinct ID found, each kept at its first occurrence, in strictly increasing ID order. |
| Check.CheckDependencies | cmd/check/main.go:71-73 | An empty manifest is checked successfully without further work. |
| Check.CheckFailsOnVulnerabilities | cmd/check/main.go:264-267 | A non-empty manifest fails exactly when some query finds a vulnerability, and the message counts the distinct IDs. Otherwise the report is the summary (built with the corrected loop, as in `Check.SummaryContents`) and the queries. |
| Update.ParseTag | cmd/update/main.go:95-108 | A tag never marks a field both optional and ignored. A field without a tag takes its Go name and is required. |
| Update.ParseFormatTag | cmd/update/main.go:98-104 | A tag written for a name without either suffix, and for at most one of the optional and ignore flags, parses back to them. |
| Update.Descriptors | cmd/update/main.go:83-132 | The descriptors succeed exactly when every field is a StringField with a non-empty name and no two names clash. They are then the fields' tags in order. |
| Update.ApplyArguments | cmd/update/main.go:137-168 | The arguments are accepted exactly when each assigns to a known name, and that name is ignored or is given a literal while still unassigned. The fields then hold the literals assigned to them, ignored fields unchanged. Otherwise the error is that of the first argument not accepted. |
| Update.AssignedOnce | cmd/update/main.go:157-159 | In an accepted call, a field that is not ignored is assigned by at most one argument. |
| Update.MissingRequired | cmd/update/main.go:172-182 | The first required field left unassigned, or none exactly when every required field is assigned. |
| Update.PanicField | cmd/update/main.go:83-128 | The loop over the fields panics at a field only after every earlier field passed all checks and this one passed the type and name checks. That field cannot be written: the struct was passed by value, or the field is unexported. |
| Update.PanicFieldExactly | cmd/update/main.go:116-117 | In a struct of well-formed fields, the loop panics exactly when the struct was passed by value and has a field, or some field is unexported. |
| Update.UnmarshalFields | cmd/update/main.go:60-185 | Stores the fields exactly when the value points to a struct of well-formed, exported StringFields, every argument is accepted and every required field is assigned. The fields then hold the assigned literals. A well-formed struct passed by value, or with an unexported field, panics. A value that is not a struct gives the kind error. |

## Left out

- Reading `deps.bzl` and `vendor/manifest.bzl` and decoding their Starlark are not modelled. The loaded manifest is an input (`Result<Deps, string>`), and the cache manifest is `Option<Deps>`: `None` when it cannot be read or decoded.
- The file system is a snapshot value rather than calls into `io/fs`. `DigestDirectory` and `DigestFiles` are opaque functions of a `Digester` value.
- Actions.RecordGoPackageFiles: Go appends the recorded files to the `*GoPackage` that the BUILD action shares with the manifest in the final `BuildCacheManifest` action (cmd/vendor/vendor.go:117, 223; cmd/vendor/actions.go:45, 50), so the cache manifest written last lists them. The model returns an updated package instead, and nothing threads it into later actions. The manifest action, as in `PlannerLemmas.PlanOrder`, carries the packages as planned.
- VendorCommand.SecondRunDownloadsNothing: assumes the cache manifest read back is exactly the one generated, i.e. that rendering the manifest (cmd/vendor/templates.go) and decoding it again returns the same `Deps`. Neither half is modelled, and this is where an absent `patch_args` could come back empty or the other way round.
- Convergence.CacheConverges: states convergence against the generated manifest itself, under the same unmodelled render-and-decode round trip.
- Check.SummaryContents: describes the summary built with the corrected used-package loop, not the one cmd/check/main.go:135-152 computes. On the input of the finding below, the program as written counts `vendor/c` in the "unused" figure printed at cmd/check/main.go:186. It then returns at cmd/check/main.go:269-272, because `directOnly` is empty, so it never prints the list of unused dependencies. That early return assumes every key of `all` is still a key of `directOnly`, which the loop as written breaks.
- Check.CheckFailsOnVulnerabilities: its successful report carries that corrected summary, for the same reason.
- Planner.Message: the walk failure's message is "failed to walk vendor" without the underlying error's text, which the snapshot does not carry.
- The `Do` methods that download modules, apply patches, copy BUILD files, and render and write the BUILD templates are left out. Performing an action is a step function over an abstract world. `BuildCacheManifest.Do` and the file classification of `recordGoPackageFiles` are modelled; `BuildCacheManifest.Do`'s rendering and file write are function parameters.
- Actions.Description: the `String` methods of `RemoveAll`, `DownloadGoModule` and `CopyBUILD` live in internal/vendeps/actions.go, which is not part of this model, so `Description` is `None` for them.
- Templates: only `binaryName` and `packageName` are modelled. The BUILD templates and their rendering are not.
- The planner, cache and template lemmas assume well-formed names: non-empty segments, neither `.` nor `..`, and no leading, trailing or doubled `/`. `path.Join` cleans other names, which changes module directories and ignore lists; the operations themselves accept any name.
- Flag parsing, usage messages, `os.Exit` and `log` output of the three commands are left out; the options are a value.
- The `bazel query` that lists used packages, and the vulnerability database requests, are inputs as their results. Building the query string (cmd/check/main.go:106-118) is left out. `Check.CheckDependencies` takes an already decoded `Deps`, so the check command's `return err` paths are not modelled: reading and decoding `deps.bzl` (cmd/check/main.go:60-69), a failing `bazel query` (cmd/check/main.go:124-128), and `osv.MakeRequest` or `osv.Hydrate` errors (cmd/check/main.go:205-213).
- Printing the vulnerability details and the lists of tests-only and unused packages (cmd/check/main.go:234-262, 269-289) is left out.
- Check.SortedKeys: Go reports whichever unexpected key its map iteration meets first; the model names an arbitrary one. The proofs show none exists.
- Check.Vulnerabilities: the records are listed by ID from the set of IDs, not sorted with `sort.Slice`. As the IDs kept are distinct, both give the same order. Only the ID and aliases of a record are modelled.
- `sort.Strings` compares bytes, while `Less` compares characters. For UTF-8 text both give the order of code points.
- Update.UnmarshalFields: Go writes each accepted field through its pointer as it goes, so fields assigned before an error stay assigned. The model returns only the error. A panic is modelled as an outcome naming the field, without Go's panic message.
- Update: Go's `%#v` rendering of syntax nodes is a function parameter (`Show`). `%q` is modelled as the text in double quotes, without Go's escaping.
- Update: `UpdateDependencies` and the rest of the update command are not part of this model. `StringField.String` returns the field's value.

## Findings

| source | as written | input that shows it | evidently intended | confidence | as-written member | corrected member |
|---|---|---|---|---|---|---|
| cmd/check/main.go:135-152 | A used package's children are looked up in `all` and `directOnly` after earlier used packages have deleted entries from them. A used package whose `directOnly` entry was already deleted is skipped and stays in `all`. | Packages `a` (test dependency `b`), `b` (dependency `c`) and `c`, all three used. `vendor/c` stays in `all` and is counted unused, and `directOnly` ends empty. | A used package, and every child of one, is never reported unused or tests-only. | high; not executed | Check.AsWrittenReportsUsedPackageUnused | Check.ProcessUsedProperties |

The summary (`Check.Summarize`) uses the corrected loop, which looks each
used package's children up in the maps as first built.

=== FILE: actions.dfy ===
/** The parts of the plan's actions that are pure logic
    (cmd/vendor/actions.go): how a package directory's listing is sorted
    into source and test files, the text each generating action describes
    itself with, and the order of the steps that write the cache manifest.
    Rendering, file modes and the writes themselves are parameters. */
module Actions {
  import opened Results
  import opened Sequences
  import opened Paths
  import opened Vendeps
  import opened Cache

  // ---------------------------------------------------------------------
  // Recording a package's files
  // ---------------------------------------------------------------------

  /** One entry of a directory listing. */
  datatype DirEntry = DirEntry(name: string, isDir: bool)

  const TestSuffix: string := "_test.go"
  const GoSuffix: string := ".go"
  const AsmSuffix: string := ".s"

  datatype FileKind = TestFile | SourceFile | Ignored

  /** Which list an entry goes to: directories are skipped, `_test.go`
      files are tests, other `.go` and `.s` files are sources, and the rest
      is ignored. */
  function Classify(e: DirEntry): FileKind {
    if e.isDir then Ignored
    else if HasSuffix(e.name, TestSuffix) then TestFile
    else if HasSuffix(e.name, GoSuffix) || HasSuffix(e.name, AsmSuffix) then SourceFile
    else Ignored
  }

  /** The names of the entries of one kind, in listing order. */
  function NamesOf(entries: seq<DirEntry>, kind: FileKind): (r: seq<string>)
    ensures |r| <= |entries|
    decreases |entries|
  {
    if |entries| == 0 then []
    else
      var last := entries[|entries| - 1];
      NamesOf(entries[..|entries| - 1], kind) + (if Classify(last) == kind then [last.name] else [])
  }

  /** A name is recorded under a kind exactly when some entry with that
      name is of that kind. */
  lemma {:induction false} NamesOfMembers(entries: seq<DirEntry>, kind: FileKind, name: string)
    ensures name in NamesOf(entries, kind) <==>
              exists i :: 0 <= i < |entries| && entries[i].name == name && Classify(entries[i]) == kind
    decreases |entries|
  {
    if |entries| > 0 {
      var init := entries[..|entries| - 1];
      NamesOfMembers(init, kind, name);
      assert forall i :: 0 <= i < |init| ==> init[i] == entries[i];
    }
  }

  /** What recording accepts: a test file is a non-directory whose name
      ends in `_test.go`; a source file is a non-directory whose name ends
      in `.go` or `.s` but not in `_test.go`. */
  lemma RecordedKinds(entries: seq<DirEntry>, name: string)
    ensures name in NamesOf(entries, TestFile) ==> HasSuffix(name, TestSuffix)
    ensures name in NamesOf(entries, SourceFile) ==>
              !HasSuffix(name, TestSuffix) && (HasSuffix(name, GoSuffix) || HasSuffix(name, AsmSuffix))
    ensures (exists i :: 0 <= i < |entries| && entries[i] == DirEntry(name, false)) ==>
              (HasSuffix(name, TestSuffix) ==> name in NamesOf(entries, TestFile))
              && (!HasSuffix(name, TestSuffix) && (HasSuffix(name, GoSuffix) || HasSuffix(name, AsmSuffix))
                  ==> name in NamesOf(entries, SourceFile))
  {
    NamesOfMembers(entries, TestFile, name);
    NamesOfMembers(entries, SourceFile, name);
  }

  /** The names recorded from one more entry of the listing. */
  lemma NamesOfStep(entries: seq<DirEntry>, i: int, kind: FileKind)
    requires 0 <= i < |entries|
    ensures Classify(entries[i]) == kind ==> NamesOf(entries[..i + 1], kind) == NamesOf(entries[..i], kind) + [entries[i].name]
    ensures Classify(entries[i]) != kind ==> NamesOf(entries[..i + 1], kind) == NamesOf(entries[..i], kind)
  {
    assert entries[..i + 1][..i] == entries[..i];
    assert NamesOf(entries[..i], kind) + [] == NamesOf(entries[..i], kind);
  }

  /** recordGoPackageFiles: on a listing of the package's directory, append
      the test files to `testFiles` and the other Go and assembly files to
      `files`, in listing order; the lists are never cleared and nothing
      else changes. A listing that fails is reported with the package's
      name. */
  method RecordGoPackageFiles(pkg: GoPackage, listing: Result<seq<DirEntry>, string>)
    returns (r: Result<GoPackage, string>)
    ensures listing.Err? ==> r == Err("failed to read directory containing " + pkg.name + ": " + listing.error)
    ensures listing.Ok? ==> r.Ok?
    ensures listing.Ok? ==> r.value.(files := pkg.files, testFiles := pkg.testFiles) == pkg
    ensures listing.Ok? ==> r.value.files == pkg.files + NamesOf(listing.value, SourceFile)
    ensures listing.Ok? ==> r.value.testFiles == pkg.testFiles + NamesOf(listing.value, TestFile)
  {
    if listing.Err? {
      return Err("failed to read directory containing " + pkg.name + ": " + listing.error);
    }
    var entries := listing.value;
    var files := pkg.files;
    var testFiles := pkg.testFiles;
    for i := 0 to |entries|
      invariant files == pkg.files + NamesOf(entries[..i], SourceFile)
      invariant testFiles == pkg.testFiles + NamesOf(entries[..i], TestFile)
    {
      NamesOfStep(entries, i, SourceFile);
      NamesOfStep(entries, i, TestFile);
      var entry := entries[i];
      if entry.isDir {
        assert Classify(entry) == Ignored;
      } else if HasSuffix(entry.name, TestSuffix) {
        assert Classify(entry) == TestFile;
        ConcatAssociative(pkg.testFiles, NamesOf(entries[..i], TestFile), [entry.name]);
        testFiles := testFiles + [entry.name];
      } else if HasSuffix(entry.name, GoSuffix) || HasSuffix(entry.name, AsmSuffix) {
        assert Classify(entry) == SourceFile;
        ConcatAssociative(pkg.files, NamesOf(entries[..i], SourceFile), [entry.name]);
        files := files + [entry.name];
      } else {
        assert Classify(entry) == Ignored;
      }
    }
    assert entries[..|entries|] == entries;
    return Ok(pkg.(files := files, testFiles := testFiles));
  }

  // ---------------------------------------------------------------------
  // Descriptions
  // ---------------------------------------------------------------------

  const GoPackageLead: string := "generate BUILD file for Go package "
  const TextFilesLead: string := "generate BUILD file for text files "
  const CacheManifestLead: string := "generate cache manifest to "
  const To: string := " to "

  /** The String() text of the generating actions. The other actions'
      descriptions are not part of this model. */
  function Description(a: Action): (r: Option<string>)
    ensures r.Some? <==> a.GenerateGoPackageBUILD? || a.GenerateTextFilesBUILD? || a.BuildCacheManifest?
  {
    match a
    case GenerateGoPackageBUILD(pkg, path) => Some(GoPackageLead + pkg.name + To + path)
    case GenerateTextFilesBUILD(files, path) => Some(TextFilesLead + files.name + To + path)
    case BuildCacheManifest(_, path) => Some(CacheManifestLead + path)
    case _ => None
  }

  lemma TrimBoth(lead: string, middle: string, tail: string)
    ensures TrimSuffix(TrimPrefix(lead + middle + tail, lead), tail) == middle
  {
    var s := lead + middle + tail;
    assert s[..|lead|] == lead;
    assert s[|lead|..] == middle + tail;
    assert (middle + tail)[|middle|..] == tail;
    assert (middle + tail)[..|middle|] == middle;
  }

  /** Each description gives back what it names: the package or directory
      between its lead and " to <path>", and the path at its end. */
  lemma DescriptionNames(a: Action)
    ensures a.GenerateGoPackageBUILD? ==>
              TrimSuffix(TrimPrefix(Description(a).value, GoPackageLead), To + a.path) == a.pkg.name
    ensures a.GenerateTextFilesBUILD? ==>
              TrimSuffix(TrimPrefix(Description(a).value, TextFilesLead), To + a.path) == a.files.name
    ensures a.BuildCacheManifest? ==> TrimSuffix(TrimPrefix(Description(a).value, CacheManifestLead), a.path) == ""
  {
    match a
    case GenerateGoPackageBUILD(pkg, path) =>
      assert GoPackageLead + pkg.name + To + path == GoPackageLead + pkg.name + (To + path);
      TrimBoth(GoPackageLead, pkg.name, To + path);
    case GenerateTextFilesBUILD(files, path) =>
      assert TextFilesLead + files.name + To + path == TextFilesLead + files.name + (To + path);
      TrimBoth(TextFilesLead, files.name, To + path);
    case BuildCacheManifest(_, path) =>
      TrimBoth(CacheManifestLead, "", path);
      assert CacheManifestLead + "" + path == CacheManifestLead + path;
    case _ =>
  }

  /** The three formats cannot be confused: equal descriptions come from
      actions of the same kind. */
  lemma DescriptionsDistinguishKinds(a: Action, b: Action)
    requires Description(a).Some? && Description(a) == Description(b)
    ensures a.GenerateGoPackageBUILD? <==> b.GenerateGoPackageBUILD?
    ensures a.GenerateTextFilesBUILD? <==> b.GenerateTextFilesBUILD?
    ensures a.BuildCacheManifest? <==> b.BuildCacheManifest?
  {
    var d := Description(a).value;
    assert GoPackageLead[24] == 'G' && TextFilesLead[24] == 't';
    assert GoPackageLead[9] == 'B' && CacheManifestLead[9] == 'c';
    assert a.GenerateGoPackageBUILD? ==> d[24] == 'G' && d[9] == 'B';
    assert a.GenerateTextFilesBUILD? ==> d[24] == 't' && d[9] == 'B';
    assert a.BuildCacheManifest? ==> d[9] == 'c';
    assert b.GenerateGoPackageBUILD? ==> d[24] == 'G' && d[9] == 'B';
    assert b.GenerateTextFilesBUILD? ==> d[24] == 't' && d[9] == 'B';
    assert b.BuildCacheManifest? ==> d[9] == 'c';
  }

  // ---------------------------------------------------------------------
  // Writing the cache manifest
  // ---------------------------------------------------------------------

  type Bytes = seq<bv8>

  /** A write of `content` to `path`. */
  datatype Write = Write(path: string, content: Bytes)

  /** What running an action did: the write it attempted, if any, and the
      error it returned, if any. */
  datatype Effect = Effect(write: Option<Write>, error: Option<string>)

  /** BuildCacheManifest.Do: generate the manifest from the tree, render
      it, then write it, each step's failure ending the action. `render`
      and `write` stand for the Starlark rendering and the file write; a
      write returns its error, if any. */
  function DoBuildCacheManifest(deps: Deps, path: string, digests: Digester,
                                render: (string, Deps) -> Result<Bytes, string>,
                                write: Write -> Option<string>): (r: Effect)
    ensures r.write.Some? <==>
              GenerateCacheManifest(deps, digests).Ok? && render(path, GenerateCacheManifest(deps, digests).value).Ok?
    ensures r.write.Some? ==> r.write.value == Write(path, render(path, GenerateCacheManifest(deps, digests).value).value)
    ensures r.error.None? <==> r.write.Some? && write(r.write.value).None?
    ensures GenerateCacheManifest(deps, digests).Err? ==>
              r.error == Some("failed to build cache manifest: " + GenerateCacheManifest(deps, digests).error)
  {
    match GenerateCacheManifest(deps, digests)
    case Err(e) => Effect(None, Some("failed to build cache manifest: " + e))
    case Ok(manifest) =>
      match render(path, manifest)
      case Err(e) => Effect(None, Some(e))
      case Ok(pretty) =>
        var w := Write(path, pretty);
        match write(w)
        case Some(e) => Effect(Some(w), Some("failed to write cache manifest to " + path + ": " + e))
        case None => Effect(Some(w), None)
  }

  /** What a successful BuildCacheManifest writes is a rendering of a
      manifest that lists the same modules, in the same order, as the
      action's own. */
  lemma WrittenManifestListsSameModules(deps: Deps, path: string, digests: Digester,
                                        render: (string, Deps) -> Result<Bytes, string>,
                                        write: Write -> Option<string>)
    requires DoBuildCacheManifest(deps, path, digests, render, write).write.Some?
    ensures exists m: Deps ::
              && render(path, m) == Ok(DoBuildCacheManifest(deps, path, digests, render, write).write.value.content)
              && |m.go| == |deps.go|
              && forall i :: 0 <= i < |deps.go| ==> m.go[i].name == deps.go[i].name && m.go[i].version == deps.go[i].version
  {
    var m := GenerateCacheManifest(deps, digests).value;
    forall i | 0 <= i < |deps.go|
      ensures m.go[i].name == deps.go[i].name && m.go[i].version == deps.go[i].version
    {
      assert m.go[i].(digest := deps.go[i].digest, patchDigest := deps.go[i].patchDigest) == deps.go[i];
    }
  }
}

=== FILE: cache.dfy ===
/** The download cache (internal/vendeps/cache.go): the filter that drops
    downloads whose vendored copy is provably current, and the generator of
    the digest-annotated cache manifest. */
module Cache {
  import opened Results
  import opened Sequences
  import opened Paths
  import opened Vendeps

  /** The digest engine, as seen at the moment the cache is consulted: a
      fingerprint of a directory with a list of excluded paths, and a
      fingerprint of a list of files. Either may fail. How the fingerprints
      are computed is not part of this model; any pair of functions will do. */
  datatype Digester = Digester(
    directory: (string, seq<string>) -> Result<string, string>,
    files: seq<string> -> Result<string, string>)

  /** The module a lookup by name in the cache manifest finds: the last one
      with that name, as the Go map filled in document order keeps. */
  function Lookup(modules: seq<GoModule>, name: string): Option<GoModule>
    decreases |modules|
  {
    if |modules| == 0 then None
    else if modules[|modules| - 1].name == name then Some(modules[|modules| - 1])
    else Lookup(modules[..|modules| - 1], name)
  }

  /** A lookup finds nothing exactly when no module has the name, and
      otherwise a module of that name that no later module shares it with. */
  lemma {:induction false} LookupFinds(modules: seq<GoModule>, name: string)
    ensures Lookup(modules, name).None? <==> forall i :: 0 <= i < |modules| ==> modules[i].name != name
    ensures Lookup(modules, name).Some? ==>
              exists i :: 0 <= i < |modules| && modules[i] == Lookup(modules, name).value
                          && modules[i].name == name
                          && forall j :: i < j < |modules| ==> modules[j].name != name
    decreases |modules|
  {
    if |modules| > 0 && modules[|modules| - 1].name != name {
      var init := modules[..|modules| - 1];
      LookupFinds(init, name);
      assert forall i :: 0 <= i < |init| ==> init[i] == modules[i];
    }
  }

  /** The generated build files a download's digest leaves out, one per
      package: `<root>/<package>/BUILD.bazel`, where `<root>` is the download
      path with the module name trimmed off its end. */
  function DownloadIgnoreList(mod: GoModule, path: string): (r: seq<string>)
    ensures |r| == |mod.packages|
  {
    var root := TrimSuffix(path, mod.name);
    seq(|mod.packages|, i requires 0 <= i < |mod.packages| =>
      PathJoin([root, mod.packages[i].name, BuildBazel]))
  }

  /** The paths the manifest generator leaves out of a module's digest:
      `vendor/<package>/BUILD.bazel` for each package. */
  function ManifestIgnoreList(mod: GoModule): (r: seq<string>)
    ensures |r| == |mod.packages|
  {
    seq(|mod.packages|, i requires 0 <= i < |mod.packages| =>
      PathJoin([Vendor, mod.packages[i].name, BuildBazel]))
  }

  /** Every condition under which the cache may skip a download, all at
      once: the same version; the vendored directory, build files excluded,
      still hashes to the cached digest; and, when either side lists
      patches, the patches hash to the cached patch digest and the patch
      arguments are deeply equal (a nil list differs from an empty one). A
      digest that fails is a miss. */
  predicate CacheHit(mod: GoModule, path: string, cached: GoModule, digests: Digester) {
    && mod.version == cached.version
    && digests.directory(path, DownloadIgnoreList(mod, path)) == Ok(cached.digest)
    && ((|mod.patches| == 0 && |cached.patches| == 0)
        || (digests.files(mod.patches) == Ok(cached.patchDigest) && mod.patchArgs == cached.patchArgs))
  }

  /** Patch arguments absent on one side and present but empty on the
      other are a cache miss, however well the digests agree. */
  lemma NilAndEmptyPatchArgsMiss(mod: GoModule, path: string, cached: GoModule, digests: Digester)
    requires |mod.patches| > 0
    requires mod.patchArgs == Some([]) && cached.patchArgs == None
    ensures !CacheHit(mod, path, cached, digests)
  {
  }

  /** A download the cache manifest `cached` shows to be unnecessary. */
  predicate Redundant(a: Action, cached: seq<GoModule>, digests: Digester) {
    && a.DownloadGoModule?
    && Lookup(cached, a.goModule.name).Some?
    && CacheHit(a.goModule, a.path, Lookup(cached, a.goModule.name).value, digests)
  }

  /** The filter the cache applies: keep every action that is not redundant. */
  function KeepUnlessRedundant(cached: seq<GoModule>, digests: Digester): Action -> bool {
    a => !Redundant(a, cached, digests)
  }

  predicate IsNotDownload(a: Action) {
    !a.DownloadGoModule?
  }

  /** Reference definition of the cache filter: without a usable cache
      manifest (missing, unparseable, or with no modules; `None` stands for
      the first two) the plan is unchanged; otherwise exactly the redundant
      downloads are dropped. */
  function StripCached(actions: seq<Action>, cache: Option<Deps>, digests: Digester): (r: seq<Action>)
    ensures cache.None? || |cache.value.go| == 0 ==> r == actions
    ensures IsSubsequence(r, actions)
    ensures forall a :: a in actions && !a.DownloadGoModule? ==> a in r
    ensures cache.Some? ==> forall a :: a in r <==> a in actions && (|cache.value.go| == 0 || !Redundant(a, cache.value.go, digests))
    ensures Filter(r, IsNotDownload) == Filter(actions, IsNotDownload)
  {
    if cache.None? || |cache.value.go| == 0 then
      IsSubsequenceReflexive(actions);
      actions
    else
      var keep := KeepUnlessRedundant(cache.value.go, digests);
      var r := Filter(actions, keep);
      FilterOfFilter(actions, keep, IsNotDownload);
      r
  }

  /** `index` maps each name to what a lookup in `cached` finds. */
  ghost predicate IndexOf(index: map<string, GoModule>, cached: seq<GoModule>) {
    && (forall name :: name in index <==> Lookup(cached, name).Some?)
    && (forall name :: name in index ==> index[name] == Lookup(cached, name).value)
  }

  /** The name-indexed view of the cache manifest the Go code builds before
      filtering. */
  method IndexCache(cached: seq<GoModule>) returns (index: map<string, GoModule>)
    ensures IndexOf(index, cached)
  {
    index := map[];
    for i := 0 to |cached|
      invariant forall name :: name in index <==> Lookup(cached[..i], name).Some?
      invariant forall name :: name in index ==> index[name] == Lookup(cached[..i], name).value
    {
      assert cached[..i + 1][..i] == cached[..i];
      index := index[cached[i].name := cached[i]];
    }
    assert cached[..|cached|] == cached;
  }

  /** The checks of the Go loop for one download, in their order, each
      failure keeping the download. */
  method KeepDownload(dl: Action, index: map<string, GoModule>, ghost cached: seq<GoModule>, digests: Digester)
    returns (keep: bool)
    requires dl.DownloadGoModule?
    requires IndexOf(index, cached)
    ensures keep <==> !Redundant(dl, cached, digests)
  {
    if dl.goModule.name !in index || dl.goModule.version != index[dl.goModule.name].version {
      return true;
    }
    var cachedModule := index[dl.goModule.name];

    var ignore := DownloadIgnoreList(dl.goModule, dl.path);
    var gotDigest := digests.directory(dl.path, ignore);
    if gotDigest.Err? || gotDigest.value != cachedModule.digest {
      return true;
    }

    if |dl.goModule.patches| != 0 || |cachedModule.patches| != 0 {
      var gotPatchDigest := digests.files(dl.goModule.patches);
      if gotPatchDigest.Err? {
        return true;
      }
      if dl.goModule.patchArgs != cachedModule.patchArgs || gotPatchDigest.value != cachedModule.patchDigest {
        return true;
      }
    }
    return false;
  }

  /** One step of the Go loop: a download is checked against the index,
      every other action is kept. */
  method KeepAction(action: Action, index: map<string, GoModule>, ghost cached: seq<GoModule>, digests: Digester)
    returns (keep: bool)
    requires IndexOf(index, cached)
    ensures keep == KeepUnlessRedundant(cached, digests)(action)
  {
    keep := true;
    if action.DownloadGoModule? {
      keep := KeepDownload(action, index, cached, digests);
    }
  }

  /** The pass of the Go loop over the plan, with the index built. */
  method KeepUncached(actions: seq<Action>, index: map<string, GoModule>, ghost cached: seq<GoModule>, digests: Digester)
    returns (out: seq<Action>)
    requires IndexOf(index, cached)
    ensures out == Filter(actions, KeepUnlessRedundant(cached, digests))
  {
    ghost var keepAction := KeepUnlessRedundant(cached, digests);
    out := [];
    for i := 0 to |actions|
      invariant out == Filter(actions[..i], keepAction)
    {
      var action := actions[i];
      TakeSnoc(actions, i);
      FilterSnoc(actions[..i], action, keepAction);
      var keep := KeepAction(action, index, cached, digests);
      if keep {
        out := out + [action];
      }
    }
    assert actions[..|actions|] == actions;
  }

  /** StripCachedActions, written as the Go code runs: a lookup map from the
      cache manifest, then one pass over the actions keeping everything but
      the downloads whose every check passes. */
  method StripCachedActions(actions: seq<Action>, cache: Option<Deps>, digests: Digester)
    returns (out: seq<Action>)
    ensures out == StripCached(actions, cache, digests)
  {
    if cache.None? || |cache.value.go| == 0 {
      return actions;
    }
    var index := IndexCache(cache.value.go);
    out := KeepUncached(actions, index, cache.value.go, digests);
  }

  /** The cache-manifest copy of one module: the module unchanged except for
      its content digest (generated build files excluded) and its patch
      digest, which is empty when the module has no patches. */
  function CacheEntry(mod: GoModule, digests: Digester): (r: Result<GoModule, string>)
    ensures r.Ok? <==> digests.directory(PathJoin([Vendor, mod.name]), ManifestIgnoreList(mod)).Ok?
                       && (|mod.patches| > 0 ==> digests.files(mod.patches).Ok?)
    ensures r.Ok? ==> r.value.(digest := mod.digest, patchDigest := mod.patchDigest) == mod
    ensures r.Ok? ==> Ok(r.value.digest) == digests.directory(PathJoin([Vendor, mod.name]), ManifestIgnoreList(mod))
    ensures r.Ok? && |mod.patches| == 0 ==> r.value.patchDigest == ""
    ensures r.Ok? && |mod.patches| > 0 ==> Ok(r.value.patchDigest) == digests.files(mod.patches)
  {
    var dir := PathJoin([Vendor, mod.name]);
    match digests.directory(dir, ManifestIgnoreList(mod))
    case Err(e) => Err("failed to cache Go module " + mod.name + ": " + e)
    case Ok(digest) =>
      if |mod.patches| > 0 then
        match digests.files(mod.patches)
        case Err(e) => Err("failed to cache Go module " + mod.name + "'s patches: " + e)
        case Ok(patchDigest) => Ok(mod.(digest := digest, patchDigest := patchDigest))
      else
        Ok(mod.(digest := digest, patchDigest := ""))
  }

  function EntryOf(digests: Digester): GoModule -> Result<GoModule, string> {
    m => CacheEntry(m, digests)
  }

  /** GenerateCacheManifest: the manifest's modules, in order, each replaced
      by its cache entry; the first module whose digest fails makes the whole
      generation fail with that module's error. */
  function GenerateCacheManifest(deps: Deps, digests: Digester): (r: Result<Deps, string>)
    ensures r.Ok? <==> forall i :: 0 <= i < |deps.go| ==> CacheEntry(deps.go[i], digests).Ok?
    ensures r.Ok? ==> |r.value.go| == |deps.go|
    ensures r.Ok? ==> forall i :: 0 <= i < |deps.go| ==>
              r.value.go[i].(digest := deps.go[i].digest, patchDigest := deps.go[i].patchDigest) == deps.go[i]
              && Ok(r.value.go[i].digest) == digests.directory(PathJoin([Vendor, deps.go[i].name]), ManifestIgnoreList(deps.go[i]))
              && (|deps.go[i].patches| == 0 ==> r.value.go[i].patchDigest == "")
    ensures r.Err? ==> exists i :: 0 <= i < |deps.go| && CacheEntry(deps.go[i], digests) == Err(r.error)
                         && forall j :: 0 <= j < i ==> CacheEntry(deps.go[j], digests).Ok?
  {
    MapResultFirstError(deps.go, EntryOf(digests));
    match MapResult(deps.go, EntryOf(digests))
    case Err(e) => Err(e)
    case Ok(modules) => Ok(Deps(modules))
  }
}

=== FILE: check.dfy ===
/** The dependency check (cmd/check/main.go): which declared packages the
    build never uses or uses only from tests, the vulnerability queries for
    the declared modules, and the grouping of the vulnerabilities found.
    The `bazel query` that lists the used packages and the vulnerability
    database requests are inputs, as their results. */
module Check {
  import opened Results
  import opened Sequences
  import opened Paths
  import opened Ordering
  import opened Vendeps
  import opened Planner

  // ---------------------------------------------------------------------
  // The package graphs
  // ---------------------------------------------------------------------

  /** "vendor/", the Bazel package prefix of every vendored package. */
  const VendorPrefix: string := Vendor + [Separator]

  /** Bazel packages, each `vendor/` followed by an import path. */
  function Prefixed(names: seq<string>): (r: seq<string>)
    ensures |r| == |names|
    ensures forall i :: 0 <= i < |names| ==> r[i] == VendorPrefix + names[i]
  {
    seq(|names|, i requires 0 <= i < |names| => VendorPrefix + names[i])
  }

  /** The two maps from a package to its children: `all` with build and
      test dependencies, `directOnly` with build dependencies only. */
  datatype Graphs = Graphs(all: map<string, seq<string>>, directOnly: map<string, seq<string>>)

  function Key(p: GoPackage): string {
    VendorPrefix + p.name
  }

  /** A package's children in `all`: its build then its test dependencies. */
  function AllChildren(p: GoPackage): seq<string> {
    Prefixed(p.deps) + Prefixed(p.testDeps)
  }

  /** A package's children in `directOnly`: its build dependencies. */
  function DirectChildren(p: GoPackage): seq<string> {
    Prefixed(p.deps)
  }

  /** The graphs the check builds from the packages in manifest order; a
      later package with the same name replaces an earlier one. */
  function BuildGraphs(packages: seq<GoPackage>): Graphs
    decreases |packages|
  {
    if |packages| == 0 then Graphs(map[], map[])
    else
      var g := BuildGraphs(packages[..|packages| - 1]);
      var p := packages[|packages| - 1];
      Graphs(g.all[Key(p) := AllChildren(p)], g.directOnly[Key(p) := DirectChildren(p)])
  }

  /** The package whose entry key `k` ends up holding: the last one with
      that key, as the map assignments of later packages overwrite those of
      earlier ones. */
  function Declaration(packages: seq<GoPackage>, k: string): (r: Option<GoPackage>)
    ensures r.Some? ==> r.value in packages && Key(r.value) == k
    decreases |packages|
  {
    if |packages| == 0 then None
    else if Key(packages[|packages| - 1]) == k then Some(packages[|packages| - 1])
    else Declaration(packages[..|packages| - 1], k)
  }

  /** Every package's key has a declaration. */
  lemma {:induction false} DeclarationFound(packages: seq<GoPackage>, p: GoPackage)
    requires p in packages
    ensures Declaration(packages, Key(p)).Some?
    decreases |packages|
  {
    var init := packages[..|packages| - 1];
    if Key(packages[|packages| - 1]) != Key(p) {
      assert packages == init + [packages[|packages| - 1]];
      DeclarationFound(init, p);
    }
  }

  /** The graphs hold, for each key, the children of its declaration. */
  ghost predicate Describes(g: Graphs, packages: seq<GoPackage>) {
    forall k ::
      && (k in g.all <==> Declaration(packages, k).Some?)
      && (k in g.directOnly <==> k in g.all)
      && (k in g.all ==> g.all[k] == AllChildren(Declaration(packages, k).value))
      && (k in g.directOnly ==> g.directOnly[k] == DirectChildren(Declaration(packages, k).value))
  }

  lemma {:induction false} GraphsShape(packages: seq<GoPackage>)
    ensures Describes(BuildGraphs(packages), packages)
    decreases |packages|
  {
    if |packages| > 0 {
      GraphsShape(packages[..|packages| - 1]);
    }
  }

  /** The maps a check starts from: the same keys, and each key's build
      children among its children. */
  ghost predicate Consistent(g: Graphs) {
    && (forall k :: k in g.directOnly <==> k in g.all)
    && (forall k, c :: k in g.directOnly && c in g.directOnly[k] ==> c in g.all[k])
  }

  lemma BuiltGraphsConsistent(packages: seq<GoPackage>)
    ensures Consistent(BuildGraphs(packages))
    ensures forall k :: k in BuildGraphs(packages).all ==> HasPrefix(k, VendorPrefix)
  {
    var g := BuildGraphs(packages);
    GraphsShape(packages);
    forall k | k in g.all
      ensures HasPrefix(k, VendorPrefix)
      ensures forall c :: c in g.directOnly[k] ==> c in g.all[k]
    {
      var p := Declaration(packages, k).value;
      assert k[..|VendorPrefix|] == VendorPrefix;
      assert forall c :: c in g.directOnly[k] ==> c in g.all[k] by {
        assert g.all[k] == g.directOnly[k] + Prefixed(p.testDeps);
      }
    }
  }

  /** The children a map lists for a package, none when it has no entry. */
  function Children(m: map<string, seq<string>>, k: string): seq<string> {
    if k in m then m[k] else []
  }

  // ---------------------------------------------------------------------
  // Processing the used packages, as written
  // ---------------------------------------------------------------------

  /** One turn of the Go loop over the used packages: a package with no
      `directOnly` entry is skipped; otherwise its children are deleted from
      `all`, its build children from `directOnly`, and the package from
      both. The children are looked up in the maps as they are now, which
      earlier turns may already have emptied. */
  function VisitAsWritten(g: Graphs, pkg: string): Graphs {
    if pkg !in g.directOnly then g
    else
      var children := Children(g.all, pkg);
      var directChildren := g.directOnly[pkg];
      Graphs(g.all - (set c | c in children) - {pkg}, g.directOnly - (set c | c in directChildren) - {pkg})
  }

  function ProcessUsedAsWritten(g: Graphs, used: seq<string>): Graphs
    decreases |used|
  {
    if |used| == 0 then g else ProcessUsedAsWritten(VisitAsWritten(g, used[0]), used[1..])
  }

  /** The three packages of the counterexample: `a` needs `b` in its tests,
      `b` needs `c` to build. */
  function CounterexamplePackages(): seq<GoPackage> {
    [NamedPackage("a").(testDeps := ["b"]), NamedPackage("b").(deps := ["c"]), NamedPackage("c")]
  }

  /** The Bazel packages of the counterexample, which are all different. */
  lemma CounterexampleKeys() returns (a: string, b: string, c: string)
    ensures a == VendorPrefix + "a" && b == VendorPrefix + "b" && c == VendorPrefix + "c"
    ensures a != b && b != c && a != c
    ensures Prefixed(["a", "b", "c"]) == [a, b, c]
  {
    a, b, c := VendorPrefix + "a", VendorPrefix + "b", VendorPrefix + "c";
    assert a[|VendorPrefix|] == 'a' && b[|VendorPrefix|] == 'b' && c[|VendorPrefix|] == 'c';
  }

  /** The graphs of the counterexample: `vendor/a` has the test child
      `vendor/b`, `vendor/b` the build child `vendor/c`. */
  lemma CounterexampleGraphs() returns (a: string, b: string, c: string)
    ensures a == VendorPrefix + "a" && b == VendorPrefix + "b" && c == VendorPrefix + "c"
    ensures a != b && b != c && a != c
    ensures Prefixed(["a", "b", "c"]) == [a, b, c]
    ensures BuildGraphs(CounterexamplePackages())
            == Graphs(map[a := [b], b := [c], c := []], map[a := [], b := [c], c := []])
  {
    a, b, c := CounterexampleKeys();
    var p := CounterexamplePackages();
    assert Prefixed(["b"]) == [b] && Prefixed(["c"]) == [c] && Prefixed([]) == [];
    assert Key(p[0]) == a && AllChildren(p[0]) == [b] && DirectChildren(p[0]) == [];
    assert Key(p[1]) == b && AllChildren(p[1]) == [c] && DirectChildren(p[1]) == [c];
    assert Key(p[2]) == c && AllChildren(p[2]) == [] && DirectChildren(p[2]) == [];
    assert p[..1][..0] == [];
    assert BuildGraphs(p[..1]) == Graphs(map[a := [b]], map[a := []]);
    assert p[..2][..1] == p[..1];
    assert BuildGraphs(p[..2]) == Graphs(map[a := [b], b := [c]], map[a := [], b := [c]]);
    assert p[..2] == p[..|p| - 1];
  }

  /** Visiting `a`, whose only child is the test child `b`, deletes `b`
      from `all` but leaves `b`'s build children listed in `directOnly`. */
  lemma AsWrittenFirstTurn(g: Graphs, a: string, b: string, c: string)
    requires a != b && b != c && a != c
    requires g == Graphs(map[a := [b], b := [c], c := []], map[a := [], b := [c], c := []])
    ensures var g1 := VisitAsWritten(g, a);
            c in g1.all && b !in g1.all && b in g1.directOnly && g1.directOnly[b] == [c]
            && g1.directOnly.Keys == {b, c}
  {
    assert (set x | x in g.directOnly[a]) == {} && (set x | x in Children(g.all, a)) == {b};
  }

  /** Visiting `b` after its entry left `all` deletes its build child `c`
      from `directOnly` only. */
  lemma AsWrittenSecondTurn(g1: Graphs, b: string, c: string)
    requires b != c
    requires c in g1.all && b !in g1.all && b in g1.directOnly && g1.directOnly[b] == [c]
    requires g1.directOnly.Keys == {b, c}
    ensures var g2 := VisitAsWritten(g1, b);
            c in g2.all && c !in g2.directOnly && VisitAsWritten(g2, c) == g2
            && |g2.directOnly| == 0
  {
    assert Children(g1.all, b) == [];
  }

  /** As written, a package the build uses can be reported unused: with
      `a` (test dependency `b`), `b` (dependency `c`) and `c`, all three
      used, processing `vendor/a` deletes `vendor/b` from `all`; processing
      `vendor/b` then finds no children there and deletes `vendor/c` from
      `directOnly` only; processing `vendor/c` then skips it. `vendor/c`
      is left in `all`, a key that `directOnly` no longer has, and
      `directOnly` ends empty. */
  lemma AsWrittenReportsUsedPackageUnused()
    ensures var g := BuildGraphs(CounterexamplePackages());
            var used := Prefixed(["a", "b", "c"]);
            var after := ProcessUsedAsWritten(g, used);
            && VendorPrefix + "c" in used
            && VendorPrefix + "c" in after.all
            && VendorPrefix + "c" !in after.directOnly
            && |after.directOnly| == 0
  {
    var a, b, c := CounterexampleGraphs();
    var g := BuildGraphs(CounterexamplePackages());
    var g1 := VisitAsWritten(g, a);
    AsWrittenFirstTurn(g, a, b, c);
    var g2 := VisitAsWritten(g1, b);
    AsWrittenSecondTurn(g1, b, c);
    assert [a, b, c][1..] == [b, c] && [b, c][1..] == [c] && [c][1..] == [];
    assert ProcessUsedAsWritten(g, [a, b, c]) == ProcessUsedAsWritten(g1, [b, c]);
    assert ProcessUsedAsWritten(g1, [b, c]) == ProcessUsedAsWritten(g2, [c]);
    assert ProcessUsedAsWritten(g2, [c]) == g2;
  }


  // ---------------------------------------------------------------------
  // Processing the used packages, corrected
  // ---------------------------------------------------------------------

  /** One turn of the loop with the children looked up in the maps as
      built, `g0`; the rest is as in the Go loop. */
  function Visit(g0: Graphs, g: Graphs, pkg: string): Graphs {
    if pkg !in g0.directOnly then g
    else
      var children := Children(g0.all, pkg);
      var directChildren := g0.directOnly[pkg];
      Graphs(g.all - (set c | c in children) - {pkg}, g.directOnly - (set c | c in directChildren) - {pkg})
  }

  function ProcessUsed(g0: Graphs, g: Graphs, used: seq<string>): Graphs
    decreases |used|
  {
    if |used| == 0 then g else ProcessUsed(g0, Visit(g0, g, used[0]), used[1..])
  }

  /** `k` is a declared package the build uses. */
  predicate UsedDeclared(g0: Graphs, used: seq<string>, k: string) {
    k in used && k in g0.directOnly
  }

  /** `k` is a child of a declared package the build uses. */
  ghost predicate ChildOfUsed(g0: Graphs, used: seq<string>, k: string) {
    exists u :: u in used && u in g0.directOnly && k in Children(g0.all, u)
  }

  /** `k` is a build child of a declared package the build uses. */
  ghost predicate DirectChildOfUsed(g0: Graphs, used: seq<string>, k: string) {
    exists u :: u in used && u in g0.directOnly && k in g0.directOnly[u]
  }

  /** Membership in `used` splits into its first element and the rest. */
  lemma UsedSplits(g0: Graphs, used: seq<string>, k: string)
    requires |used| > 0
    ensures UsedDeclared(g0, used, k) <==> (used[0] == k && k in g0.directOnly) || UsedDeclared(g0, used[1..], k)
    ensures ChildOfUsed(g0, used, k) <==>
              (used[0] in g0.directOnly && k in Children(g0.all, used[0])) || ChildOfUsed(g0, used[1..], k)
    ensures DirectChildOfUsed(g0, used, k) <==>
              (used[0] in g0.directOnly && k in g0.directOnly[used[0]]) || DirectChildOfUsed(g0, used[1..], k)
  {
    assert used == [used[0]] + used[1..];
  }

  /** What the corrected loop leaves: of the packages in the maps, those
      neither used nor a (build) child of a used package, with their
      children unchanged. */
  lemma {:induction false} ProcessUsedKeeps(g0: Graphs, g: Graphs, used: seq<string>)
    ensures var r := ProcessUsed(g0, g, used);
            && (forall k :: k in r.all <==> k in g.all && !UsedDeclared(g0, used, k) && !ChildOfUsed(g0, used, k))
            && (forall k :: k in r.directOnly <==>
                  k in g.directOnly && !UsedDeclared(g0, used, k) && !DirectChildOfUsed(g0, used, k))
            && (forall k :: k in r.all ==> r.all[k] == g.all[k])
            && (forall k :: k in r.directOnly ==> r.directOnly[k] == g.directOnly[k])
    decreases |used|
  {
    if |used| > 0 {
      ProcessUsedKeeps(g0, Visit(g0, g, used[0]), used[1..]);
      forall k {
        UsedSplits(g0, used, k);
      }
    }
  }

  /** With consistent maps, a build child is a child. */
  lemma DirectChildIsChild(g0: Graphs, used: seq<string>, k: string)
    requires Consistent(g0)
    ensures DirectChildOfUsed(g0, used, k) ==> ChildOfUsed(g0, used, k)
  {
    if DirectChildOfUsed(g0, used, k) {
      var v :| v in used && v in g0.directOnly && k in g0.directOnly[v];
      assert k in Children(g0.all, v);
    }
  }

  /** After the corrected loop, no package the build uses is a key of
      either map, and every key of `all` is still a key of `directOnly`. */
  lemma ProcessUsedProperties(g0: Graphs, used: seq<string>)
    requires Consistent(g0)
    ensures var r := ProcessUsed(g0, g0, used);
            && (forall k :: k in used ==> k !in r.all && k !in r.directOnly)
            && (forall k :: k in r.all ==> k in r.directOnly)
  {
    ProcessUsedKeeps(g0, g0, used);
    forall k {
      DirectChildIsChild(g0, used, k);
    }
  }

  /** The corrected loop on the counterexample reports nothing. */
  lemma CorrectedReportsNoUsedPackage()
    ensures var g := BuildGraphs(CounterexamplePackages());
            var after := ProcessUsed(g, g, Prefixed(["a", "b", "c"]));
            after.all == map[] && after.directOnly == map[]
  {
    var a, b, c := CounterexampleGraphs();
    var g := BuildGraphs(CounterexamplePackages());
    assert Consistent(g);
    ProcessUsedProperties(g, [a, b, c]);
  }

  // ---------------------------------------------------------------------
  // The summary
  // ---------------------------------------------------------------------

  /** The number of packages the manifest declares, counted module by
      module. */
  function PackageCount(modules: seq<GoModule>): nat
    decreases |modules|
  {
    if |modules| == 0 then 0 else |modules[0].packages| + PackageCount(modules[1..])
  }

  /** The packages gathered for the graphs are as many as the count. */
  lemma {:induction false} AllPackagesCount(modules: seq<GoModule>)
    ensures |AllPackages(modules)| == PackageCount(modules)
    decreases |modules|
  {
    if |modules| > 0 {
      AllPackagesCount(modules[1..]);
    }
  }

  /** What the check reports before consulting the vulnerability database. */
  datatype Summary = Summary(modules: nat, packages: nat, unused: seq<string>, testsOnly: seq<string>)

  /** The keys of a map after processing, sorted; a key without the
      `vendor/` prefix is an error naming one such key. */
  ghost function SortedKeys(m: map<string, seq<string>>): (r: Result<seq<string>, string>)
    ensures r.Ok? <==> forall k :: k in m ==> HasPrefix(k, VendorPrefix)
    ensures r.Ok? ==> StrictlySorted(r.value) && forall k :: k in r.value <==> k in m
  {
    if exists k :: k in m && !HasPrefix(k, VendorPrefix) then
      var k :| k in m && !HasPrefix(k, VendorPrefix);
      Err("found unexpected Bazel package //" + k)
    else
      Ok(SortedElements(m.Keys))
  }

  /** The counts and the two sorted lists, from the corrected loop. */
  ghost function Summarize(deps: Deps, used: seq<string>): Result<Summary, string> {
    var g := BuildGraphs(AllPackages(deps.go));
    var after := ProcessUsed(g, g, used);
    match SortedKeys(after.all)
    case Err(e) => Err(e)
    case Ok(unused) =>
      match SortedKeys(after.directOnly)
      case Err(e) => Err(e)
      case Ok(testsOnly) => Ok(Summary(|deps.go|, PackageCount(deps.go), unused, testsOnly))
  }

  /** The summary never fails: every key is `vendor/` followed by a name.
      Its counts are the number of modules and of packages; its unused list
      is, sorted, every declared package that is neither used nor a child
      of a used one; its test-only list, every declared package that is
      neither used nor a build child of a used one. */
  lemma SummaryContents(deps: Deps, used: seq<string>)
    ensures Summarize(deps, used).Ok?
    ensures var s := Summarize(deps, used).value;
            var g := BuildGraphs(AllPackages(deps.go));
            && s.modules == |deps.go|
            && s.packages == |AllPackages(deps.go)|
            && StrictlySorted(s.unused) && StrictlySorted(s.testsOnly)
            && (forall k :: k in s.unused <==> k in g.all && k !in used && !ChildOfUsed(g, used, k))
            && (forall k :: k in s.testsOnly <==> k in g.all && k !in used && !DirectChildOfUsed(g, used, k))
  {
    var packages := AllPackages(deps.go);
    var g := BuildGraphs(packages);
    BuiltGraphsConsistent(packages);
    AllPackagesCount(deps.go);
    ProcessUsedKeeps(g, g, used);
  }

  // ---------------------------------------------------------------------
  // Vulnerabilities
  // ---------------------------------------------------------------------

  /** A vulnerability database query for one module. */
  datatype Query = Query(name: string, ecosystem: string, version: string)

  const GoEcosystem: string := "Go"

  /** The query for one module: its name in the Go ecosystem, at its
      version with one leading "v" dropped. */
  function QueryFor(m: GoModule): (q: Query)
    ensures q.name == m.name && q.ecosystem == GoEcosystem
    ensures HasPrefix(m.version, "v") ==> "v" + q.version == m.version
    ensures !HasPrefix(m.version, "v") ==> q.version == m.version
  {
    Query(m.name, GoEcosystem, TrimPrefix(m.version, "v"))
  }

  /** One query per module, in manifest order. */
  function Queries(modules: seq<GoModule>): (r: seq<Query>)
    ensures |r| == |modules|
    ensures forall i :: 0 <= i < |modules| ==> r[i] == QueryFor(modules[i])
  {
    seq(|modules|, i requires 0 <= i < |modules| => QueryFor(modules[i]))
  }

  /** A vulnerability record, with the fields the grouping reads. The
      affected modules and references are only printed, which is not part
      of this model. */
  datatype Vuln = Vuln(id: string, aliases: seq<string>)

  function Flatten(results: seq<seq<Vuln>>): seq<Vuln>
    decreases |results|
  {
    if |results| == 0 then [] else results[0] + Flatten(results[1..])
  }

  function Ids(vulns: seq<Vuln>): set<string> {
    set v | v in vulns :: v.id
  }

  /** The records in order, each dropped when an earlier one has its ID. */
  function FirstById(vulns: seq<Vuln>): (r: seq<Vuln>)
    ensures forall v :: v in r ==> v in vulns
    ensures Ids(r) == Ids(vulns)
    ensures forall i, j :: 0 <= i < j < |r| ==> r[i].id != r[j].id
    decreases |vulns|
  {
    if |vulns| == 0 then []
    else
      var init := vulns[..|vulns| - 1];
      var last := vulns[|vulns| - 1];
      var kept := FirstById(init);
      assert vulns == init + [last];
      assert Ids(vulns) == Ids(init) + {last.id};
      assert Ids(kept + [last]) == Ids(kept) + {last.id};
      if last.id in Ids(kept) then kept else kept + [last]
  }

  /** Each record kept is the first with its ID. */
  lemma {:induction false} FirstByIdKeepsFirst(vulns: seq<Vuln>, w: Vuln) returns (i: int)
    requires w in FirstById(vulns)
    ensures 0 <= i < |vulns| && vulns[i] == w
    ensures forall j :: 0 <= j < i ==> vulns[j].id != w.id
    decreases |vulns|
  {
    var init := vulns[..|vulns| - 1];
    var kept := FirstById(init);
    if w in kept {
      i := FirstByIdKeepsFirst(init, w);
    } else {
      i := |vulns| - 1;
      assert w.id !in Ids(init) by {
        assert Ids(init) == Ids(kept);
      }
      forall j | 0 <= j < i
        ensures vulns[j].id != w.id
      {
        assert init[j] in init;
      }
    }
  }

  /** The first record with a given ID. */
  function RecordWithId(vulns: seq<Vuln>, id: string): (v: Vuln)
    requires id in Ids(vulns)
    ensures v in vulns && v.id == id
    decreases |vulns|
  {
    if vulns[0].id == id then vulns[0]
    else
      assert vulns == [vulns[0]] + vulns[1..];
      RecordWithId(vulns[1..], id)
  }

  /** The records of the given IDs, in the order of the IDs. */
  function RecordsOf(kept: seq<Vuln>, ids: seq<string>): (r: seq<Vuln>)
    requires forall i :: 0 <= i < |ids| ==> ids[i] in Ids(kept)
    ensures |r| == |ids|
    ensures forall i :: 0 <= i < |ids| ==> r[i] in kept && r[i].id == ids[i]
  {
    seq(|ids|, i requires 0 <= i < |ids| => RecordWithId(kept, ids[i]))
  }

  /** Listing every ID's record lists every ID once. */
  lemma RecordsOfAllIds(kept: seq<Vuln>, ids: seq<string>)
    requires forall id :: id in ids <==> id in Ids(kept)
    ensures Ids(RecordsOf(kept, ids)) == Ids(kept)
  {
    var r := RecordsOf(kept, ids);
    forall id | id in Ids(kept)
      ensures id in Ids(r)
    {
      var i :| 0 <= i < |ids| && ids[i] == id;
      assert r[i] in r;
    }
  }

  /** The vulnerabilities the check reports: deduplicated by ID across all
      query results, first occurrence kept, sorted by ID. As the IDs left
      are distinct, sorting the records by ID and listing the sorted IDs'
      records are the same. */
  ghost function Vulnerabilities(results: seq<seq<Vuln>>): (r: seq<Vuln>)
    ensures Ids(r) == Ids(Flatten(results))
    ensures |r| == |Ids(Flatten(results))|
    ensures forall i, j :: 0 <= i < j < |r| ==> Less(r[i].id, r[j].id)
    ensures forall v :: v in r ==> v in FirstById(Flatten(results))
  {
    var kept := FirstById(Flatten(results));
    var ids := SortedElements(Ids(kept));
    RecordsOfAllIds(kept, ids);
    RecordsOf(kept, ids)
  }

  // ---------------------------------------------------------------------
  // CheckDependencies
  // ---------------------------------------------------------------------

  /** What a check that gets past the summary reports: the summary and the
      queries it sent. */
  datatype Report = Report(summary: Summary, queries: seq<Query>)

  /** CheckDependencies after the manifest is read: nothing to do for an
      empty manifest; otherwise the summary, then the vulnerability check,
      which fails with the number of distinct vulnerabilities found. `used`
      is what `bazel query` lists; `results` holds the vulnerability
      database's answer to each query. */
  ghost function CheckDependencies(deps: Deps, used: seq<string>, results: seq<seq<Vuln>>): (r: Result<Option<Report>, string>)
    ensures |deps.go| == 0 ==> r == Ok(None)
  {
    if |deps.go| == 0 then Ok(None)
    else
      match Summarize(deps, used)
      case Err(e) => Err(e)
      case Ok(summary) =>
        var vulns := Vulnerabilities(results);
        if |vulns| > 0 then Err("Found " + Decimal(|vulns|) + " vulnerabilities.")
        else Ok(Some(Report(summary, Queries(deps.go))))
  }

  /** For a non-empty manifest the check fails exactly when some query
      found a vulnerability, and the count it reports is the number of
      distinct IDs found. */
  lemma CheckFailsOnVulnerabilities(deps: Deps, used: seq<string>, results: seq<seq<Vuln>>)
    requires |deps.go| > 0
    ensures var r := CheckDependencies(deps, used, results);
            && (r.Err? <==> |Flatten(results)| > 0)
            && (r.Err? ==> r.error == "Found " + Decimal(|Ids(Flatten(results))|) + " vulnerabilities.")
            && (r.Ok? ==> r.value == Some(Report(Summarize(deps, used).value, Queries(deps.go))))
  {
    SummaryContents(deps, used);
    var vulns := Vulnerabilities(results);
    var flat := Flatten(results);
    if |flat| > 0 {
      assert flat[0].id in Ids(flat);
    }
    if |vulns| > 0 {
      assert vulns[0].id in Ids(vulns);
    }
  }
}

=== FILE: command.dfy ===
/** The vendor command (cmd/vendor/main.go): plan, drop what the cache
    shows to be current unless told not to, then either list the actions or
    run them in order, stopping at the first that fails. Flag parsing,
    reading and decoding `deps.bzl`, and what each action does to the tree
    are parameters. */
module VendorCommand {
  import opened Results
  import opened Sequences
  import opened Paths
  import opened Vendeps
  import opened Cache
  import opened Planner
  import opened PlannerLemmas
  import opened Convergence

  // ---------------------------------------------------------------------
  // Running actions in order
  // ---------------------------------------------------------------------

  /** How far a run got: the actions that completed, the state of the world
      after them, and the error of the action that failed, if one did. */
  datatype Execution<W> = Execution(done: seq<Action>, world: W, error: Option<string>)

  /** Run `actions` in order from `world`; `step` is an action's Do, giving
      the next world or an error. The first error ends the run. */
  function Execute<W>(actions: seq<Action>, world: W, step: (W, Action) -> Result<W, string>): Execution<W>
    decreases |actions|
  {
    if |actions| == 0 then Execution([], world, None)
    else
      match step(world, actions[0])
      case Err(e) => Execution([], world, Some(e))
      case Ok(next) =>
        var rest := Execute(actions[1..], next, step);
        Execution([actions[0]] + rest.done, rest.world, rest.error)
  }

  /** A run completes a prefix of the actions: all of them when there is
      no error, and otherwise every action before the one that failed, which
      failed on the world they left. */
  lemma {:induction false} ExecuteStopsAtFirstError<W>(actions: seq<Action>, world: W, step: (W, Action) -> Result<W, string>)
    ensures var r := Execute(actions, world, step);
            && |r.done| <= |actions| && r.done == actions[..|r.done|]
            && (r.error.None? ==> r.done == actions)
            && (r.error.Some? ==> |r.done| < |actions| && step(r.world, actions[|r.done|]) == Err(r.error.value))
    decreases |actions|
  {
    if |actions| > 0 {
      match step(world, actions[0])
      case Err(_) =>
      case Ok(next) =>
        ExecuteStopsAtFirstError(actions[1..], next, step);
        var rest := Execute(actions[1..], next, step);
        var done := [actions[0]] + rest.done;
        assert done[1..] == rest.done;
        assert actions[..|done|] == [actions[0]] + actions[1..][..|rest.done|];
        if rest.error.Some? {
          assert actions[|done|] == actions[1..][|rest.done|];
        } else {
          assert actions == [actions[0]] + actions[1..];
        }
    }
  }

  /** A run that fails in the first part of a concatenation never reaches
      the second. */
  lemma {:induction false} ExecuteAppendFailed<W>(a: seq<Action>, b: seq<Action>, world: W, step: (W, Action) -> Result<W, string>)
    requires Execute(a, world, step).error.Some?
    ensures Execute(a + b, world, step) == Execute(a, world, step)
    decreases |a|
  {
    assert |a| > 0;
    assert (a + b)[0] == a[0];
    assert (a + b)[1..] == a[1..] + b;
    match step(world, a[0])
    case Err(_) =>
    case Ok(next) =>
      ExecuteAppendFailed(a[1..], b, next, step);
  }

  /** A run that gets through the first part of a concatenation goes on
      with the second from the world the first left. */
  lemma {:induction false} ExecuteAppendCompleted<W>(a: seq<Action>, b: seq<Action>, world: W, step: (W, Action) -> Result<W, string>)
    requires Execute(a, world, step).error.None?
    ensures var rb := Execute(b, Execute(a, world, step).world, step);
            Execute(a + b, world, step) == Execution(a + rb.done, rb.world, rb.error)
    decreases |a|
  {
    if |a| == 0 {
      assert a + b == b;
    } else {
      assert (a + b)[0] == a[0];
      assert (a + b)[1..] == a[1..] + b;
      match step(world, a[0])
      case Err(_) =>
      case Ok(next) =>
        ExecuteAppendCompleted(a[1..], b, next, step);
        var rb := Execute(b, Execute(a[1..], next, step).world, step);
        assert [a[0]] + (a[1..] + rb.done) == a + rb.done;
    }
  }

  /** The loop of Main over the actions when not in dry-run mode. */
  method RunActions<W>(actions: seq<Action>, world: W, step: (W, Action) -> Result<W, string>)
    returns (done: seq<Action>, after: W, err: Option<string>)
    ensures Execution(done, after, err) == Execute(actions, world, step)
  {
    done := [];
    after := world;
    for i := 0 to |actions|
      invariant Execute(actions[..i], world, step) == Execution(actions[..i], after, None)
      invariant done == actions[..i]
    {
      var action := actions[i];
      TakeSnoc(actions, i);
      ExecuteAppendCompleted(actions[..i], [action], world, step);
      match step(after, action)
      case Err(e) =>
        assert actions == actions[..i + 1] + actions[i + 1..];
        ExecuteAppendFailed(actions[..i + 1], actions[i + 1..], world, step);
        return done, after, Some(e);
      case Ok(next) =>
        done := done + [action];
        after := next;
    }
    assert actions[..|actions|] == actions;
    err := None;
  }

  // ---------------------------------------------------------------------
  // Main
  // ---------------------------------------------------------------------

  /** What a run of the command shows and does: the actions it printed, the
      actions it completed, the world after them, and the error it returns. */
  datatype Outcome<W> = Outcome(printed: seq<Action>, done: seq<Action>, world: W, error: Option<string>)

  /** The command's switches. */
  datatype Options = Options(bzlmod: bool, noCache: bool, dryRun: bool)

  const LoadFailure: string := "failed to load dependency manifest: "

  /** Vendor as the command calls it: `loaded` is the outcome of reading
      and decoding `deps.bzl`, with the text of its error. */
  ghost function Planned(loaded: Result<Deps, string>, fs: Snapshot, bzlmod: bool): Result<seq<Action>, string> {
    match loaded
    case Err(e) => Err(e)
    case Ok(deps) =>
      match Plan(deps, fs, bzlmod)
      case Err(e) => Err(Message(e))
      case Ok(actions) => Ok(actions)
  }

  /** The actions the command goes on with: the plan, filtered by the cache
      unless caching is off. `cache` is the decoded cache manifest, `None`
      when it is missing or cannot be decoded. */
  function Selected(plan: seq<Action>, noCache: bool, cache: Option<Deps>, digests: Digester): seq<Action> {
    if noCache then plan else StripCached(plan, cache, digests)
  }

  /** Main, from the start of planning to the returned error. */
  ghost function Main<W>(loaded: Result<Deps, string>, fs: Snapshot, options: Options, cache: Option<Deps>,
                         digests: Digester, world: W, step: (W, Action) -> Result<W, string>): (r: Outcome<W>)
    ensures Planned(loaded, fs, options.bzlmod).Err? ==> r.printed == [] && r.done == [] && r.world == world
    ensures r.printed == [] || r.done == []
  {
    match Planned(loaded, fs, options.bzlmod)
    case Err(e) => Outcome([], [], world, Some(LoadFailure + e))
    case Ok(plan) =>
      var actions := Selected(plan, options.noCache, cache, digests);
      if options.dryRun then Outcome(actions, [], world, None)
      else
        var run := Execute(actions, world, step);
        Outcome([], run.done, run.world, run.error)
  }

  /** A planning failure is returned behind the "failed to load dependency
      manifest" lead, and nothing is printed or done. */
  lemma PlanFailureStopsMain<W>(loaded: Result<Deps, string>, fs: Snapshot, options: Options, cache: Option<Deps>,
                                digests: Digester, world: W, step: (W, Action) -> Result<W, string>)
    requires Planned(loaded, fs, options.bzlmod).Err?
    ensures var r := Main(loaded, fs, options, cache, digests, world, step);
            && r.printed == [] && r.done == [] && r.world == world
            && r.error.Some?
            && TrimPrefix(r.error.value, LoadFailure) == Planned(loaded, fs, options.bzlmod).error
            && HasPrefix(r.error.value, LoadFailure)
  {
    var e := Planned(loaded, fs, options.bzlmod).error;
    assert (LoadFailure + e)[..|LoadFailure|] == LoadFailure;
    assert (LoadFailure + e)[|LoadFailure|..] == e;
  }

  /** With caching off the command works on the plan as it is; with it on,
      on the plan filtered once: an order-preserving part of it that keeps
      every action but the downloads. */
  lemma CacheFilterAppliedOnce(plan: seq<Action>, noCache: bool, cache: Option<Deps>, digests: Digester)
    ensures noCache ==> Selected(plan, noCache, cache, digests) == plan
    ensures !noCache ==> Selected(plan, noCache, cache, digests) == StripCached(plan, cache, digests)
    ensures IsSubsequence(Selected(plan, noCache, cache, digests), plan)
    ensures Filter(Selected(plan, noCache, cache, digests), IsNotDownload) == Filter(plan, IsNotDownload)
  {
    if noCache {
      IsSubsequenceReflexive(plan);
    }
  }

  /** A dry run prints every selected action, in order, and runs none. */
  lemma DryRunPrintsOnly<W>(loaded: Result<Deps, string>, fs: Snapshot, options: Options, cache: Option<Deps>,
                            digests: Digester, world: W, step: (W, Action) -> Result<W, string>)
    requires loaded.Ok? && Plannable(loaded.value, fs) && options.dryRun
    ensures Planned(loaded, fs, options.bzlmod).Ok?
    ensures var r := Main(loaded, fs, options, cache, digests, world, step);
            && r.printed == Selected(Planned(loaded, fs, options.bzlmod).value, options.noCache, cache, digests)
            && r.done == [] && r.world == world && r.error.None?
  {
    PlanSucceedsExactly(loaded.value, fs, options.bzlmod);
  }

  /** Otherwise the selected actions run in order: those that completed
      are a prefix; without an error all of them completed; with one, it is
      the error of the next action, which failed on the world the prefix
      left. */
  lemma RunStopsAtFirstError<W>(loaded: Result<Deps, string>, fs: Snapshot, options: Options, cache: Option<Deps>,
                                digests: Digester, world: W, step: (W, Action) -> Result<W, string>)
    requires loaded.Ok? && Plannable(loaded.value, fs) && !options.dryRun
    ensures Planned(loaded, fs, options.bzlmod).Ok?
    ensures var actions := Selected(Planned(loaded, fs, options.bzlmod).value, options.noCache, cache, digests);
            var r := Main(loaded, fs, options, cache, digests, world, step);
            && r.printed == []
            && |r.done| <= |actions| && r.done == actions[..|r.done|]
            && Execute(r.done, world, step) == Execution(r.done, r.world, None)
            && (r.error.None? ==> r.done == actions)
            && (r.error.Some? ==> |r.done| < |actions| && step(r.world, actions[|r.done|]) == Err(r.error.value))
  {
    PlanSucceedsExactly(loaded.value, fs, options.bzlmod);
    var actions := Selected(Planned(loaded, fs, options.bzlmod).value, options.noCache, cache, digests);
    ExecuteStopsAtFirstError(actions, world, step);
    ExecutePrefix(actions, world, step);
  }

  /** The actions a run completes, run again from the same world, complete
      without error and end in the same world. */
  lemma {:induction false} ExecutePrefix<W>(actions: seq<Action>, world: W, step: (W, Action) -> Result<W, string>)
    ensures var run := Execute(actions, world, step);
            Execute(run.done, world, step) == Execution(run.done, run.world, None)
    decreases |actions|
  {
    if |actions| > 0 {
      match step(world, actions[0])
      case Err(_) =>
      case Ok(next) =>
        ExecutePrefix(actions[1..], next, step);
        var rest := Execute(actions[1..], next, step);
        var done := [actions[0]] + rest.done;
        assert done[0] == actions[0] && done[1..] == rest.done;
    }
  }

  /** A second run right after a successful one downloads nothing: with the
      cache manifest the first run wrote read back over the same tree, the
      cache filter leaves no download in the actions the command prints or
      runs, and keeps every other action of the plan in order. */
  lemma SecondRunDownloadsNothing(deps: Deps, fs: Snapshot, options: Options, digests: Digester, manifest: Deps)
    requires Plannable(deps, fs) && !options.noCache
    requires GenerateCacheManifest(DepsWithBzlmod(deps, options.bzlmod), digests) == Ok(manifest)
    requires forall i :: 0 <= i < |deps.go| ==> IsCleanName(deps.go[i].name)
    requires DistinctNames(deps.go)
    ensures Plan(deps, fs, options.bzlmod).Ok?
    ensures var plan := Plan(deps, fs, options.bzlmod).value;
            var actions := Selected(Planned(Ok(deps), fs, options.bzlmod).value, options.noCache, Some(manifest), digests);
            && actions == Filter(plan, IsNotDownload)
            && forall a :: a in actions ==> !a.DownloadGoModule?
  {
    CacheConverges(deps, fs, options.bzlmod, digests, manifest);
  }
}

=== FILE: convergence.dfy ===
/** How the planner and the cache fit together: the cache manifest a plan's
    last action writes, read back by the cache filter on the next run over
    the same tree with the same digests, makes every download of the same
    plan redundant. */
module Convergence {
  import opened Results
  import opened Sequences
  import opened Paths
  import opened Vendeps
  import opened Cache
  import opened Planner
  import opened PlannerLemmas

  /** Module names that are all different: the cache manifest's lookup by
      name then finds each module's own entry. */
  predicate DistinctNames(modules: seq<GoModule>) {
    forall j, k :: 0 <= j < k < |modules| ==> modules[j].name != modules[k].name
  }

  /** For a download at `vendor/<module>`, the filter leaves out of the
      digest exactly the build files the manifest generator leaves out. */
  lemma IgnoreListsAgree(mod: GoModule)
    requires IsCleanName(mod.name)
    ensures DownloadIgnoreList(mod, ModuleDirectory(mod.name)) == ManifestIgnoreList(mod)
  {
    ModuleDirectoryJoined(mod.name);
    var path := ModuleDirectory(mod.name);
    var root := Vendor + [Separator];
    assert HasSuffix(path, mod.name) by {
      assert path[|path| - |mod.name|..] == mod.name;
    }
    assert TrimSuffix(path, mod.name) == root by {
      assert path[..|path| - |mod.name|] == root;
    }
    VendorIsCleanName();
    SplitWithoutSeparator(Vendor);
    forall i | 0 <= i < |mod.packages|
      ensures DownloadIgnoreList(mod, path)[i] == ManifestIgnoreList(mod)[i]
    {
      PathJoinTrailingSeparator(Vendor, mod.packages[i].name, BuildBazel);
    }
  }

  /** A module's own cache entry is a hit for its download at
      `vendor/<module>`. */
  lemma OwnEntryHits(mod: GoModule, digests: Digester, entry: GoModule)
    requires IsCleanName(mod.name)
    requires CacheEntry(mod, digests) == Ok(entry)
    ensures CacheHit(mod, ModuleDirectory(mod.name), entry, digests)
  {
    IgnoreListsAgree(mod);
  }

  /** With distinct names, the lookup of a module's name finds that very
      module. */
  lemma LookupDistinct(modules: seq<GoModule>, i: int)
    requires DistinctNames(modules)
    requires 0 <= i < |modules|
    ensures Lookup(modules, modules[i].name) == Some(modules[i])
  {
    LookupFinds(modules, modules[i].name);
  }

  /** A cache manifest generated from `deps` keeps the names, so it has
      distinct names when `deps` has. */
  lemma ManifestNamesDistinct(deps: Deps, digests: Digester, manifest: Deps)
    requires GenerateCacheManifest(deps, digests) == Ok(manifest)
    requires DistinctNames(deps.go)
    ensures |manifest.go| == |deps.go|
    ensures forall i :: 0 <= i < |deps.go| ==> manifest.go[i].name == deps.go[i].name
    ensures DistinctNames(manifest.go)
  {
    forall i | 0 <= i < |deps.go|
      ensures manifest.go[i].name == deps.go[i].name
    {
      assert manifest.go[i].(digest := deps.go[i].digest, patchDigest := deps.go[i].patchDigest) == deps.go[i];
    }
  }

  /** Every download at `vendor/<module>` of a module of `deps` is
      redundant against a cache manifest generated from `deps`. */
  lemma GeneratedManifestCoversModules(deps: Deps, digests: Digester, manifest: Deps, i: int)
    requires GenerateCacheManifest(deps, digests) == Ok(manifest)
    requires DistinctNames(deps.go)
    requires 0 <= i < |deps.go| && IsCleanName(deps.go[i].name)
    ensures Redundant(DownloadGoModule(deps.go[i], ModuleDirectory(deps.go[i].name)), manifest.go, digests)
  {
    ManifestNamesDistinct(deps, digests, manifest);
    LookupDistinct(manifest.go, i);
    assert CacheEntry(deps.go[i], digests).Ok?;
    var entry := CacheEntry(deps.go[i], digests).value;
    assert entry.(digest := deps.go[i].digest, patchDigest := deps.go[i].patchDigest) == deps.go[i];
    assert manifest.go[i].(digest := deps.go[i].digest, patchDigest := deps.go[i].patchDigest) == deps.go[i];
    assert entry.digest == manifest.go[i].digest;
    assert |deps.go[i].patches| > 0 ==> entry.patchDigest == manifest.go[i].patchDigest;
    OwnEntryHits(deps.go[i], digests, entry);
  }

  /** Setting `bzlmod` keeps names, so the hypotheses carry over. */
  lemma BzlmodKeepsNames(deps: Deps, bzlmod: bool)
    requires forall i :: 0 <= i < |deps.go| ==> IsCleanName(deps.go[i].name)
    requires DistinctNames(deps.go)
    ensures forall i :: 0 <= i < |deps.go| ==> IsCleanName(DepsWithBzlmod(deps, bzlmod).go[i].name)
    ensures DistinctNames(DepsWithBzlmod(deps, bzlmod).go)
  {
    var updated := DepsWithBzlmod(deps, bzlmod);
    assert forall i :: 0 <= i < |deps.go| ==> updated.go[i].name == deps.go[i].name;
  }

  /** A plan whose downloads are those of the modules of `d`: each of them
      is redundant against a cache manifest generated from `d`. */
  lemma DownloadsRedundant(plan: seq<Action>, d: Deps, digests: Digester, manifest: Deps)
    requires Filter(plan, IsDownload) == ModuleDownloads(d.go)
    requires GenerateCacheManifest(d, digests) == Ok(manifest)
    requires forall i :: 0 <= i < |d.go| ==> IsCleanName(d.go[i].name)
    requires DistinctNames(d.go)
    ensures forall a :: a in plan && a.DownloadGoModule? ==> Redundant(a, manifest.go, digests)
  {
    forall a | a in plan && a.DownloadGoModule?
      ensures Redundant(a, manifest.go, digests)
    {
      assert IsDownload(a);
      assert a in ModuleDownloads(d.go);
      var i := DownloadIndex(d.go, a);
      GeneratedManifestCoversModules(d, digests, manifest, i);
    }
  }

  /** The module a download of ModuleDownloads is for. */
  lemma DownloadIndex(modules: seq<GoModule>, a: Action) returns (i: int)
    requires a in ModuleDownloads(modules)
    ensures 0 <= i < |modules| && a == DownloadGoModule(modules[i], ModuleDirectory(modules[i].name))
  {
    var downloads := ModuleDownloads(modules);
    i :| 0 <= i < |downloads| && downloads[i] == a;
  }

  /** Every download of a successful plan is redundant against the cache
      manifest generated from what the plan's last action records. */
  lemma PlanDownloadsRedundant(deps: Deps, fs: Snapshot, bzlmod: bool, digests: Digester, manifest: Deps)
    requires Plannable(deps, fs)
    requires GenerateCacheManifest(DepsWithBzlmod(deps, bzlmod), digests) == Ok(manifest)
    requires forall i :: 0 <= i < |deps.go| ==> IsCleanName(deps.go[i].name)
    requires DistinctNames(deps.go)
    ensures Plan(deps, fs, bzlmod).Ok?
    ensures forall a :: a in Plan(deps, fs, bzlmod).value && a.DownloadGoModule? ==> Redundant(a, manifest.go, digests)
  {
    PlanSucceedsExactly(deps, fs, bzlmod);
    if |deps.go| > 0 {
      var updated := DepsWithBzlmod(deps, bzlmod);
      BzlmodKeepsNames(deps, bzlmod);
      PlanDownloads(deps, fs, bzlmod);
      DownloadsRedundant(Plan(deps, fs, bzlmod).value, updated, digests, manifest);
    }
  }

  /** Convergence: filtering a successful plan with the cache manifest
      generated from it drops every download and keeps everything else, in
      order. The hypotheses are the ones under which the filter's ignore
      list and the generator's coincide (clean module names) and a lookup
      by name finds the module's own entry (distinct names). */
  lemma CacheConverges(deps: Deps, fs: Snapshot, bzlmod: bool, digests: Digester, manifest: Deps)
    requires Plannable(deps, fs)
    requires GenerateCacheManifest(DepsWithBzlmod(deps, bzlmod), digests) == Ok(manifest)
    requires forall i :: 0 <= i < |deps.go| ==> IsCleanName(deps.go[i].name)
    requires DistinctNames(deps.go)
    ensures Plan(deps, fs, bzlmod).Ok?
    ensures StripCached(Plan(deps, fs, bzlmod).value, Some(manifest), digests)
            == Filter(Plan(deps, fs, bzlmod).value, IsNotDownload)
  {
    PlanSucceedsExactly(deps, fs, bzlmod);
    var plan := Plan(deps, fs, bzlmod).value;
    if |manifest.go| == 0 {
      assert plan == [RemoveAll(Vendor)];
      FilterKeepsAll(plan, IsNotDownload);
    } else {
      PlanDownloadsRedundant(deps, fs, bzlmod, digests, manifest);
      forall i | 0 <= i < |plan|
        ensures KeepUnlessRedundant(manifest.go, digests)(plan[i]) == IsNotDownload(plan[i])
      {
        assert plan[i] in plan;
      }
      FilterAgrees(plan, KeepUnlessRedundant(manifest.go, digests), IsNotDownload);
    }
  }
}

=== FILE: ordering.dfy ===
/** Go's string ordering (`<` on strings, used by `sort.Strings` and by the
    `sort.Slice` comparator on vulnerability IDs): lexicographic comparison of
    the characters, a proper prefix sorting first. */
module Ordering {

  predicate Less(a: string, b: string)
    decreases |a|
  {
    |b| > 0 && (|a| == 0 || a[0] < b[0] || (a[0] == b[0] && Less(a[1..], b[1..])))
  }

  lemma {:induction false} LessIrreflexive(a: string)
    ensures !Less(a, a)
    decreases |a|
  {
    if |a| > 0 {
      LessIrreflexive(a[1..]);
    }
  }

  lemma {:induction false} LessTransitive(a: string, b: string, c: string)
    requires Less(a, b) && Less(b, c)
    ensures Less(a, c)
    decreases |a|
  {
    if |a| > 0 && a[0] == b[0] && b[0] == c[0] {
      LessTransitive(a[1..], b[1..], c[1..]);
    }
  }

  lemma {:induction false} LessTotal(a: string, b: string)
    ensures a == b || Less(a, b) || Less(b, a)
    decreases |a|
  {
    if |a| > 0 && |b| > 0 && a[0] == b[0] {
      LessTotal(a[1..], b[1..]);
      if a[1..] == b[1..] {
        assert a == [a[0]] + a[1..] && b == [b[0]] + b[1..];
      }
    }
  }

  lemma LessAsymmetric(a: string, b: string)
    requires Less(a, b)
    ensures !Less(b, a)
  {
    if Less(b, a) {
      LessTransitive(a, b, a);
      LessIrreflexive(a);
    }
  }

  predicate StrictlySorted(s: seq<string>) {
    forall i, j :: 0 <= i < j < |s| ==> Less(s[i], s[j])
  }

  predicate IsMinimum(m: string, s: set<string>) {
    m in s && forall x :: x in s && x != m ==> Less(m, x)
  }

  lemma {:induction false} MinimumExists(s: set<string>)
    requires s != {}
    ensures exists m :: IsMinimum(m, s)
    decreases |s|
  {
    var x :| x in s;
    if s == {x} {
      assert IsMinimum(x, s);
    } else {
      var rest := s - {x};
      MinimumExists(rest);
      var m :| IsMinimum(m, rest);
      LessTotal(x, m);
      if Less(x, m) {
        forall y | y in s && y != x
          ensures Less(x, y)
        {
          if y != m {
            LessTransitive(x, m, y);
          }
        }
        assert IsMinimum(x, s);
      } else {
        assert IsMinimum(m, s);
      }
    }
  }

  lemma MinimumUnique(m: string, n: string, s: set<string>)
    requires IsMinimum(m, s) && IsMinimum(n, s)
    ensures m == n
  {
    if m != n {
      LessAsymmetric(m, n);
    }
  }

  /** The elements of a finite set of strings in increasing order: what
      collecting a Go map's keys and calling sort.Strings produces. */
  ghost function SortedElements(s: set<string>): (r: seq<string>)
    ensures StrictlySorted(r)
    ensures forall x :: x in r <==> x in s
    ensures |r| == |s|
    decreases |s|
  {
    if s == {} then []
    else
      MinimumExists(s);
      var m :| IsMinimum(m, s);
      var rest := SortedElements(s - {m});
      assert forall i :: 0 <= i < |rest| ==> rest[i] in s - {m};
      [m] + rest
  }

  lemma HeadIsMinimum(r: seq<string>)
    requires StrictlySorted(r) && |r| > 0
    ensures IsMinimum(r[0], set x | x in r)
    ensures r[0] !in r[1..]
  {
    forall x | x in r && x != r[0]
      ensures Less(r[0], x)
    {
      var k :| 0 <= k < |r| && r[k] == x;
    }
    LessIrreflexive(r[0]);
  }

  /** A strictly sorted sequence is determined by its elements. */
  lemma {:induction false} StrictlySortedUnique(r: seq<string>, q: seq<string>)
    requires StrictlySorted(r) && StrictlySorted(q)
    requires forall x :: x in r <==> x in q
    ensures r == q
    decreases |r|
  {
    if |r| > 0 {
      assert r[0] in q;
    }
    if |q| > 0 {
      assert q[0] in r;
    }
    if |r| > 0 && |q| > 0 {
      HeadIsMinimum(r);
      HeadIsMinimum(q);
      assert (set x | x in r) == (set x | x in q);
      MinimumUnique(r[0], q[0], set x | x in r);
      forall x
        ensures x in r[1..] <==> x in q[1..]
      {
        assert x in r[1..] <==> x in r && x != r[0];
        assert x in q[1..] <==> x in q && x != q[0];
      }
      StrictlySortedUnique(r[1..], q[1..]);
      assert r == [r[0]] + r[1..] && q == [q[0]] + q[1..];
    }
  }

  /** "Not less than" is transitive, Less being a strict total order. */
  lemma NotLessTransitive(a: string, b: string, c: string)
    requires !Less(a, b) && !Less(b, c)
    ensures !Less(a, c)
  {
    LessTotal(a, b);
    LessTotal(b, c);
    if c != a {
      if c == b || b == a {
        LessTotal(c, a);
      } else {
        LessTransitive(c, b, a);
      }
      LessAsymmetric(c, a);
    } else {
      LessIrreflexive(a);
    }
  }

  /** Insertion of one element into a sequence ordered by `key`. */
  function InsertByKey<T>(x: T, s: seq<T>, key: T -> string): (r: seq<T>)
    requires forall i, j :: 0 <= i < j < |s| ==> !Less(key(s[j]), key(s[i]))
    ensures multiset(r) == multiset(s) + multiset{x}
    ensures forall i, j :: 0 <= i < j < |r| ==> !Less(key(r[j]), key(r[i]))
    decreases |s|
  {
    if |s| == 0 then [x]
    else if !Less(key(s[0]), key(x)) then
      LessTotalForKeys(x, s, key);
      [x] + s
    else
      var rest := InsertByKey(x, s[1..], key);
      assert s == [s[0]] + s[1..];
      InsertHeadBound(s[0], x, s[1..], rest, key);
      [s[0]] + rest
  }

  lemma LessTotalForKeys<T>(x: T, s: seq<T>, key: T -> string)
    requires |s| > 0 && !Less(key(s[0]), key(x))
    requires forall i, j :: 0 <= i < j < |s| ==> !Less(key(s[j]), key(s[i]))
    ensures forall j :: 0 <= j < |s| ==> !Less(key(s[j]), key(x))
  {
    forall j | 0 < j < |s|
      ensures !Less(key(s[j]), key(x))
    {
      NotLessTransitive(key(s[j]), key(s[0]), key(x));
    }
  }

  lemma InsertHeadBound<T>(h: T, x: T, tail: seq<T>, rest: seq<T>, key: T -> string)
    requires Less(key(h), key(x))
    requires forall j :: 0 <= j < |tail| ==> !Less(key(tail[j]), key(h))
    requires multiset(rest) == multiset(tail) + multiset{x}
    ensures forall j :: 0 <= j < |rest| ==> !Less(key(rest[j]), key(h))
  {
    forall j | 0 <= j < |rest|
      ensures !Less(key(rest[j]), key(h))
    {
      assert rest[j] in multiset(rest);
      if rest[j] != x {
        assert rest[j] in multiset(tail);
        var k :| 0 <= k < |tail| && tail[k] == rest[j];
      } else {
        LessAsymmetric(key(h), key(x));
      }
    }
  }

  /** A sort by `key`: a permutation of `s` whose keys never decrease. */
  function SortByKey<T>(s: seq<T>, key: T -> string): (r: seq<T>)
    ensures multiset(r) == multiset(s)
    ensures |r| == |s|
    ensures forall i, j :: 0 <= i < j < |r| ==> !Less(key(r[j]), key(r[i]))
    decreases |s|
  {
    if |s| == 0 then []
    else
      assert s == [s[0]] + s[1..];
      InsertByKey(s[0], SortByKey(s[1..], key), key)
  }
}

=== FILE: paths.dfy ===
/** Slash-separated paths as the Go code handles them: the `strings`
    helpers it calls (`Split`, `Join`, `HasPrefix`, `TrimPrefix`, ...) and the
    `path` package functions `Clean`, `Join`, `Dir` and `Base`, written out on
    `string`s. A path is also viewed as the sequence of its segments; the
    lemmas below connect the two views, in particular the separator-qualified
    prefix test `HasPrefix(b, a + "/")` with "segment sequence `a` is a proper
    prefix of segment sequence `b`". */
module Paths {
  import opened Sequences

  const Separator: char := '/'

  /** A path split into its segments. */
  type Path = seq<string>

  predicate HasPrefix(s: string, prefix: string) {
    |prefix| <= |s| && s[..|prefix|] == prefix
  }

  predicate HasSuffix(s: string, suffix: string) {
    |suffix| <= |s| && s[|s| - |suffix|..] == suffix
  }

  /** strings.TrimPrefix */
  function TrimPrefix(s: string, prefix: string): (r: string)
    ensures HasPrefix(s, prefix) ==> s == prefix + r
    ensures !HasPrefix(s, prefix) ==> r == s
  {
    if HasPrefix(s, prefix) then s[|prefix|..] else s
  }

  /** strings.TrimSuffix */
  function TrimSuffix(s: string, suffix: string): (r: string)
    ensures HasSuffix(s, suffix) ==> s == r + suffix
    ensures !HasSuffix(s, suffix) ==> r == s
  {
    if HasSuffix(s, suffix) then s[..|s| - |suffix|] else s
  }

  /** strings.Split(s, "/"): the pieces between separators, never empty. */
  function Split(s: string): (r: Path)
    ensures |r| >= 1
    ensures forall i :: 0 <= i < |r| ==> Separator !in r[i]
    decreases |s|
  {
    if |s| == 0 then [""]
    else
      var rest := Split(s[1..]);
      if s[0] == Separator then [""] + rest
      else [[s[0]] + rest[0]] + rest[1..]
  }

  /** strings.Join(p, "/") */
  function Join(p: Path): string
    decreases |p|
  {
    if |p| == 0 then ""
    else if |p| == 1 then p[0]
    else p[0] + [Separator] + Join(p[1..])
  }

  /** strings.LastIndex(s, string(c)), -1 when `c` does not occur. */
  function LastIndex(s: string, c: char): (i: int)
    ensures -1 <= i < |s|
    ensures i >= 0 ==> s[i] == c
    ensures forall j :: i < j < |s| ==> s[j] != c
    decreases |s|
  {
    if |s| == 0 then -1
    else if s[|s| - 1] == c then |s| - 1
    else LastIndex(s[..|s| - 1], c)
  }

  /** A segment `path.Clean` leaves alone. */
  predicate IsSegment(s: string) {
    s != "" && s != "." && s != ".." && Separator !in s
  }

  /** A non-empty path with no empty, `.` or `..` segment: the shape of every
      path a directory walk reports and of every well-formed Go import path. */
  predicate IsCleanPath(p: Path) {
    |p| >= 1 && forall i :: 0 <= i < |p| ==> IsSegment(p[i])
  }

  predicate IsCleanName(name: string) {
    IsCleanPath(Split(name))
  }

  /** One step of path.Clean's lexical processing over a stack of kept
      segments: drop empty and `.` segments, let `..` cancel the previous
      kept segment (or stay, at the start of a relative path). */
  function CleanStep(stack: Path, seg: string, rooted: bool): Path {
    if seg == "" || seg == "." then stack
    else if seg == ".." then
      if |stack| > 0 && stack[|stack| - 1] != ".." then stack[..|stack| - 1]
      else if rooted then stack
      else stack + [".."]
    else stack + [seg]
  }

  function CleanSegments(stack: Path, segs: Path, rooted: bool): Path
    decreases |segs|
  {
    if |segs| == 0 then stack
    else CleanSegments(CleanStep(stack, segs[0], rooted), segs[1..], rooted)
  }

  /** path.Clean: the shortest equivalent path, "." for an empty result. */
  function Clean(s: string): (r: string)
    ensures r != ""
  {
    var rooted := |s| > 0 && s[0] == Separator;
    var body := Join(CleanSegments([], Split(s), rooted));
    if rooted then [Separator] + body
    else if body == "" then "."
    else body
  }

  function DropLeadingEmpty(elems: seq<string>): (r: seq<string>)
    ensures |r| > 0 ==> r[0] != ""
    decreases |elems|
  {
    if |elems| > 0 && elems[0] == "" then DropLeadingEmpty(elems[1..]) else elems
  }

  /** path.Join: the non-empty elements joined by separators, then cleaned;
      "" when every element is empty. (Go's loop skips empty elements only
      until the buffer is non-empty; later empty ones add a separator that
      Clean removes again.) */
  function PathJoin(elems: seq<string>): string {
    var rest := DropLeadingEmpty(elems);
    if |rest| == 0 then "" else Clean(Join(rest))
  }

  /** path.Dir: everything before the last separator, cleaned. */
  function Dir(p: string): string {
    Clean(p[..LastIndex(p, Separator) + 1])
  }

  function TrimTrailingSeparators(s: string): (r: string)
    ensures |r| <= |s| && r == s[..|r|]
    ensures |r| > 0 ==> r[|r| - 1] != Separator
    ensures forall j :: |r| <= j < |s| ==> s[j] == Separator
    decreases |s|
  {
    if |s| > 0 && s[|s| - 1] == Separator then TrimTrailingSeparators(s[..|s| - 1]) else s
  }

  /** path.Base: the last element, after trailing separators are removed. */
  function Base(p: string): (r: string)
    ensures r != ""
    ensures r == [Separator] || Separator !in r
  {
    if p == "" then "."
    else
      var t := TrimTrailingSeparators(p);
      var b := t[LastIndex(t, Separator) + 1..];
      if b == "" then [Separator] else b
  }

  // ---------------------------------------------------------------------
  // Split and Join
  // ---------------------------------------------------------------------

  lemma {:induction false} JoinSplit(s: string)
    ensures Join(Split(s)) == s
    decreases |s|
  {
    if |s| > 0 {
      var rest := Split(s[1..]);
      JoinSplit(s[1..]);
      if s[0] == Separator {
        assert Split(s) == [""] + rest;
        assert ([""] + rest)[1..] == rest;
      } else {
        var r := Split(s);
        assert r == [[s[0]] + rest[0]] + rest[1..];
        if |rest| == 1 {
          assert Join(r) == [s[0]] + rest[0];
          assert Join(rest) == rest[0];
        } else {
          assert r[1..] == rest[1..];
          assert Join(rest) == rest[0] + [Separator] + Join(rest[1..]);
          assert s == [s[0]] + s[1..];
        }
      }
    }
  }

  lemma {:induction false} SplitWithoutSeparator(s: string)
    requires Separator !in s
    ensures Split(s) == [s]
    decreases |s|
  {
    if |s| > 0 {
      SplitWithoutSeparator(s[1..]);
      assert s == [s[0]] + s[1..];
    }
  }

  /** Splitting at a separator distributes over the two sides. */
  lemma {:induction false} SplitConcat(a: string, b: string)
    ensures Split(a + [Separator] + b) == Split(a) + Split(b)
    decreases |a|
  {
    var s := a + [Separator] + b;
    if |a| == 0 {
      assert s == [Separator] + b;
      assert s[1..] == b;
      assert Split(s) == [""] + Split(b);
    } else {
      assert s[1..] == a[1..] + [Separator] + b;
      SplitConcat(a[1..], b);
      var rest := Split(s[1..]);
      var ra := Split(a[1..]);
      var rb := Split(b);
      assert rest == ra + rb;
      if a[0] == Separator {
        assert Split(s) == [""] + (ra + rb);
        assert Split(a) == [""] + ra;
        ConcatAssociative([""], ra, rb);
      } else {
        var head := [a[0]] + ra[0];
        assert rest[0] == ra[0];
        assert rest[1..] == ra[1..] + rb;
        assert Split(s) == [head] + (ra[1..] + rb);
        assert Split(a) == [head] + ra[1..];
        ConcatAssociative([head], ra[1..], rb);
      }
    }
  }

  lemma {:induction false} JoinAppend(a: Path, b: Path)
    requires |a| >= 1 && |b| >= 1
    ensures Join(a + b) == Join(a) + [Separator] + Join(b)
    decreases |a|
  {
    if |a| == 1 {
      assert (a + b)[1..] == b;
    } else {
      assert (a + b)[1..] == a[1..] + b;
      JoinAppend(a[1..], b);
    }
  }

  lemma {:induction false} SplitJoin(p: Path)
    requires |p| >= 1
    requires forall i :: 0 <= i < |p| ==> Separator !in p[i]
    ensures Split(Join(p)) == p
    decreases |p|
  {
    if |p| == 1 {
      SplitWithoutSeparator(p[0]);
    } else {
      SplitJoin(p[1..]);
      SplitWithoutSeparator(p[0]);
      SplitConcat(p[0], Join(p[1..]));
      assert p == [p[0]] + p[1..];
    }
  }

  /** Join is injective on paths whose segments hold no separator. */
  lemma JoinInjective(p: Path, q: Path)
    requires IsCleanPath(p) && IsCleanPath(q)
    requires Join(p) == Join(q)
    ensures p == q
  {
    SplitJoin(p);
    SplitJoin(q);
  }

  lemma {:induction false} JoinCleanPathShape(p: Path)
    requires IsCleanPath(p)
    ensures |Join(p)| > 0 && Join(p)[0] != Separator
    ensures Join(p)[0] == p[0][0]
    decreases |p|
  {
    if |p| > 1 {
      assert Join(p) == p[0] + [Separator] + Join(p[1..]);
    }
  }

  // ---------------------------------------------------------------------
  // Separator-qualified prefixes
  // ---------------------------------------------------------------------

  /** If `x + "/"` is a prefix of `y + "/" + rest` and neither `x` nor `y`
      contains a separator, the two segments are the same. */
  lemma SegmentPrefix(x: string, y: string, rest: string)
    requires Separator !in x && Separator !in y
    requires HasPrefix(y + [Separator] + rest, x + [Separator])
    ensures x == y
  {
    var s := y + [Separator] + rest;
    var px := x + [Separator];
    assert forall j :: 0 <= j < |px| ==> px[j] == s[j];
    assert forall j :: 0 <= j < |y| ==> s[j] == y[j];
    assert forall j :: 0 <= j < |y| ==> s[j] != Separator;
    assert forall j :: 0 <= j < |x| ==> px[j] != Separator;
    assert s[|x|] == Separator;
    assert |x| >= |y|;
    assert s[|y|] == Separator;
    assert |x| == |y|;
    assert x == px[..|x|];
    assert y == s[..|y|];
  }

  lemma SeparatorAfterPrefix(s: string, t: string)
    requires HasPrefix(s, t + [Separator])
    ensures Separator in s
  {
    assert s[|t|] == (t + [Separator])[|t|];
  }

  lemma JoinSingleSegment(p: Path)
    requires |p| >= 1
    requires forall i :: 0 <= i < |p| ==> Separator !in p[i]
    ensures Separator in Join(p) ==> |p| >= 2
  {
  }

  /** The separator-qualified string prefix test on joined paths is exactly
      the proper-prefix relation on their segment sequences: `rsc.io` is an
      ancestor of `rsc.io/quote` but not of `rsc.io2`. */
  lemma SeparatorPrefixIsSegmentPrefix(a: Path, b: Path)
    requires |a| >= 1 && |b| >= 1
    requires forall i :: 0 <= i < |a| ==> Separator !in a[i]
    requires forall i :: 0 <= i < |b| ==> Separator !in b[i]
    ensures HasPrefix(Join(b), Join(a) + [Separator]) <==> |a| < |b| && b[..|a|] == a
  {
    if |a| < |b| && b[..|a|] == a {
      SegmentPrefixJoined(a, b);
    }
    if HasPrefix(Join(b), Join(a) + [Separator]) {
      JoinedPrefixIsSegmentPrefix(a, b);
    }
  }

  lemma SegmentPrefixJoined(a: Path, b: Path)
    requires |a| >= 1 && |a| < |b| && b[..|a|] == a
    ensures HasPrefix(Join(b), Join(a) + [Separator])
  {
    var tail := b[|a|..];
    assert b == a + tail;
    JoinAppend(a, tail);
    assert Join(b) == (Join(a) + [Separator]) + Join(tail);
  }

  lemma {:induction false} JoinedPrefixIsSegmentPrefix(a: Path, b: Path)
    requires |a| >= 1 && |b| >= 1
    requires forall i :: 0 <= i < |a| ==> Separator !in a[i]
    requires forall i :: 0 <= i < |b| ==> Separator !in b[i]
    requires HasPrefix(Join(b), Join(a) + [Separator])
    ensures |a| < |b| && b[..|a|] == a
    decreases |a|
  {
    SeparatorAfterPrefix(Join(b), Join(a));
    JoinSingleSegment(b);
    assert |b| >= 2;
    assert Join(b) == b[0] + [Separator] + Join(b[1..]);
    if |a| == 1 {
      SegmentPrefix(a[0], b[0], Join(b[1..]));
      assert b[..1] == a;
    } else {
      assert Join(a) == a[0] + [Separator] + Join(a[1..]);
      assert HasPrefix(Join(b), a[0] + [Separator]) by {
        assert (Join(a) + [Separator])[..|a[0]| + 1] == a[0] + [Separator];
      }
      SegmentPrefix(a[0], b[0], Join(b[1..]));
      var k := |b[0]| + 1;
      assert Join(b)[k..] == Join(b[1..]);
      assert (Join(a) + [Separator])[k..] == Join(a[1..]) + [Separator];
      assert HasPrefix(Join(b[1..]), Join(a[1..]) + [Separator]);
      JoinedPrefixIsSegmentPrefix(a[1..], b[1..]);
      assert b[..|a|] == [b[0]] + b[1..][..|a| - 1];
      assert a == [a[0]] + a[1..];
    }
  }

  lemma PrefixTransitive(a: string, b: string, c: string)
    requires HasPrefix(c, b) && HasPrefix(b, a)
    ensures HasPrefix(c, a)
  {
    assert c[..|a|] == c[..|b|][..|a|];
  }

  lemma PrefixOfLonger(s: string, prefix: string, more: string)
    requires HasPrefix(s, prefix)
    ensures HasPrefix(s + more, prefix)
  {
    assert (s + more)[..|prefix|] == s[..|prefix|];
  }

  // ---------------------------------------------------------------------
  // Clean, Join, Dir and Base on clean paths
  // ---------------------------------------------------------------------

  lemma {:induction false} CleanSegmentsConcat(stack: Path, a: Path, b: Path, rooted: bool)
    ensures CleanSegments(stack, a + b, rooted) == CleanSegments(CleanSegments(stack, a, rooted), b, rooted)
    decreases |a|
  {
    if |a| == 0 {
      assert a + b == b;
    } else {
      assert (a + b)[1..] == a[1..] + b;
      CleanSegmentsConcat(CleanStep(stack, a[0], rooted), a[1..], b, rooted);
    }
  }

  /** Clean keeps every segment of a clean path. */
  lemma {:induction false} CleanSegmentsOfClean(stack: Path, p: Path, rooted: bool)
    requires forall i :: 0 <= i < |p| ==> IsSegment(p[i])
    ensures CleanSegments(stack, p, rooted) == stack + p
    decreases |p|
  {
    if |p| > 0 {
      CleanSegmentsOfClean(stack + [p[0]], p[1..], rooted);
      assert stack + [p[0]] + p[1..] == stack + p;
    }
  }

  lemma CleanOfCleanPath(p: Path)
    requires IsCleanPath(p)
    ensures Clean(Join(p)) == Join(p)
  {
    SplitJoin(p);
    JoinCleanPathShape(p);
    CleanSegmentsOfClean([], p, false);
    assert [] + p == p;
  }

  /** A trailing separator disappears under Clean. */
  lemma CleanDropsTrailingSeparator(p: Path)
    requires IsCleanPath(p)
    ensures Clean(Join(p) + [Separator]) == Join(p)
  {
    var s := Join(p) + [Separator];
    SplitJoin(p);
    JoinCleanPathShape(p);
    SplitConcat(Join(p), "");
    assert s == Join(p) + [Separator] + "";
    assert Split(s) == p + [""];
    CleanSegmentsConcat([], p, [""], false);
    CleanSegmentsOfClean([], p, false);
    assert [] + p == p;
    assert s[0] == Join(p)[0];
  }

  /** path.Join of clean paths is their plain concatenation with separators. */
  lemma PathJoinOfCleanPaths(a: Path, b: Path)
    requires IsCleanPath(a) && IsCleanPath(b)
    ensures PathJoin([Join(a), Join(b)]) == Join(a + b)
  {
    JoinCleanPathShape(a);
    assert DropLeadingEmpty([Join(a), Join(b)]) == [Join(a), Join(b)];
    assert Join([Join(a), Join(b)]) == Join(a) + [Separator] + Join(b);
    JoinAppend(a, b);
    CleanOfCleanPath(a + b);
  }

  lemma PathJoinOfCleanNames(a: string, b: string)
    requires IsCleanName(a) && IsCleanName(b)
    ensures PathJoin([a, b]) == a + [Separator] + b
    ensures IsCleanName(a + [Separator] + b)
  {
    JoinSplit(a);
    JoinSplit(b);
    PathJoinOfCleanPaths(Split(a), Split(b));
    JoinAppend(Split(a), Split(b));
    SplitConcat(a, b);
  }

  lemma PathJoinOfThreeCleanNames(a: string, b: string, c: string)
    requires IsCleanName(a) && IsCleanName(b) && IsCleanName(c)
    ensures PathJoin([a, b, c]) == a + [Separator] + b + [Separator] + c
  {
    var s := a + [Separator] + b + [Separator] + c;
    JoinCleanPathShape(Split(a));
    JoinSplit(a);
    assert DropLeadingEmpty([a, b, c]) == [a, b, c];
    assert [a, b, c][1..] == [b, c];
    assert [b, c][1..] == [c];
    assert Join([b, c]) == b + [Separator] + c;
    assert Join([a, b, c]) == a + [Separator] + (b + [Separator] + c);
    PathJoinOfCleanNames(b, c);
    SplitConcat(a, b + [Separator] + c);
    assert s == a + [Separator] + (b + [Separator] + c);
    var segs := Split(a) + Split(b + [Separator] + c);
    assert IsCleanPath(segs);
    JoinSplit(s);
    CleanOfCleanPath(segs);
  }

  /** A separator at the end of the first element makes no difference to
      path.Join: `path.Join("vendor/", x, y) == path.Join("vendor", x, y)`. */
  lemma PathJoinTrailingSeparator(a: string, b: string, c: string)
    requires IsSegment(a)
    ensures PathJoin([a + [Separator], b, c]) == PathJoin([a, b, c])
  {
    var tail := b + [Separator] + c;
    var withSep := [a + [Separator], b, c];
    var plain := [a, b, c];
    assert DropLeadingEmpty(withSep) == withSep;
    assert DropLeadingEmpty(plain) == plain;
    assert withSep[1..] == [b, c] && plain[1..] == [b, c];
    assert [b, c][1..] == [c];
    assert Join([b, c]) == tail;
    assert Join(withSep) == (a + [Separator] + "") + [Separator] + tail;
    assert Join(plain) == a + [Separator] + tail;
    SplitConcat(a + [Separator] + "", tail);
    SplitConcat(a, "");
    SplitConcat(a, tail);
    SplitWithoutSeparator(a);
    assert Split("") == [""];
    assert Split(Join(withSep)) == [a, ""] + Split(tail);
    assert Split(Join(plain)) == [a] + Split(tail);
    CleanSegmentsConcat([], [a, ""], Split(tail), false);
    CleanSegmentsConcat([], [a], Split(tail), false);
    assert CleanStep([], a, false) == [a];
    assert [a, ""][1..] == [""];
    assert CleanSegments([a], [""], false) == CleanSegments([a], [], false);
    assert CleanSegments([], [a, ""], false) == CleanSegments([a], [""], false);
    assert CleanSegments([], [a], false) == CleanSegments([a], [], false);
    assert Join(withSep)[0] == a[0];
    assert Join(plain)[0] == a[0];
  }

  lemma {:induction false} LastIndexAbsent(s: string)
    requires Separator !in s
    ensures LastIndex(s, Separator) == -1
    decreases |s|
  {
    if |s| > 0 {
      assert s[|s| - 1] in s;
      assert forall c :: c in s[..|s| - 1] ==> c in s;
      LastIndexAbsent(s[..|s| - 1]);
    }
  }

  /** The last separator of `x + "/" + last` is the one before `last`. */
  lemma {:induction false} LastIndexBeforeSegment(x: string, last: string)
    requires Separator !in last
    ensures LastIndex(x + [Separator] + last, Separator) == |x|
    decreases |last|
  {
    var s := x + [Separator] + last;
    if |last| > 0 {
      assert s[|s| - 1] == last[|last| - 1];
      assert last[|last| - 1] in last;
      assert s[..|s| - 1] == x + [Separator] + last[..|last| - 1];
      assert forall c :: c in last[..|last| - 1] ==> c in last;
      LastIndexBeforeSegment(x, last[..|last| - 1]);
    }
  }

  /** A clean path of two or more segments is its parent, a separator and
      its last segment. */
  lemma SplitLastSegment(p: Path)
    requires IsCleanPath(p) && |p| >= 2
    ensures Join(p) == Join(p[..|p| - 1]) + [Separator] + p[|p| - 1]
    ensures IsCleanPath(p[..|p| - 1])
  {
    var init := p[..|p| - 1];
    var last := p[|p| - 1..];
    assert last == [p[|p| - 1]];
    assert p == init + last;
    JoinAppend(init, last);
    assert forall i :: 0 <= i < |init| ==> init[i] == p[i];
  }

  /** path.Dir drops the last segment of a clean path, and gives "." for a
      single segment. */
  lemma DirOfCleanPath(p: Path)
    requires IsCleanPath(p)
    ensures |p| >= 2 ==> Dir(Join(p)) == Join(p[..|p| - 1])
    ensures |p| == 1 ==> Dir(Join(p)) == "."
  {
    var s := Join(p);
    if |p| == 1 {
      LastIndexAbsent(p[0]);
      assert s[..0] == "";
      assert CleanSegments([], [""], false) == [];
    } else {
      var init := p[..|p| - 1];
      SplitLastSegment(p);
      LastIndexBeforeSegment(Join(init), p[|p| - 1]);
      assert s[..|Join(init)| + 1] == Join(init) + [Separator];
      CleanDropsTrailingSeparator(init);
    }
  }

  /** path.Base of a clean path is its last segment. */
  lemma BaseOfCleanPath(p: Path)
    requires IsCleanPath(p)
    ensures Base(Join(p)) == p[|p| - 1]
  {
    var s := Join(p);
    var last := p[|p| - 1];
    JoinCleanPathShape(p);
    if |p| == 1 {
      LastIndexAbsent(last);
      assert TrimTrailingSeparators(s) == s;
      assert s[0..] == s;
    } else {
      var init := p[..|p| - 1];
      SplitLastSegment(p);
      assert s[|s| - 1] == last[|last| - 1];
      assert last[|last| - 1] in last;
      assert TrimTrailingSeparators(s) == s;
      LastIndexBeforeSegment(Join(init), last);
      assert s[|Join(init)| + 1..] == last;
    }
  }
}

=== FILE: planner.dfy ===
/** The vendoring planner (cmd/vendor/vendor.go): from a parsed manifest and
    a read-only snapshot of the tree, the ordered list of actions that brings
    `vendor/` in line with the manifest, or the first error that stops it. */
module Planner {
  import opened Results
  import opened Sequences
  import opened Paths
  import opened Ordering
  import opened Vendeps

  // ---------------------------------------------------------------------
  // The tree the planner reads
  // ---------------------------------------------------------------------

  /** What a stat of `vendor` reports. */
  datatype VendorState = Absent | Directory | NotDirectory | StatFailed(reason: string)

  /** A snapshot of the tree at planning time.
      - `files`: names of the non-directory entries directly in `vendor/`;
      - `dirs`: the directories at and below the vendor root, as segment
        paths beginning with "vendor";
      - `unreadable`: the directories whose listing fails, with the error. */
  datatype Snapshot = Snapshot(
    vendor: VendorState,
    files: set<string>,
    dirs: set<Path>,
    unreadable: map<Path, string>)

  /** The shape of every snapshot a real tree gives: directories are clean
      paths below "vendor" whose parents are directories too, the vendor
      root is among them exactly when it is a directory, and no name is both
      a file and a directory. */
  ghost predicate ValidTree(fs: Snapshot) {
    && (forall d :: d in fs.dirs ==> IsCleanPath(d) && d[0] == Vendor)
    && (forall d :: d in fs.dirs && |d| >= 2 ==> d[..|d| - 1] in fs.dirs)
    && (fs.vendor.Directory? <==> VendorRoot() in fs.dirs)
    && (forall name :: name in fs.files ==> IsSegment(name) && [Vendor, name] !in fs.dirs)
  }

  // ---------------------------------------------------------------------
  // Errors
  // ---------------------------------------------------------------------

  datatype PlanError =
    | MissingDependencies(missing: seq<(string, string)>)
    | CannotStat(reason: string)
    | VendorNotDirectory
    | CannotReadVendor(reason: string)
    | ModuleWithoutName(index: nat)
    | ModuleWithoutVersion(name: string)
    | ModuleWithoutPackages(name: string)
    | PackageWithoutName(name: string, index: nat)
    | WalkFailed

  function DecimalDigit(n: nat): char
    requires n < 10
  {
    "0123456789"[n]
  }

  /** The `%d` rendering of a natural number. */
  function Decimal(n: nat): (r: string)
    ensures |r| >= 1
    decreases n
  {
    if n < 10 then [DecimalDigit(n)] else Decimal(n / 10) + [DecimalDigit(n % 10)]
  }

  function MissingLines(missing: seq<(string, string)>): string
    decreases |missing|
  {
    if |missing| == 0 then ""
    else
      "Go package " + missing[0].0 + " depends on " + missing[0].1 + ", which is not specified.\n"
      + MissingLines(missing[1..])
  }

  /** The error text the Go code produces. A failing walk also appends the
      first directory error it met, which is not part of this model. */
  function Message(e: PlanError): string {
    match e
    case MissingDependencies(missing) => "missing dependencies:\n" + MissingLines(missing)
    case CannotStat(reason) => "failed to stat \"vendor\": " + reason
    case VendorNotDirectory => "failed to vendor dependencies: \"vendor\" exists and is not a directory"
    case CannotReadVendor(reason) => "failed to read files in \"vendor\": " + reason
    case ModuleWithoutName(i) => "Go module " + Decimal(i) + " has no name"
    case ModuleWithoutVersion(name) => "Go module " + name + " has no version"
    case ModuleWithoutPackages(name) => "Go module " + name + " has no packages"
    case PackageWithoutName(name, i) => "Go module " + name + " has package " + Decimal(i) + " with no import path"
    case WalkFailed => "failed to walk vendor"
  }

  // ---------------------------------------------------------------------
  // Graph completeness
  // ---------------------------------------------------------------------

  /** Every package of every module, in manifest order. */
  function AllPackages(modules: seq<GoModule>): seq<GoPackage>
    decreases |modules|
  {
    if |modules| == 0 then [] else modules[0].packages + AllPackages(modules[1..])
  }

  /** The import paths the manifest declares. */
  function DeclaredPackages(modules: seq<GoModule>): set<string> {
    set p | p in AllPackages(modules) :: p.name
  }

  /** The (package, dependency) pairs whose dependency is not declared, in
      manifest order. Only build dependencies are examined. */
  function UndeclaredDeps(packages: seq<GoPackage>, declared: set<string>): seq<(string, string)>
    decreases |packages|
  {
    if |packages| == 0 then []
    else
      var p := packages[0];
      var missing := Filter(p.deps, d => d !in declared);
      seq(|missing|, i requires 0 <= i < |missing| => (p.name, missing[i]))
      + UndeclaredDeps(packages[1..], declared)
  }

  // ---------------------------------------------------------------------
  // Module validation
  // ---------------------------------------------------------------------

  /** A module the planner accepts. */
  predicate WellFormed(m: GoModule) {
    && m.name != ""
    && m.version != ""
    && |m.packages| > 0
    && forall j :: 0 <= j < |m.packages| ==> m.packages[j].name != ""
  }

  /** The index of the first package without an import path. */
  function FirstUnnamed(packages: seq<GoPackage>): (r: Option<nat>)
    ensures r.None? <==> forall j :: 0 <= j < |packages| ==> packages[j].name != ""
    ensures r.Some? ==> r.value < |packages| && packages[r.value].name == ""
                        && forall j :: 0 <= j < r.value ==> packages[j].name != ""
    decreases |packages|
  {
    if |packages| == 0 then None
    else if packages[0].name == "" then Some(0)
    else match FirstUnnamed(packages[1..])
      case None => None
      case Some(j) => Some(j + 1)
  }

  /** The complaint about the module at `index`, checked in the Go order:
      name, version, packages, then each package's import path. */
  function ModuleProblem(m: GoModule, index: nat): (r: Option<PlanError>)
    ensures r.None? <==> WellFormed(m)
    ensures r == Some(ModuleWithoutName(index)) <==> m.name == ""
  {
    if m.name == "" then Some(ModuleWithoutName(index))
    else if m.version == "" then Some(ModuleWithoutVersion(m.name))
    else if |m.packages| == 0 then Some(ModuleWithoutPackages(m.name))
    else match FirstUnnamed(m.packages)
      case Some(j) => Some(PackageWithoutName(m.name, j))
      case None => None
  }

  /** The complaint about the first malformed module from `from` on. */
  function Validate(modules: seq<GoModule>, from: nat): (r: Option<PlanError>)
    requires from <= |modules|
    ensures r.None? <==> forall i :: from <= i < |modules| ==> WellFormed(modules[i])
    ensures r.Some? ==> exists i :: from <= i < |modules| && ModuleProblem(modules[i], i) == r
                          && forall j :: from <= j < i ==> WellFormed(modules[j])
    decreases |modules| - from
  {
    if from == |modules| then None
    else match ModuleProblem(modules[from], from)
      case Some(e) => Some(e)
      case None => Validate(modules, from + 1)
  }

  // ---------------------------------------------------------------------
  // Loose files
  // ---------------------------------------------------------------------

  function RemovalsOf(paths: seq<string>): (r: seq<Action>)
    ensures |r| == |paths|
    ensures forall i :: 0 <= i < |r| ==> r[i] == RemoveAll(paths[i])
  {
    seq(|paths|, i requires 0 <= i < |paths| => RemoveAll(paths[i]))
  }

  /** The loose files of `vendor/` in listing (name) order, the cache
      manifest excepted. */
  ghost function LooseFiles(fs: Snapshot): (r: seq<string>)
    ensures StrictlySorted(r)
    ensures forall name :: name in r <==> fs.vendor.Directory? && name in fs.files && name != ManifestBzl
  {
    if fs.vendor.Directory? then SortedElements(fs.files - {ManifestBzl}) else []
  }

  ghost function LooseFileRemovals(fs: Snapshot): (r: seq<Action>)
    ensures |r| == |LooseFiles(fs)|
    ensures forall i :: 0 <= i < |r| ==> r[i] == RemoveAll(PathJoin([Vendor, LooseFiles(fs)[i]]))
  {
    var names := LooseFiles(fs);
    RemovalsOf(seq(|names|, i requires 0 <= i < |names| => PathJoin([Vendor, names[i]])))
  }

  // ---------------------------------------------------------------------
  // Stale directories
  // ---------------------------------------------------------------------

  function ModuleNames(modules: seq<GoModule>): set<string> {
    set m | m in modules :: m.name
  }

  /** The walk's test for "this directory holds a declared module": the
      walked name with "vendor/" trimmed off names a module. */
  predicate Matches(d: Path, names: set<string>) {
    TrimPrefix(Join(d), Vendor + [Separator]) in names
  }

  /** A directory the walk reports: below an existing vendor root, reached
      through directories none of which matched a module (a match skips the
      whole subtree). */
  ghost predicate Walked(fs: Snapshot, d: Path, names: set<string>) {
    && fs.vendor.Directory?
    && d in fs.dirs
    && |d| >= 1
    && d[0] == Vendor
    && forall k {:trigger Passable(fs, d[..k], names)} :: 1 <= k < |d| ==> Passable(fs, d[..k], names)
  }

  /** A directory the walk descends through: present, and not a module's. */
  ghost predicate Passable(fs: Snapshot, d: Path, names: set<string>) {
    d in fs.dirs && !Matches(d, names)
  }

  /** A walked directory that does not itself hold a module: the walk
      records it. */
  ghost predicate Recorded(fs: Snapshot, d: Path, names: set<string>) {
    Walked(fs, d, names) && !Matches(d, names)
  }

  ghost function RecordedPaths(fs: Snapshot, names: set<string>): set<string> {
    set d | d in fs.dirs && Recorded(fs, d, names) :: Join(d)
  }

  /** The walk fails when a recorded directory cannot be listed. */
  ghost predicate WalkFails(fs: Snapshot, names: set<string>) {
    exists d :: d in fs.dirs && Recorded(fs, d, names) && d in fs.unreadable
  }

  /** `f` is a separator-qualified ancestor of some module's directory. */
  predicate IsModuleAncestor(f: string, modules: seq<GoModule>) {
    exists i :: 0 <= i < |modules| && HasPrefix(PathJoin([Vendor, modules[i].name]), f + [Separator])
  }

  /** The recorded directories left after dropping every ancestor of a
      module directory: the directories to delete. */
  ghost function StaleDirectories(fs: Snapshot, modules: seq<GoModule>): set<string> {
    set f | f in RecordedPaths(fs, ModuleNames(modules)) && !IsModuleAncestor(f, modules)
  }

  /** The stale directories whose parent is not stale: deleting these
      deletes every stale directory. */
  ghost function MinimalStale(fs: Snapshot, modules: seq<GoModule>): set<string> {
    var stale := StaleDirectories(fs, modules);
    set f | f in stale && Dir(f) !in stale
  }

  ghost function StaleRemovalPaths(fs: Snapshot, modules: seq<GoModule>): (r: seq<string>)
    ensures StrictlySorted(r)
    ensures forall f :: f in r <==> f in MinimalStale(fs, modules)
  {
    SortedElements(MinimalStale(fs, modules))
  }

  /** `vendor/manifest.bzl`; the Go code joins the two constants with
      path.Join, which gives the same string (PlannerLemmas.ManifestPath). */
  const ManifestPath: string := Vendor + [Separator] + ManifestBzl

  /** The vendor root as a segment path. */
  function VendorRoot(): Path {
    [Vendor]
  }

  // ---------------------------------------------------------------------
  // Per-module actions
  // ---------------------------------------------------------------------

  /** The module as the planner leaves it: every package's `bzlmod` set to
      the planner's flag, nothing else changed. */
  function WithBzlmod(m: GoModule, bzlmod: bool): (r: GoModule)
    ensures |r.packages| == |m.packages|
    ensures forall j :: 0 <= j < |m.packages| ==>
              r.packages[j].bzlmod == bzlmod && r.packages[j].(bzlmod := m.packages[j].bzlmod) == m.packages[j]
    ensures r.(packages := m.packages) == m
  {
    m.(packages := seq(|m.packages|, j requires 0 <= j < |m.packages| => m.packages[j].(bzlmod := bzlmod)))
  }

  function DepsWithBzlmod(deps: Deps, bzlmod: bool): (r: Deps)
    ensures |r.go| == |deps.go|
    ensures forall i :: 0 <= i < |deps.go| ==> r.go[i] == WithBzlmod(deps.go[i], bzlmod)
  {
    Deps(seq(|deps.go|, i requires 0 <= i < |deps.go| => WithBzlmod(deps.go[i], bzlmod)))
  }

  /** `vendor/<name>/BUILD.bazel`, built as the Go code builds it. */
  function BuildFilePath(name: string): string {
    PathJoin([PathJoin([Vendor, name]), BuildBazel])
  }

  function ModuleDirectory(name: string): string {
    PathJoin([Vendor, name])
  }

  /** A package's BUILD action: a copy of its own BUILD file when it names
      one, a generated one otherwise. */
  function PackageAction(p: GoPackage): (r: Action)
    ensures r.path == BuildFilePath(p.name)
    ensures r.CopyBUILD? <==> p.buildFile != ""
    ensures r.CopyBUILD? ==> r.source == p.buildFile
    ensures !r.CopyBUILD? ==> r == GenerateGoPackageBUILD(p, BuildFilePath(p.name))
  {
    if p.buildFile != "" then CopyBUILD(p.buildFile, BuildFilePath(p.name))
    else GenerateGoPackageBUILD(p, BuildFilePath(p.name))
  }

  /** The actions for one module: its download, one BUILD action per
      package, one BUILD action per text-file directory. */
  function ModuleActions(m: GoModule): (r: seq<Action>)
    ensures |r| == 1 + |m.packages| + |m.directories|
    ensures r[0] == DownloadGoModule(m, ModuleDirectory(m.name))
    ensures forall j :: 0 <= j < |m.packages| ==> r[1 + j] == PackageAction(m.packages[j])
    ensures forall k :: 0 <= k < |m.directories| ==>
              r[1 + |m.packages| + k] == GenerateTextFilesBUILD(m.directories[k], BuildFilePath(m.directories[k].name))
    ensures forall i :: 1 <= i < |r| ==> !r[i].DownloadGoModule?
    ensures forall a :: a in r ==> !a.RemoveAll? && !a.BuildCacheManifest?
  {
    var packages := seq(|m.packages|, j requires 0 <= j < |m.packages| => PackageAction(m.packages[j]));
    var directories := seq(|m.directories|, k requires 0 <= k < |m.directories| =>
      GenerateTextFilesBUILD(m.directories[k], BuildFilePath(m.directories[k].name)));
    [DownloadGoModule(m, ModuleDirectory(m.name))] + packages + directories
  }

  /** The per-module blocks, in manifest order. */
  function ModuleBlocks(modules: seq<GoModule>): (r: seq<Action>)
    ensures forall a :: a in r ==> !a.RemoveAll? && !a.BuildCacheManifest?
    decreases |modules|
  {
    if |modules| == 0 then [] else ModuleActions(modules[0]) + ModuleBlocks(modules[1..])
  }

  // ---------------------------------------------------------------------
  // The planner
  // ---------------------------------------------------------------------

  /** vendorGo: validate the modules, walk the vendor tree, then emit the
      sorted minimal stale-directory removals followed by the module
      blocks. */
  ghost function PlanGoModules(fs: Snapshot, modules: seq<GoModule>, bzlmod: bool): (r: Result<seq<Action>, PlanError>)
    ensures r.Ok? <==> (forall i :: 0 <= i < |modules| ==> WellFormed(modules[i])) && !WalkFails(fs, ModuleNames(modules))
  {
    match Validate(modules, 0)
    case Some(e) => Err(e)
    case None =>
      if WalkFails(fs, ModuleNames(modules)) then Err(WalkFailed)
      else
        Ok(RemovalsOf(StaleRemovalPaths(fs, modules)) + ModuleBlocks(DepsWithBzlmod(Deps(modules), bzlmod).go))
  }

  /** The checks Vendor makes before walking, in order: every build
      dependency declared, then `vendor` absent or a directory that can be
      listed. */
  function Preflight(deps: Deps, fs: Snapshot): (r: Option<PlanError>)
    ensures r.Some? && r.value.MissingDependencies? ==> |r.value.missing| > 0
  {
    var missing := UndeclaredDeps(AllPackages(deps.go), DeclaredPackages(deps.go));
    if |missing| > 0 then Some(MissingDependencies(missing))
    else if fs.vendor.StatFailed? then Some(CannotStat(fs.vendor.reason))
    else if fs.vendor.NotDirectory? then Some(VendorNotDirectory)
    else if fs.vendor.Directory? && VendorRoot() in fs.unreadable then Some(CannotReadVendor(fs.unreadable[VendorRoot()]))
    else None
  }

  /** Vendor: the whole plan. An empty manifest removes the vendor tree and
      nothing else; otherwise the loose-file removals, then what vendorGo
      plans, then the cache manifest. */
  ghost function Plan(deps: Deps, fs: Snapshot, bzlmod: bool): (r: Result<seq<Action>, PlanError>)
    ensures |deps.go| == 0 ==> r == Ok([RemoveAll(Vendor)])
    ensures r.Err? && r.error.MissingDependencies? ==> |r.error.missing| > 0
  {
    if |deps.go| == 0 then
      Ok([RemoveAll(Vendor)])
    else
      match Preflight(deps, fs)
      case Some(e) => Err(e)
      case None =>
        match PlanGoModules(fs, deps.go, bzlmod)
        case Err(e) => Err(e)
        case Ok(goActions) =>
          Ok(LooseFileRemovals(fs) + goActions + [BuildCacheManifest(DepsWithBzlmod(deps, bzlmod), ManifestPath)])
  }

  /** The inputs Plan accepts, stated without running it: an empty
      manifest, or one whose build dependencies are all declared, with
      `vendor` absent or a directory that can be listed, every module well
      formed, and a walk that meets no unreadable directory. */
  ghost predicate Plannable(deps: Deps, fs: Snapshot) {
    || |deps.go| == 0
    || (&& (forall p, d :: p in AllPackages(deps.go) && d in p.deps ==> d in DeclaredPackages(deps.go))
        && (fs.vendor.Absent? || (fs.vendor.Directory? && VendorRoot() !in fs.unreadable))
        && (forall i :: 0 <= i < |deps.go| ==> WellFormed(deps.go[i]))
        && !WalkFails(fs, ModuleNames(deps.go)))
  }
}

=== FILE: planner_lemmas.dfy ===
/** What the vendoring planner guarantees: its errors, where loose files go,
    the safety, minimality and coverage of the stale-directory removals, and
    the order of the whole plan. */
module PlannerLemmas {
  import opened Results
  import opened Sequences
  import opened Paths
  import opened Ordering
  import opened Vendeps
  import opened Planner

  // ---------------------------------------------------------------------
  // Constant paths
  // ---------------------------------------------------------------------

  lemma SingleSegmentName(name: string)
    requires IsSegment(name)
    ensures IsCleanName(name)
  {
    SplitWithoutSeparator(name);
  }

  /** `vendor` is a one-segment name. */
  lemma VendorIsCleanName()
    ensures IsCleanName(Vendor)
    ensures Split(Vendor) == [Vendor]
  {
    SplitWithoutSeparator(Vendor);
  }

  /** A module with a clean name lives in `vendor/<name>`, whose segments are
      "vendor" followed by the name's segments; the walk recognises that
      directory as the module's. */
  lemma ModuleDirectoryShape(name: string)
    requires IsCleanName(name)
    ensures ModuleDirectory(name) == Vendor + [Separator] + name
    ensures IsCleanPath([Vendor] + Split(name))
    ensures Join([Vendor] + Split(name)) == ModuleDirectory(name)
    ensures TrimPrefix(ModuleDirectory(name), Vendor + [Separator]) == name
  {
    ModuleDirectoryJoined(name);
    ModuleDirectorySegments(name);
    DropPrefixTrim(Vendor + [Separator], name);
  }

  lemma ModuleDirectoryJoined(name: string)
    requires IsCleanName(name)
    ensures ModuleDirectory(name) == Vendor + [Separator] + name
  {
    VendorIsCleanName();
    PathJoinOfCleanNames(Vendor, name);
  }

  lemma ModuleDirectorySegments(name: string)
    requires IsCleanName(name)
    ensures IsCleanPath([Vendor] + Split(name))
    ensures Join([Vendor] + Split(name)) == Vendor + [Separator] + name
  {
    VendorIsCleanName();
    assert Join([Vendor]) == Vendor;
    JoinAppend([Vendor], Split(name));
    JoinSplit(name);
    var p := [Vendor] + Split(name);
    forall i | 0 <= i < |p|
      ensures IsSegment(p[i])
    {
      if i > 0 {
        assert p[i] == Split(name)[i - 1];
      }
    }
  }

  lemma DropPrefixTrim(prefix: string, rest: string)
    ensures TrimPrefix(prefix + rest, prefix) == rest
  {
    assert (prefix + rest)[..|prefix|] == prefix;
  }

  /** The cache manifest's place. */
  lemma ManifestPathJoined()
    ensures PathJoin([Vendor, ManifestBzl]) == ManifestPath
  {
    VendorIsCleanName();
    SingleSegmentName(ManifestBzl);
    PathJoinOfCleanNames(Vendor, ManifestBzl);
  }

  /** The cache manifest's place as a segment path. */
  lemma ManifestSegments()
    ensures IsCleanPath([Vendor, ManifestBzl])
    ensures Join([Vendor, ManifestBzl]) == ManifestPath
  {
    assert [Vendor, ManifestBzl][1..] == [ManifestBzl];
  }

  /** The BUILD file of a package with a clean import path. */
  lemma BuildFilePathShape(name: string)
    requires IsCleanName(name)
    ensures BuildFilePath(name) == Vendor + [Separator] + name + [Separator] + BuildBazel
  {
    ModuleDirectoryShape(name);
    VendorIsCleanName();
    SingleSegmentName(BuildBazel);
    PathJoinOfCleanNames(Vendor, name);
    PathJoinOfCleanNames(Vendor + [Separator] + name, BuildBazel);
  }

  // ---------------------------------------------------------------------
  // Errors
  // ---------------------------------------------------------------------

  /** The packages gathered for the completeness check are exactly those
      of the modules. */
  lemma {:induction false} AllPackagesContents(modules: seq<GoModule>)
    ensures forall p :: p in AllPackages(modules) <==> exists i :: 0 <= i < |modules| && p in modules[i].packages
    decreases |modules|
  {
    if |modules| > 0 {
      var rest := AllPackages(modules[1..]);
      AllPackagesContents(modules[1..]);
      forall p | p in rest
        ensures exists i :: 0 <= i < |modules| && p in modules[i].packages
      {
        var i :| 0 <= i < |modules[1..]| && p in modules[1..][i].packages;
        assert modules[1..][i] == modules[i + 1];
      }
      forall p, i | 0 < i < |modules| && p in modules[i].packages
        ensures p in rest
      {
        assert modules[1..][i - 1] == modules[i];
      }
    }
  }

  /** The completeness check reports a pair exactly when the package lists
      the dependency among its build dependencies and no module declares it. */
  lemma {:induction false} UndeclaredDepsContents(packages: seq<GoPackage>, declared: set<string>)
    ensures forall pair :: pair in UndeclaredDeps(packages, declared) <==>
              exists p :: p in packages && pair.0 == p.name && pair.1 in p.deps && pair.1 !in declared
    decreases |packages|
  {
    if |packages| > 0 {
      var p := packages[0];
      var missing := Filter(p.deps, d => d !in declared);
      var here := seq(|missing|, i requires 0 <= i < |missing| => (p.name, missing[i]));
      var rest := UndeclaredDeps(packages[1..], declared);
      UndeclaredDepsContents(packages[1..], declared);
      assert UndeclaredDeps(packages, declared) == here + rest;
      forall pair | pair in here
        ensures pair.0 == p.name && pair.1 in p.deps && pair.1 !in declared
      {
        var i :| 0 <= i < |here| && here[i] == pair;
        assert missing[i] in missing;
      }
      forall d | d in p.deps && d !in declared
        ensures (p.name, d) in here
      {
        var i :| 0 <= i < |missing| && missing[i] == d;
        assert here[i] == (p.name, d);
      }
      forall pair: (string, string) | pair in rest
        ensures exists q :: q in packages && pair.0 == q.name && pair.1 in q.deps && pair.1 !in declared
      {
        var q :| q in packages[1..] && pair.0 == q.name && pair.1 in q.deps && pair.1 !in declared;
        assert q in packages;
      }
      forall pair: (string, string), q | q in packages && pair.0 == q.name && pair.1 in q.deps && pair.1 !in declared
        ensures pair in here + rest
      {
        if q != p {
          assert q in packages[1..];
        }
      }
    }
  }

  /** The preliminary checks report missing dependencies exactly when some
      package's build dependency is declared by no module, and then list
      every such (package, dependency) pair and no other. */
  lemma PreflightMissing(deps: Deps, fs: Snapshot)
    ensures var e := Preflight(deps, fs);
            (e.Some? && e.value.MissingDependencies?) <==>
            exists p, d :: p in AllPackages(deps.go) && d in p.deps && d !in DeclaredPackages(deps.go)
    ensures var e := Preflight(deps, fs);
            e.Some? && e.value.MissingDependencies? ==>
            forall pair :: pair in e.value.missing <==>
              exists p :: p in AllPackages(deps.go) && pair.0 == p.name && pair.1 in p.deps
                          && pair.1 !in DeclaredPackages(deps.go)
  {
    var declared := DeclaredPackages(deps.go);
    var missing := UndeclaredDeps(AllPackages(deps.go), declared);
    UndeclaredDepsContents(AllPackages(deps.go), declared);
    if exists p, d :: p in AllPackages(deps.go) && d in p.deps && d !in declared {
      var p, d :| p in AllPackages(deps.go) && d in p.deps && d !in declared;
      assert (p.name, d) in missing;
    }
    if |missing| > 0 {
      assert missing[0] in missing;
    }
  }

  /** vendorGo never reports missing dependencies: its errors are about
      malformed modules or the walk. */
  lemma GoModulesErrorNotMissing(fs: Snapshot, modules: seq<GoModule>, bzlmod: bool)
    requires PlanGoModules(fs, modules, bzlmod).Err?
    ensures !PlanGoModules(fs, modules, bzlmod).error.MissingDependencies?
  {
    if Validate(modules, 0).Some? {
      var i :| 0 <= i < |modules| && ModuleProblem(modules[i], i) == Validate(modules, 0);
    }
  }

  /** A non-empty manifest whose preliminary checks fail is planned as that
      failure; one whose checks pass is planned as vendorGo plans it, or
      fails as vendorGo fails. */
  lemma PlanOfChecks(deps: Deps, fs: Snapshot, bzlmod: bool)
    requires |deps.go| > 0
    ensures Preflight(deps, fs).Some? ==> Plan(deps, fs, bzlmod) == Err(Preflight(deps, fs).value)
    ensures Preflight(deps, fs).None? ==> (Plan(deps, fs, bzlmod).Ok? <==> PlanGoModules(fs, deps.go, bzlmod).Ok?)
    ensures Preflight(deps, fs).None? && PlanGoModules(fs, deps.go, bzlmod).Err? ==>
              Plan(deps, fs, bzlmod) == Err(PlanGoModules(fs, deps.go, bzlmod).error)
  {
  }

  /** Planning fails with the missing-dependencies error exactly when some
      package's build dependency is declared by no module, and the error
      lists every such (package, dependency) pair and no other. */
  lemma MissingDependenciesReported(deps: Deps, fs: Snapshot, bzlmod: bool)
    requires |deps.go| > 0
    ensures var r := Plan(deps, fs, bzlmod);
            (r.Err? && r.error.MissingDependencies?) <==>
            exists p, d :: p in AllPackages(deps.go) && d in p.deps && d !in DeclaredPackages(deps.go)
    ensures var r := Plan(deps, fs, bzlmod);
            r.Err? && r.error.MissingDependencies? ==>
            forall pair :: pair in r.error.missing <==>
              exists p :: p in AllPackages(deps.go) && pair.0 == p.name && pair.1 in p.deps
                          && pair.1 !in DeclaredPackages(deps.go)
  {
    PreflightMissing(deps, fs);
    PlanOfChecks(deps, fs, bzlmod);
    if Preflight(deps, fs).None? && PlanGoModules(fs, deps.go, bzlmod).Err? {
      GoModulesErrorNotMissing(fs, deps.go, bzlmod);
    }
  }

  /** Plan succeeds exactly on the inputs `Plannable` describes. */
  lemma PlanSucceedsExactly(deps: Deps, fs: Snapshot, bzlmod: bool)
    ensures Plan(deps, fs, bzlmod).Ok? <==> Plannable(deps, fs)
  {
    if |deps.go| > 0 {
      PlanOfChecks(deps, fs, bzlmod);
      PreflightMissing(deps, fs);
    }
  }

  // ---------------------------------------------------------------------
  // Walking the tree
  // ---------------------------------------------------------------------

  /** The parent of a recorded directory is recorded too. */
  lemma ParentRecorded(fs: Snapshot, names: set<string>, b: Path)
    requires b in fs.dirs && Recorded(fs, b, names) && |b| >= 2
    ensures b[..|b| - 1] in fs.dirs && Recorded(fs, b[..|b| - 1], names)
  {
    var c := b[..|b| - 1];
    assert Passable(fs, b[..|b| - 1], names);
    forall k | 1 <= k < |c|
      ensures Passable(fs, c[..k], names)
    {
      assert Passable(fs, b[..k], names);
      assert c[..k] == b[..k];
    }
  }

  /** A clean path never joins to ".". */
  lemma JoinNotDot(d: Path)
    requires IsCleanPath(d)
    ensures Join(d) != "."
  {
    SplitJoin(d);
    SplitWithoutSeparator(".");
    assert d != ["."];
  }

  lemma DotNotStale(fs: Snapshot, modules: seq<GoModule>)
    requires ValidTree(fs)
    ensures "." !in StaleDirectories(fs, modules)
  {
    forall d | d in fs.dirs
      ensures Join(d) != "."
    {
      JoinNotDot(d);
    }
  }

  /** Proper prefixes of segment paths give separator-qualified prefixes of
      their joins, and those compose. */
  lemma AncestorOfAncestor(a: Path, c: Path, m: string)
    requires IsCleanPath(a) && IsCleanPath(c)
    requires |a| <= |c| && c[..|a|] == a
    ensures HasPrefix(m, Join(c) + [Separator]) ==> HasPrefix(m, Join(a) + [Separator])
  {
    if |a| < |c| {
      SeparatorPrefixIsSegmentPrefix(a, c);
      PrefixOfLonger(Join(c), Join(a) + [Separator], [Separator]);
      if HasPrefix(m, Join(c) + [Separator]) {
        PrefixTransitive(Join(a) + [Separator], Join(c) + [Separator], m);
      }
    } else {
      assert c == a;
    }
  }

  /** If a stale directory `a` is a proper ancestor of a recorded `b`, the
      parent of `b` is stale too, so `b` is not a minimal stale directory. */
  lemma NestedNotMinimal(fs: Snapshot, modules: seq<GoModule>, a: Path, b: Path)
    requires ValidTree(fs)
    requires a in fs.dirs && Recorded(fs, a, ModuleNames(modules)) && Join(a) in StaleDirectories(fs, modules)
    requires b in fs.dirs && Recorded(fs, b, ModuleNames(modules))
    ensures (|a| < |b| && b[..|a|] == a) ==> Join(b) !in MinimalStale(fs, modules)
  {
    var names := ModuleNames(modules);
    if |a| < |b| && b[..|a|] == a {
      var c := b[..|b| - 1];
      ParentRecorded(fs, names, b);
      PrefixOfTake(a, b, |b| - 1);
      DescendantStale(fs, modules, a, c);
      ParentStaleNotMinimal(fs, modules, b);
    }
  }

  /** A recorded descendant of a stale directory is stale. */
  lemma DescendantStale(fs: Snapshot, modules: seq<GoModule>, a: Path, c: Path)
    requires ValidTree(fs)
    requires a in fs.dirs && Join(a) in StaleDirectories(fs, modules)
    requires c in fs.dirs && Recorded(fs, c, ModuleNames(modules))
    requires |a| <= |c| && c[..|a|] == a
    ensures Join(c) in StaleDirectories(fs, modules)
  {
    assert Join(c) in RecordedPaths(fs, ModuleNames(modules));
    StaleIsNotAncestor(fs, modules, Join(a));
    NotAncestorOfDescendant(a, c, modules);
  }

  /** A directory whose parent is stale is not a minimal stale one. */
  lemma ParentStaleNotMinimal(fs: Snapshot, modules: seq<GoModule>, b: Path)
    requires ValidTree(fs)
    requires b in fs.dirs && |b| >= 2
    requires Join(b[..|b| - 1]) in StaleDirectories(fs, modules)
    ensures Join(b) !in MinimalStale(fs, modules)
  {
    DirOfCleanPath(b);
  }

  lemma StaleIsNotAncestor(fs: Snapshot, modules: seq<GoModule>, f: string)
    requires f in StaleDirectories(fs, modules)
    ensures !IsModuleAncestor(f, modules)
  {
  }

  /** A descendant of a directory that is no module's ancestor is no
      module's ancestor either. */
  lemma NotAncestorOfDescendant(a: Path, c: Path, modules: seq<GoModule>)
    requires IsCleanPath(a) && IsCleanPath(c)
    requires |a| <= |c| && c[..|a|] == a
    requires !IsModuleAncestor(Join(a), modules)
    ensures !IsModuleAncestor(Join(c), modules)
  {
    forall i | 0 <= i < |modules|
      ensures !HasPrefix(PathJoin([Vendor, modules[i].name]), Join(c) + [Separator])
    {
      AncestorOfAncestor(a, c, PathJoin([Vendor, modules[i].name]));
    }
  }

  /** No removal lies inside another. */
  lemma StaleRemovalsDoNotNest(fs: Snapshot, modules: seq<GoModule>, f: string, g: string)
    requires ValidTree(fs)
    requires f in MinimalStale(fs, modules) && g in MinimalStale(fs, modules)
    ensures !HasPrefix(g, f + [Separator])
  {
    var names := ModuleNames(modules);
    var a :| a in fs.dirs && Recorded(fs, a, names) && Join(a) == f;
    var b :| b in fs.dirs && Recorded(fs, b, names) && Join(b) == g;
    SeparatorPrefixIsSegmentPrefix(a, b);
    NestedNotMinimal(fs, modules, a, b);
  }

  /** Every stale directory is removed: it is a removal or lies inside one. */
  lemma {:induction false} StaleCovered(fs: Snapshot, modules: seq<GoModule>, a: Path)
    requires ValidTree(fs)
    requires a in fs.dirs && Recorded(fs, a, ModuleNames(modules)) && Join(a) in StaleDirectories(fs, modules)
    ensures exists s :: s in MinimalStale(fs, modules) && (s == Join(a) || HasPrefix(Join(a), s + [Separator]))
    decreases |a|
  {
    var names := ModuleNames(modules);
    var stale := StaleDirectories(fs, modules);
    DirOfCleanPath(a);
    DotNotStale(fs, modules);
    if Dir(Join(a)) !in stale {
      assert Join(a) in MinimalStale(fs, modules);
    } else {
      assert |a| >= 2;
      var c := a[..|a| - 1];
      ParentRecorded(fs, names, a);
      StaleCovered(fs, modules, c);
      var s :| s in MinimalStale(fs, modules) && (s == Join(c) || HasPrefix(Join(c), s + [Separator]));
      AncestorOfParent(a, s);
    }
  }

  /** The parent of a path, or any ancestor of the parent, is an ancestor
      of the path. */
  lemma AncestorOfParent(a: Path, s: string)
    requires |a| >= 2
    requires s == Join(a[..|a| - 1]) || HasPrefix(Join(a[..|a| - 1]), s + [Separator])
    ensures HasPrefix(Join(a), s + [Separator])
  {
    var c := a[..|a| - 1];
    SegmentPrefixJoined(c, a);
    if s != Join(c) {
      PrefixOfLonger(Join(c), s + [Separator], [Separator]);
      PrefixTransitive(s + [Separator], Join(c) + [Separator], Join(a));
    }
  }

  /** The removals delete exactly the stale directories: each removal is
      stale, and each stale directory is a removal or lies inside one. */
  lemma StaleRemovalsExact(fs: Snapshot, modules: seq<GoModule>)
    requires ValidTree(fs)
    ensures forall f :: f in StaleRemovalPaths(fs, modules) ==> f in StaleDirectories(fs, modules)
    ensures forall f :: f in StaleDirectories(fs, modules) ==>
              exists s :: s in StaleRemovalPaths(fs, modules) && (s == f || HasPrefix(f, s + [Separator]))
  {
    var names := ModuleNames(modules);
    forall f | f in StaleDirectories(fs, modules)
      ensures exists s :: s in StaleRemovalPaths(fs, modules) && (s == f || HasPrefix(f, s + [Separator]))
    {
      var a :| a in fs.dirs && Recorded(fs, a, names) && Join(a) == f;
      StaleCovered(fs, modules, a);
    }
  }

  /** No removal is a module's directory, an ancestor of it, or inside it,
      for any module with a clean name: `vendor/rsc.io` survives as long as
      `rsc.io/quote` is declared. */
  lemma StaleRemovalSafe(fs: Snapshot, modules: seq<GoModule>, f: string, i: int)
    requires ValidTree(fs)
    requires 0 <= i < |modules| && IsCleanName(modules[i].name)
    requires f in StaleDirectories(fs, modules)
    ensures f != ModuleDirectory(modules[i].name)
    ensures !HasPrefix(ModuleDirectory(modules[i].name), f + [Separator])
    ensures !HasPrefix(f, ModuleDirectory(modules[i].name) + [Separator])
  {
    var names := ModuleNames(modules);
    var name := modules[i].name;
    var segments := [Vendor] + Split(name);
    ModuleDirectoryShape(name);
    assert Matches(segments, names);
    var d :| d in fs.dirs && Recorded(fs, d, names) && Join(d) == f;
    SeparatorPrefixIsSegmentPrefix(segments, d);
    if |segments| < |d| {
      assert Passable(fs, d[..|segments|], names);
      assert d[..|segments|] != segments;
    }
  }

  /** A recorded directory that holds no module and is not an ancestor of
      one, whose parent is an ancestor of a module, is removed on its own:
      `vendor/rsc.io/2fa` goes while `vendor/rsc.io` stays. */
  lemma SiblingRemoved(fs: Snapshot, modules: seq<GoModule>, d: Path)
    requires ValidTree(fs)
    requires d in fs.dirs && Recorded(fs, d, ModuleNames(modules)) && |d| >= 2
    requires !IsModuleAncestor(Join(d), modules)
    requires IsModuleAncestor(Join(d[..|d| - 1]), modules)
    ensures Join(d) in StaleRemovalPaths(fs, modules)
    ensures Join(d[..|d| - 1]) !in StaleRemovalPaths(fs, modules)
  {
    DirOfCleanPath(d);
    assert Join(d) in RecordedPaths(fs, ModuleNames(modules));
  }

  /** The ancestor test between module directories is separator-qualified:
      for clean names, `vendor/<a>` is an ancestor of `vendor/<b>` exactly
      when the segments of `a` are a proper prefix of those of `b`. So
      `vendor/rsc.io` is an ancestor of `vendor/rsc.io/quote` but not of
      `vendor/rsc.io2`. */
  lemma ModuleAncestorIsSegmentPrefix(a: string, b: string)
    requires IsCleanName(a) && IsCleanName(b)
    ensures HasPrefix(ModuleDirectory(b), ModuleDirectory(a) + [Separator]) <==>
              |Split(a)| < |Split(b)| && Split(b)[..|Split(a)|] == Split(a)
  {
    ModuleDirectoryShape(a);
    ModuleDirectoryShape(b);
    var pa := [Vendor] + Split(a);
    var pb := [Vendor] + Split(b);
    SeparatorPrefixIsSegmentPrefix(pa, pb);
    if |pa| < |pb| {
      assert pb[..|pa|] == [Vendor] + Split(b)[..|Split(a)|];
    }
  }

  // ---------------------------------------------------------------------
  // Loose files and the cache manifest
  // ---------------------------------------------------------------------

  lemma GoModulesParts(fs: Snapshot, modules: seq<GoModule>, bzlmod: bool)
    requires forall i :: 0 <= i < |modules| ==> WellFormed(modules[i])
    requires !WalkFails(fs, ModuleNames(modules))
    ensures PlanGoModules(fs, modules, bzlmod) ==
              Ok(RemovalsOf(StaleRemovalPaths(fs, modules)) + ModuleBlocks(DepsWithBzlmod(Deps(modules), bzlmod).go))
  {
  }

  /** The whole plan, piece by piece. */
  lemma PlanParts(deps: Deps, fs: Snapshot, bzlmod: bool)
    requires |deps.go| > 0 && Plannable(deps, fs)
    ensures Plan(deps, fs, bzlmod) ==
              Ok(LooseFileRemovals(fs) + RemovalsOf(StaleRemovalPaths(fs, deps.go))
                 + ModuleBlocks(DepsWithBzlmod(deps, bzlmod).go)
                 + [BuildCacheManifest(DepsWithBzlmod(deps, bzlmod), ManifestPath)])
  {
    PlanSucceedsExactly(deps, fs, bzlmod);
    assert Preflight(deps, fs).None? && PlanGoModules(fs, deps.go, bzlmod).Ok?;
    GoModulesParts(fs, deps.go, bzlmod);
    assert Deps(deps.go) == deps;
    ConcatAssociative(LooseFileRemovals(fs), RemovalsOf(StaleRemovalPaths(fs, deps.go)),
                      ModuleBlocks(DepsWithBzlmod(deps, bzlmod).go));
  }

  lemma NotInConcat<T>(x: T, a: seq<T>, b: seq<T>, c: seq<T>, d: seq<T>)
    requires x !in a && x !in b && x !in c && x !in d
    ensures x !in a + b + c + d
  {
  }

  lemma RemovalsOfMembers(paths: seq<string>)
    ensures forall a :: a in RemovalsOf(paths) ==> a.RemoveAll? && a.path in paths
  {
    forall a | a in RemovalsOf(paths)
      ensures a.RemoveAll? && a.path in paths
    {
      var i :| 0 <= i < |paths| && RemovalsOf(paths)[i] == a;
    }
  }

  /** Every loose file directly in `vendor/` is removed, except the cache
      manifest. */
  lemma LooseFilesRemoved(deps: Deps, fs: Snapshot, bzlmod: bool, name: string)
    requires |deps.go| > 0 && Plannable(deps, fs)
    requires fs.vendor.Directory? && name in fs.files && name != ManifestBzl
    ensures Plan(deps, fs, bzlmod).Ok?
    ensures RemoveAll(PathJoin([Vendor, name])) in Plan(deps, fs, bzlmod).value
  {
    PlanParts(deps, fs, bzlmod);
    var names := LooseFiles(fs);
    var i :| 0 <= i < |names| && names[i] == name;
    assert LooseFileRemovals(fs)[i] == RemoveAll(PathJoin([Vendor, name]));
  }

  /** No loose-file removal names the cache manifest. */
  lemma LooseRemovalsSpareManifest(fs: Snapshot)
    requires ValidTree(fs)
    ensures RemoveAll(ManifestPath) !in LooseFileRemovals(fs)
  {
    var loose := LooseFileRemovals(fs);
    forall i | 0 <= i < |loose|
      ensures loose[i] != RemoveAll(ManifestPath)
    {
      var name := LooseFiles(fs)[i];
      assert name in LooseFiles(fs);
      VendorIsCleanName();
      SingleSegmentName(name);
      PathJoinOfCleanNames(Vendor, name);
      if loose[i] == RemoveAll(ManifestPath) {
        DropPrefix(Vendor + [Separator], name, ManifestBzl);
      }
    }
  }

  lemma DropPrefix(prefix: string, a: string, b: string)
    requires prefix + a == prefix + b
    ensures a == b
  {
    assert a == (prefix + a)[|prefix|..];
    assert b == (prefix + b)[|prefix|..];
  }

  /** No stale-directory removal names the cache manifest, as long as the
      manifest is not a directory. */
  lemma StaleRemovalsSpareManifest(fs: Snapshot, modules: seq<GoModule>)
    requires ValidTree(fs)
    requires [Vendor, ManifestBzl] !in fs.dirs
    ensures ManifestPath !in StaleRemovalPaths(fs, modules)
  {
    var manifest := [Vendor, ManifestBzl];
    ManifestSegments();
    if ManifestPath in StaleRemovalPaths(fs, modules) {
      var d :| d in fs.dirs && Recorded(fs, d, ModuleNames(modules)) && Join(d) == ManifestPath;
      JoinInjective(d, manifest);
    }
  }

  /** The cache manifest is never removed while it is a file. */
  lemma ManifestNeverRemoved(deps: Deps, fs: Snapshot, bzlmod: bool)
    requires ValidTree(fs)
    requires |deps.go| > 0 && Plannable(deps, fs)
    requires [Vendor, ManifestBzl] !in fs.dirs
    ensures Plan(deps, fs, bzlmod).Ok?
    ensures RemoveAll(ManifestPath) !in Plan(deps, fs, bzlmod).value
  {
    PlanParts(deps, fs, bzlmod);
    LooseRemovalsSpareManifest(fs);
    StaleRemovalsSpareManifest(fs, deps.go);
    RemovalsOfMembers(StaleRemovalPaths(fs, deps.go));
    var updated := DepsWithBzlmod(deps, bzlmod);
    assert RemoveAll(ManifestPath) !in ModuleBlocks(updated.go);
    NotInConcat(RemoveAll(ManifestPath), LooseFileRemovals(fs), RemovalsOf(StaleRemovalPaths(fs, deps.go)),
                ModuleBlocks(updated.go), [BuildCacheManifest(updated, ManifestPath)]);
  }

  // ---------------------------------------------------------------------
  // Order of the plan
  // ---------------------------------------------------------------------

  /** The downloads among the module blocks: one per module, in order, at
      the module's directory. */
  lemma {:induction false} BlockDownloads(modules: seq<GoModule>)
    ensures Filter(ModuleBlocks(modules), IsDownload) == ModuleDownloads(modules)
    decreases |modules|
  {
    if |modules| > 0 {
      var block := ModuleActions(modules[0]);
      var rest := ModuleBlocks(modules[1..]);
      assert block == [block[0]] + block[1..];
      FilterNone(block[1..], IsDownload);
      FilterKeepsAll([block[0]], IsDownload);
      FilterAppend([block[0]], block[1..], IsDownload);
      BlockDownloads(modules[1..]);
      FilterAppend(block, rest, IsDownload);
      ModuleDownloadsCons(modules);
    }
  }

  lemma ModuleDownloadsCons(modules: seq<GoModule>)
    requires |modules| > 0
    ensures ModuleDownloads(modules) ==
              [DownloadGoModule(modules[0], ModuleDirectory(modules[0].name))] + ModuleDownloads(modules[1..])
  {
    var tail := ModuleDownloads(modules[1..]);
    assert forall i :: 0 <= i < |tail| ==> tail[i] == ModuleDownloads(modules)[i + 1];
  }

  /** The downloads a plan for `modules` holds: one per module, in order,
      at the module's directory. */
  function ModuleDownloads(modules: seq<GoModule>): seq<Action> {
    seq(|modules|, i requires 0 <= i < |modules| => DownloadGoModule(modules[i], ModuleDirectory(modules[i].name)))
  }

  /** The shape of every successful plan: removals, then actions that
      neither remove nor write the cache manifest, then one final action.
      Removals come first and nothing but the final action writes the cache
      manifest. */
  lemma AssemblyOrder(removals: seq<Action>, blocks: seq<Action>, last: Action)
    requires forall a :: a in removals ==> a.RemoveAll?
    requires forall a :: a in blocks ==> !a.RemoveAll? && !a.BuildCacheManifest?
    requires last.BuildCacheManifest?
    ensures var r := removals + blocks + [last];
            && (forall i :: 0 <= i < |r| - 1 ==> !r[i].BuildCacheManifest?)
            && (forall i, j :: 0 <= i < j < |r| && r[j].RemoveAll? ==> r[i].RemoveAll?)
  {
    var r := removals + blocks + [last];
    forall k | 0 <= k < |r| - 1
      ensures k < |removals| ==> r[k].RemoveAll?
      ensures k >= |removals| ==> !r[k].RemoveAll? && !r[k].BuildCacheManifest?
    {
      if k < |removals| {
        assert r[k] == removals[k] && removals[k] in removals;
      } else {
        assert r[k] == blocks[k - |removals|] && blocks[k - |removals|] in blocks;
      }
    }
  }

  /** The downloads of a plan so assembled are those of its middle part. */
  lemma AssemblyDownloads(removals: seq<Action>, blocks: seq<Action>, last: Action)
    requires forall a :: a in removals ==> a.RemoveAll?
    requires last.BuildCacheManifest?
    ensures Filter(removals + blocks + [last], IsDownload) == Filter(blocks, IsDownload)
  {
    forall i | 0 <= i < |removals|
      ensures !IsDownload(removals[i])
    {
      assert removals[i] in removals;
    }
    FilterNone(removals, IsDownload);
    FilterNone([last], IsDownload);
    FilterAppend(removals, blocks, IsDownload);
    FilterAppend(removals + blocks, [last], IsDownload);
  }

  lemma PlanRemovals(deps: Deps, fs: Snapshot, bzlmod: bool)
    requires |deps.go| > 0 && Plannable(deps, fs)
    ensures Plan(deps, fs, bzlmod).Ok?
    ensures var r := Plan(deps, fs, bzlmod).value;
            r == (LooseFileRemovals(fs) + RemovalsOf(StaleRemovalPaths(fs, deps.go)))
                 + ModuleBlocks(DepsWithBzlmod(deps, bzlmod).go)
                 + [BuildCacheManifest(DepsWithBzlmod(deps, bzlmod), ManifestPath)]
    ensures forall a :: a in LooseFileRemovals(fs) + RemovalsOf(StaleRemovalPaths(fs, deps.go)) ==> a.RemoveAll?
  {
    PlanParts(deps, fs, bzlmod);
    RemovalsOfMembers(StaleRemovalPaths(fs, deps.go));
    LooseRemovalsSafe(fs, deps.go);
  }

  /** A successful plan for a non-empty manifest: every removal comes
      before everything else; one cache-manifest action, last, at
      `vendor/manifest.bzl`, holding the manifest with `bzlmod` set. */
  lemma PlanOrder(deps: Deps, fs: Snapshot, bzlmod: bool)
    requires |deps.go| > 0 && Plannable(deps, fs)
    ensures Plan(deps, fs, bzlmod).Ok?
    ensures var r := Plan(deps, fs, bzlmod).value;
            && |r| >= 1
            && r[|r| - 1] == BuildCacheManifest(DepsWithBzlmod(deps, bzlmod), ManifestPath)
            && (forall i :: 0 <= i < |r| - 1 ==> !r[i].BuildCacheManifest?)
            && (forall i, j :: 0 <= i < j < |r| && r[j].RemoveAll? ==> r[i].RemoveAll?)
  {
    PlanRemovals(deps, fs, bzlmod);
    var updated := DepsWithBzlmod(deps, bzlmod);
    AssemblyOrder(LooseFileRemovals(fs) + RemovalsOf(StaleRemovalPaths(fs, deps.go)),
                  ModuleBlocks(updated.go), BuildCacheManifest(updated, ManifestPath));
  }

  /** The downloads of a successful plan are one per module, in manifest
      order, each of the module with `bzlmod` set, at `vendor/<module>`. */
  lemma PlanDownloads(deps: Deps, fs: Snapshot, bzlmod: bool)
    requires |deps.go| > 0 && Plannable(deps, fs)
    ensures Plan(deps, fs, bzlmod).Ok?
    ensures Filter(Plan(deps, fs, bzlmod).value, IsDownload) == ModuleDownloads(DepsWithBzlmod(deps, bzlmod).go)
  {
    PlanRemovals(deps, fs, bzlmod);
    var updated := DepsWithBzlmod(deps, bzlmod);
    AssemblyDownloads(LooseFileRemovals(fs) + RemovalsOf(StaleRemovalPaths(fs, deps.go)),
                      ModuleBlocks(updated.go), BuildCacheManifest(updated, ManifestPath));
    BlockDownloads(updated.go);
  }

  /** What a removal in a successful plan may delete: a loose file of
      `vendor/` other than the cache manifest, or a stale directory that is
      no clean-named module's directory, ancestor or descendant. */
  ghost predicate SafeRemoval(fs: Snapshot, modules: seq<GoModule>, path: string) {
    || (exists name :: name in fs.files && name != ManifestBzl && path == PathJoin([Vendor, name]))
    || (path in StaleDirectories(fs, modules)
        && forall i :: 0 <= i < |modules| && IsCleanName(modules[i].name) ==>
             && path != ModuleDirectory(modules[i].name)
             && !HasPrefix(ModuleDirectory(modules[i].name), path + [Separator])
             && !HasPrefix(path, ModuleDirectory(modules[i].name) + [Separator]))
  }

  lemma LooseRemovalsSafe(fs: Snapshot, modules: seq<GoModule>)
    ensures forall a :: a in LooseFileRemovals(fs) ==> a.RemoveAll? && SafeRemoval(fs, modules, a.path)
  {
    var loose := LooseFileRemovals(fs);
    forall a | a in loose
      ensures a.RemoveAll? && SafeRemoval(fs, modules, a.path)
    {
      var i :| 0 <= i < |loose| && loose[i] == a;
      assert LooseFiles(fs)[i] in LooseFiles(fs);
    }
  }

  lemma StaleRemovalsSafe(fs: Snapshot, modules: seq<GoModule>)
    requires ValidTree(fs)
    ensures forall a :: a in RemovalsOf(StaleRemovalPaths(fs, modules)) ==> SafeRemoval(fs, modules, a.path)
  {
    var stale := StaleRemovalPaths(fs, modules);
    RemovalsOfMembers(stale);
    StaleRemovalsExact(fs, modules);
    forall a | a in RemovalsOf(stale)
      ensures SafeRemoval(fs, modules, a.path)
    {
      forall i | 0 <= i < |modules| && IsCleanName(modules[i].name)
        ensures && a.path != ModuleDirectory(modules[i].name)
                && !HasPrefix(ModuleDirectory(modules[i].name), a.path + [Separator])
                && !HasPrefix(a.path, ModuleDirectory(modules[i].name) + [Separator])
      {
        StaleRemovalSafe(fs, modules, a.path, i);
      }
    }
  }

  /** Every removal in a successful plan is safe in the sense above. */
  lemma PlanRemovalsSafe(deps: Deps, fs: Snapshot, bzlmod: bool)
    requires ValidTree(fs)
    requires |deps.go| > 0 && Plannable(deps, fs)
    ensures Plan(deps, fs, bzlmod).Ok?
    ensures forall a :: a in Plan(deps, fs, bzlmod).value && a.RemoveAll? ==> SafeRemoval(fs, deps.go, a.path)
  {
    PlanParts(deps, fs, bzlmod);
    LooseRemovalsSafe(fs, deps.go);
    StaleRemovalsSafe(fs, deps.go);
  }
}

=== FILE: results.dfy ===
/** Failure-carrying values shared by every module of the model: the Go code
    returns `(value, error)` pairs and nil-able pointers, modelled here as
    `Result` and `Option`. */
module Results {

  datatype Option<+T> = None | Some(value: T)

  datatype Result<+T, +E> = Ok(value: T) | Err(error: E) {

    predicate IsFailure() {
      Err?
    }

    function PropagateFailure<U>(): Result<U, E>
      requires Err?
    {
      Err(error)
    }

    function Extract(): T
      requires Ok?
    {
      value
    }
  }

  /** Applies `f` to each element in order, stopping at the first failure:
      the shape of a Go loop that returns on the first error. */
  function MapResult<A, B, E>(s: seq<A>, f: A -> Result<B, E>): (r: Result<seq<B>, E>)
    ensures r.Ok? <==> forall i :: 0 <= i < |s| ==> f(s[i]).Ok?
    ensures r.Ok? ==> |r.value| == |s| && forall i :: 0 <= i < |s| ==> r.value[i] == f(s[i]).value
    decreases |s|
  {
    if |s| == 0 then Ok([])
    else
      match f(s[0])
      case Err(e) => Err(e)
      case Ok(x) =>
        match MapResult(s[1..], f)
        case Err(e) => Err(e)
        case Ok(rest) => Ok([x] + rest)
  }

  /** A failed traversal reports the error of the first failing element. */
  lemma {:induction false} MapResultFirstError<A, B, E>(s: seq<A>, f: A -> Result<B, E>)
    ensures MapResult(s, f).Err? ==>
              exists i :: 0 <= i < |s| && f(s[i]) == Err(MapResult(s, f).error)
                          && forall j :: 0 <= j < i ==> f(s[j]).Ok?
    decreases |s|
  {
    if |s| > 0 && f(s[0]).Ok? && MapResult(s, f).Err? {
      var rest := s[1..];
      assert MapResult(s, f) == MapResult(rest, f);
      MapResultFirstError(rest, f);
      var i :| 0 <= i < |rest| && f(rest[i]) == Err(MapResult(rest, f).error)
               && forall j :: 0 <= j < i ==> f(rest[j]).Ok?;
      assert s[i + 1] == rest[i];
      forall j | 0 <= j < i + 1
        ensures f(s[j]).Ok?
      {
        if j > 0 {
          assert s[j] == rest[j - 1];
        }
      }
    }
  }
}

/** Order-preserving selections from sequences. */
module Sequences {

  /** `sub` is obtained from `s` by deleting elements, keeping the order. */
  ghost predicate IsSubsequence<T>(sub: seq<T>, s: seq<T>)
    decreases |s|
  {
    if |sub| == 0 then true
    else if |s| == 0 then false
    else if sub[0] == s[0] then IsSubsequence(sub[1..], s[1..])
    else IsSubsequence(sub, s[1..])
  }

  lemma {:induction false} IsSubsequenceReflexive<T>(s: seq<T>)
    ensures IsSubsequence(s, s)
    decreases |s|
  {
    if |s| > 0 {
      IsSubsequenceReflexive(s[1..]);
    }
  }

  /** The elements of `s` that satisfy `keep`, in their original order. */
  function Filter<T(!new)>(s: seq<T>, keep: T -> bool): (r: seq<T>)
    ensures |r| <= |s|
    ensures forall x :: x in r <==> x in s && keep(x)
    ensures forall i :: 0 <= i < |r| ==> keep(r[i])
    ensures IsSubsequence(r, s)
    decreases |s|
  {
    if |s| == 0 then []
    else if keep(s[0]) then [s[0]] + Filter(s[1..], keep)
    else Filter(s[1..], keep)
  }

  lemma {:induction false} FilterAppend<T(!new)>(a: seq<T>, b: seq<T>, keep: T -> bool)
    ensures Filter(a + b, keep) == Filter(a, keep) + Filter(b, keep)
    decreases |a|
  {
    if |a| == 0 {
      assert a + b == b;
    } else {
      assert (a + b)[1..] == a[1..] + b;
      FilterAppend(a[1..], b, keep);
    }
  }

  /** A prefix grown by the next element. */
  lemma TakeSnoc<T>(s: seq<T>, i: int)
    requires 0 <= i < |s|
    ensures s[..i + 1] == s[..i] + [s[i]]
  {
  }

  /** A prefix of `s` is a prefix of every longer prefix of `s`. */
  lemma PrefixOfTake<T>(a: seq<T>, s: seq<T>, n: int)
    requires |a| <= n <= |s| && s[..|a|] == a
    ensures s[..n][..|a|] == a
  {
    assert forall i :: 0 <= i < |a| ==> s[..n][i] == s[i] == a[i];
  }

  /** Filtering a sequence grown by one element. */
  lemma FilterSnoc<T(!new)>(a: seq<T>, x: T, keep: T -> bool)
    ensures Filter(a + [x], keep) == Filter(a, keep) + (if keep(x) then [x] else [])
  {
    FilterAppend(a, [x], keep);
    assert [x][1..] == [];
  }

  /** Filtering twice with a weaker first filter is filtering once. */
  lemma {:induction false} FilterOfFilter<T(!new)>(s: seq<T>, weak: T -> bool, strong: T -> bool)
    requires forall x :: strong(x) ==> weak(x)
    ensures Filter(Filter(s, weak), strong) == Filter(s, strong)
    decreases |s|
  {
    if |s| > 0 {
      FilterOfFilter(s[1..], weak, strong);
    }
  }

  /** When everything is dropped the filter is empty. */
  lemma {:induction false} FilterNone<T(!new)>(s: seq<T>, keep: T -> bool)
    requires forall i :: 0 <= i < |s| ==> !keep(s[i])
    ensures Filter(s, keep) == []
    decreases |s|
  {
    if |s| > 0 {
      FilterNone(s[1..], keep);
    }
  }

  /** When nothing is dropped the filter is the identity. */
  lemma {:induction false} FilterKeepsAll<T(!new)>(s: seq<T>, keep: T -> bool)
    requires forall i :: 0 <= i < |s| ==> keep(s[i])
    ensures Filter(s, keep) == s
    decreases |s|
  {
    if |s| > 0 {
      FilterKeepsAll(s[1..], keep);
    }
  }

  /** Two filters that agree on every element select the same elements. */
  lemma {:induction false} FilterAgrees<T(!new)>(s: seq<T>, a: T -> bool, b: T -> bool)
    requires forall i :: 0 <= i < |s| ==> a(s[i]) == b(s[i])
    ensures Filter(s, a) == Filter(s, b)
    decreases |s|
  {
    if |s| > 0 {
      FilterAgrees(s[1..], a, b);
    }
  }

  lemma ConcatAssociative<T>(a: seq<T>, b: seq<T>, c: seq<T>)
    ensures a + (b + c) == a + b + c
  {
  }
}

=== FILE: templates.dfy ===
/** The two name helpers the build-file templates call
    (cmd/vendor/templates.go). The templates themselves and their rendering
    are not part of this model. */
module Templates {
  import opened Paths
  import opened Vendeps

  /** What a binary package's library target gets appended to its name. */
  const LibSuffix: string := "_lib"

  /** binaryName: the package's name as a Go binary sees it, the last
      element of its import path (path.Base). */
  function BinaryName(pkg: GoPackage): (r: string)
    ensures r != ""
    ensures r == [Separator] || Separator !in r
  {
    Base(pkg.name)
  }

  /** packageName: the binary name, with "_lib" appended for a package that
      also builds a binary. */
  function PackageName(pkg: GoPackage): (r: string)
    ensures HasPrefix(r, BinaryName(pkg))
    ensures pkg.binary <==> |r| > |BinaryName(pkg)|
    ensures pkg.binary ==> TrimSuffix(r, LibSuffix) == BinaryName(pkg)
  {
    var base := Base(pkg.name);
    if pkg.binary then base + LibSuffix else base
  }

  /** For a package with a well-formed import path, the binary name is the
      path's last segment. */
  lemma BinaryNameIsLastSegment(pkg: GoPackage)
    requires IsCleanName(pkg.name)
    ensures var segments := Split(pkg.name);
            BinaryName(pkg) == segments[|segments| - 1]
  {
    JoinSplit(pkg.name);
    BaseOfCleanPath(Split(pkg.name));
  }

  /** The names depend on nothing but the import path and the binary flag:
      two packages with the same path get the same binary name, and the same
      package name exactly when both or neither build a binary. */
  lemma NamesDependOnPathAndBinary(p: GoPackage, q: GoPackage)
    requires p.name == q.name
    ensures BinaryName(p) == BinaryName(q)
    ensures PackageName(p) == PackageName(q) <==> p.binary == q.binary
  {
    if p.binary != q.binary {
      assert |PackageName(p)| != |PackageName(q)|;
    }
  }

  /** A package with the import path `<parent>/<last>` is named `<last>`
      whatever its parent, when both parts are well formed. */
  lemma BinaryNameIgnoresParent(pkg: GoPackage, parent: string, last: string)
    requires IsCleanName(parent) && IsSegment(last)
    requires pkg.name == parent + [Separator] + last
    ensures BinaryName(pkg) == last
  {
    var p := Split(parent) + [last];
    JoinSplit(parent);
    JoinAppend(Split(parent), [last]);
    assert Join([last]) == last;
    assert IsCleanPath(p) by {
      forall i | 0 <= i < |p|
        ensures IsSegment(p[i])
      {
        if i < |Split(parent)| {
          assert p[i] == Split(parent)[i];
        }
      }
    }
    BaseOfCleanPath(p);
  }
}

=== FILE: update.dfy ===
/** The field unmarshaller of the update command (cmd/update/main.go):
    the arguments of a Starlark call such as `go_module(name = "…",
    version = "…")` stored into a struct of string fields. Reflection over
    the struct becomes an explicit value: the struct's fields, each with
    its Go name, its `bzl` tag and its content. */
module Update {
  import opened Results
  import opened Paths
  import opened Planner

  // ---------------------------------------------------------------------
  // The target struct
  // ---------------------------------------------------------------------

  /** StringField: the literal a call assigns and, once assigned, a
      reference to the literal in the syntax tree, modelled as the literal
      it refers to. */
  datatype StringField = StringField(value: string, ptr: Option<string>)

  /** A struct field's content: a StringField, or a value of another type,
      named as Go prints the type. */
  datatype Content = StringContent(field: StringField) | OtherContent(typeName: string)

  /** A struct field: its Go name, whether that name is exported (begins
      with an upper-case letter), its `bzl` tag if it has one, and its
      content. */
  datatype Field = Field(goName: string, exported: bool, tag: Option<string>, content: Content)

  /** What UnmarshalFields is given: a pointer, a struct, or any other kind
      of value, named as Go prints its kind. */
  datatype Value = Pointer(elem: Value) | Struct(fields: seq<Field>) | Scalar(kind: string)

  /** How Go prints a value's kind. */
  function KindName(v: Value): string {
    match v
    case Pointer(_) => "ptr"
    case Struct(_) => "struct"
    case Scalar(kind) => kind
  }

  /** How Go prints the StringField type. */
  const StringFieldType: string := "update.StringField"

  const OptionalSuffix: string := ",optional"
  const IgnoreSuffix: string := ",ignore"

  // ---------------------------------------------------------------------
  // Field descriptors
  // ---------------------------------------------------------------------

  /** What the unmarshaller knows of a field: the argument name it takes,
      and whether the argument may be missing or is ignored. */
  datatype Descriptor = Descriptor(name: string, optional: bool, ignore: bool)

  /** A field's descriptor from its tag: a tag ending ",optional" marks the
      field optional and one ending ",ignore" marks it ignored, the suffix
      stripped; a field without a tag takes its Go name. */
  function ParseTag(goName: string, tag: Option<string>): (d: Descriptor)
    ensures !(d.optional && d.ignore)
    ensures tag.None? ==> d == Descriptor(goName, false, false)
  {
    var t := if tag.Some? then tag.value else "";
    var d :=
      if HasSuffix(t, OptionalSuffix) then Descriptor(TrimSuffix(t, OptionalSuffix), true, false)
      else if HasSuffix(t, IgnoreSuffix) then Descriptor(TrimSuffix(t, IgnoreSuffix), false, true)
      else Descriptor(t, false, false);
    if tag.None? then d.(name := goName) else d
  }

  /** The tag that states a descriptor. */
  function FormatTag(d: Descriptor): string {
    if d.optional then d.name + OptionalSuffix
    else if d.ignore then d.name + IgnoreSuffix
    else d.name
  }

  /** A tag written for a descriptor parses back to it, whatever the
      field's Go name, when the name does not itself end in one of the
      suffixes. */
  lemma ParseFormatTag(goName: string, d: Descriptor)
    requires !(d.optional && d.ignore)
    requires !HasSuffix(d.name, OptionalSuffix) && !HasSuffix(d.name, IgnoreSuffix)
    ensures ParseTag(goName, Some(FormatTag(d))) == d
  {
    var t := FormatTag(d);
    if d.optional {
      assert t[|t| - |OptionalSuffix|..] == OptionalSuffix;
      assert t[..|t| - |OptionalSuffix|] == d.name;
    } else if d.ignore {
      assert t[|t| - |IgnoreSuffix|..] == IgnoreSuffix;
      assert t[..|t| - |IgnoreSuffix|] == d.name;
      assert !HasSuffix(t, OptionalSuffix) by {
        assert t[|t| - 1] == 'e';
        assert OptionalSuffix[|OptionalSuffix| - 1] == 'l';
      }
    }
  }

  /** Whether a field is well formed: a StringField, with a non-empty
      argument name. */
  predicate FieldOk(f: Field) {
    f.content.StringContent? && ParseTag(f.goName, f.tag).name != ""
  }

  predicate DistinctNames(descs: seq<Descriptor>) {
    forall i, j :: 0 <= i < j < |descs| ==> descs[i].name != descs[j].name
  }

  /** Go's %q, for the names this model handles: the text in double
      quotes. */
  function Quote(s: string): string {
    "\"" + s + "\""
  }

  /** The descriptor each field's tag states, in order. */
  function Tags(fields: seq<Field>): (r: seq<Descriptor>)
    ensures |r| == |fields|
    ensures forall i :: 0 <= i < |fields| ==> r[i] == ParseTag(fields[i].goName, fields[i].tag)
  {
    seq(|fields|, i requires 0 <= i < |fields| => ParseTag(fields[i].goName, fields[i].tag))
  }

  lemma TagsSnoc(fields: seq<Field>)
    requires |fields| > 0
    ensures Tags(fields) == Tags(fields[..|fields| - 1]) + [ParseTag(fields[|fields| - 1].goName, fields[|fields| - 1].tag)]
  {
  }

  /** The position of the descriptor with a name. */
  function Find(descs: seq<Descriptor>, name: string): (r: Option<nat>)
    ensures r.Some? ==> r.value < |descs| && descs[r.value].name == name
    ensures r.None? <==> forall i :: 0 <= i < |descs| ==> descs[i].name != name
    decreases |descs|
  {
    if |descs| == 0 then None
    else if descs[|descs| - 1].name == name then Some(|descs| - 1)
    else Find(descs[..|descs| - 1], name)
  }

  /** Every field is well formed and no two share a name. */
  predicate FieldsOk(fields: seq<Field>) {
    (forall i :: 0 <= i < |fields| ==> FieldOk(fields[i])) && DistinctNames(Tags(fields))
  }

  /** A struct is well formed when the fields before the last are, the last
      field is, and its name is not among theirs. */
  lemma FieldsOkSnoc(fields: seq<Field>)
    requires |fields| > 0
    ensures var init := fields[..|fields| - 1];
            var f := fields[|fields| - 1];
            FieldsOk(fields) <==> FieldsOk(init) && FieldOk(f) && Find(Tags(init), ParseTag(f.goName, f.tag).name).None?
  {
    var init := fields[..|fields| - 1];
    var f := fields[|fields| - 1];
    var d := ParseTag(f.goName, f.tag);
    TagsSnoc(fields);
    var tags, before := Tags(fields), Tags(init);
    assert forall i :: 0 <= i < |init| ==> init[i] == fields[i] && before[i] == tags[i];
    assert DistinctNames(tags) <==> DistinctNames(before) && forall i :: 0 <= i < |before| ==> before[i].name != d.name;
  }

  /** The descriptors of a struct's fields, in order; the first field in
      order that is not a StringField, has an empty name, or repeats an
      earlier field's name is an error. */
  function Descriptors(fields: seq<Field>): (r: Result<seq<Descriptor>, string>)
    ensures r.Ok? <==> FieldsOk(fields)
    ensures r.Ok? ==> r.value == Tags(fields)
    decreases |fields|
  {
    if |fields| == 0 then Ok([])
    else
      var init := fields[..|fields| - 1];
      var f := fields[|fields| - 1];
      var d := ParseTag(f.goName, f.tag);
      TagsSnoc(fields);
      FieldsOkSnoc(fields);
      match Descriptors(init)
      case Err(e) => Err(e)
      case Ok(descs) =>
        if f.content.OtherContent? then
          Err("invalid set of fields: field " + f.goName + " has unexpected type " + f.content.typeName + ", want " + StringFieldType)
        else if d.name == "" then
          Err("invalid set of fields: field " + f.goName + " has no field name")
        else if Find(descs, d.name).Some? then
          Err("invalid set of fields: multiple fields have the name " + Quote(d.name))
        else
          Ok(descs + [d])
  }

  /** With distinct names, the position found is the field's own. */
  lemma FindDistinct(descs: seq<Descriptor>, i: int)
    requires DistinctNames(descs) && 0 <= i < |descs|
    ensures Find(descs, descs[i].name) == Some(i)
  {
  }

  // ---------------------------------------------------------------------
  // The call's arguments
  // ---------------------------------------------------------------------

  /** The Starlark expressions an argument list holds, as far as the
      unmarshaller tells them apart. */
  datatype Expr =
    | Ident(name: string)
    | StringExpr(literal: string)
    | AssignExpr(lhs: Expr, rhs: Expr)
    | OtherExpr(kind: string)

  /** Go's rendering of a syntax node with %#v, which is not part of this
      model. */
  type Show = Expr -> string

  /** The argument assigns to the identifier `name`. */
  predicate AssignsTo(e: Expr, name: string) {
    e.AssignExpr? && e.lhs.Ident? && e.lhs.name == name
  }

  /** The literal the last argument assigning a string to `name` gives. */
  function LastAssignment(args: seq<Expr>, name: string): Option<string>
    decreases |args|
  {
    if |args| == 0 then None
    else
      var e := args[|args| - 1];
      if AssignsTo(e, name) && e.rhs.StringExpr? then Some(e.rhs.literal)
      else LastAssignment(args[..|args| - 1], name)
  }

  /** An argument assigning a literal leaves the field assigned. */
  lemma {:induction false} LastAssignmentFound(args: seq<Expr>, j: int, name: string)
    requires 0 <= j < |args| && AssignsTo(args[j], name) && args[j].rhs.StringExpr?
    ensures LastAssignment(args, name).Some?
    decreases |args|
  {
    if j < |args| - 1 {
      var init := args[..|args| - 1];
      assert init[j] == args[j];
      if LastAssignment(args, name).None? {
        LastAssignmentFound(init, j, name);
      }
    }
  }

  /** The fields after the arguments: each field not ignored that an
      argument assigns a literal to holds that literal and refers to it;
      every other field is as it was. */
  function Assigned(descs: seq<Descriptor>, initial: seq<StringField>, args: seq<Expr>): (r: seq<StringField>)
    requires |initial| == |descs|
    ensures |r| == |initial|
  {
    seq(|initial|, i requires 0 <= i < |initial| =>
      var last := LastAssignment(args, descs[i].name);
      if !descs[i].ignore && last.Some? then StringField(last.value, Some(last.value)) else initial[i])
  }

  /** Whether the argument at position `j` is accepted once those before
      it were: an assignment to a known name, which is either an ignored
      field or a field not yet assigned given a string literal. */
  predicate ArgumentOk(descs: seq<Descriptor>, initial: seq<StringField>, args: seq<Expr>, j: int)
    requires |initial| == |descs| && 0 <= j < |args|
  {
    var e := args[j];
    && e.AssignExpr? && e.lhs.Ident?
    && var found := Find(descs, e.lhs.name);
       && found.Some?
       && (descs[found.value].ignore
           || (Assigned(descs, initial, args[..j])[found.value].ptr.None? && e.rhs.StringExpr?))
  }

  predicate ArgumentsOk(descs: seq<Descriptor>, initial: seq<StringField>, args: seq<Expr>)
    requires |initial| == |descs|
  {
    forall j :: 0 <= j < |args| ==> ArgumentOk(descs, initial, args, j)
  }

  /** The argument at position `j` is the first not accepted. */
  predicate FirstRejected(descs: seq<Descriptor>, initial: seq<StringField>, args: seq<Expr>, j: int)
    requires |initial| == |descs|
  {
    && 0 <= j < |args|
    && (forall m :: 0 <= m < j ==> ArgumentOk(descs, initial, args, m))
    && !ArgumentOk(descs, initial, args, j)
  }

  /** The error for the first argument not accepted, checked in the order
      the Go loop checks. */
  function ArgumentError(descs: seq<Descriptor>, initial: seq<StringField>, args: seq<Expr>, j: int, show: Show): string
    requires |initial| == |descs| && 0 <= j < |args|
  {
    var e := args[j];
    var at := "field " + Decimal(j) + " in the call ";
    if !e.AssignExpr? then at + "is not an assignment"
    else if !e.lhs.Ident? then at + "assigns to a non-identifier value " + show(e.lhs)
    else
      var found := Find(descs, e.lhs.name);
      if found.None? then at + "has unexpected field " + Quote(e.lhs.name)
      else if Assigned(descs, initial, args[..j])[found.value].ptr.Some? then
        at + "assigns to " + e.lhs.name + " for the second time"
      else at + "(" + e.lhs.name + ") has non-string value " + show(e.rhs)
  }

  /** After the arguments before position `k`, one more argument: an
      ignored field's changes nothing, a literal assigned to a field not
      ignored changes that field alone. */
  lemma AssignedStep(descs: seq<Descriptor>, initial: seq<StringField>, args: seq<Expr>, k: int)
    requires |initial| == |descs| && DistinctNames(descs)
    requires 0 <= k < |args| && args[k].AssignExpr? && args[k].lhs.Ident?
    requires Find(descs, args[k].lhs.name).Some?
    ensures var i := Find(descs, args[k].lhs.name).value;
            var e := args[k];
            && (descs[i].ignore ==> Assigned(descs, initial, args[..k + 1]) == Assigned(descs, initial, args[..k]))
            && (!descs[i].ignore && e.rhs.StringExpr? ==>
                  Assigned(descs, initial, args[..k + 1])
                  == Assigned(descs, initial, args[..k])[i := StringField(e.rhs.literal, Some(e.rhs.literal))])
  {
    var i := Find(descs, args[k].lhs.name).value;
    assert args[..k + 1][..k] == args[..k];
    forall m | 0 <= m < |descs| && m != i
      ensures LastAssignment(args[..k + 1], descs[m].name) == LastAssignment(args[..k], descs[m].name)
    {
    }
  }

  /** The Go loop over the call's arguments: each must be an assignment to
      a known name; an ignored field is skipped; a field already assigned
      is an error, as is a value that is not a string literal; otherwise
      the field takes the literal. */
  method ApplyArguments(descs: seq<Descriptor>, initial: seq<StringField>, args: seq<Expr>, show: Show)
    returns (r: Result<seq<StringField>, string>)
    requires |initial| == |descs| && DistinctNames(descs)
    ensures r.Ok? <==> ArgumentsOk(descs, initial, args)
    ensures r.Ok? ==> r.value == Assigned(descs, initial, args)
    ensures r.Err? ==> exists j :: FirstRejected(descs, initial, args, j) && r.error == ArgumentError(descs, initial, args, j, show)
  {
    var values := initial;
    var k := 0;
    while k < |args|
      invariant 0 <= k <= |args|
      invariant forall m :: 0 <= m < k ==> ArgumentOk(descs, initial, args, m)
      invariant values == Assigned(descs, initial, args[..k])
    {
      var e := args[k];
      var at := "field " + Decimal(k) + " in the call ";
      if !e.AssignExpr? {
        r := Err(at + "is not an assignment");
        assert FirstRejected(descs, initial, args, k) && r.error == ArgumentError(descs, initial, args, k, show);
        return;
      }
      if !e.lhs.Ident? {
        r := Err(at + "assigns to a non-identifier value " + show(e.lhs));
        assert FirstRejected(descs, initial, args, k) && r.error == ArgumentError(descs, initial, args, k, show);
        return;
      }
      var found := Find(descs, e.lhs.name);
      if found.None? {
        r := Err(at + "has unexpected field " + Quote(e.lhs.name));
        assert FirstRejected(descs, initial, args, k) && r.error == ArgumentError(descs, initial, args, k, show);
        return;
      }
      var i := found.value;
      AssignedStep(descs, initial, args, k);
      if !descs[i].ignore {
        if values[i].ptr.Some? {
          r := Err(at + "assigns to " + e.lhs.name + " for the second time");
          assert FirstRejected(descs, initial, args, k) && r.error == ArgumentError(descs, initial, args, k, show);
          return;
        }
        if !e.rhs.StringExpr? {
          r := Err(at + "(" + e.lhs.name + ") has non-string value " + show(e.rhs));
          assert FirstRejected(descs, initial, args, k) && r.error == ArgumentError(descs, initial, args, k, show);
          return;
        }
        values := values[i := StringField(e.rhs.literal, Some(e.rhs.literal))];
      }
      k := k + 1;
    }
    assert args[..k] == args;
    return Ok(values);
  }

  // ---------------------------------------------------------------------
  // Required fields and the whole unmarshaller
  // ---------------------------------------------------------------------

  /** The first field in order that is neither optional nor ignored and
      was never assigned. */
  function MissingRequired(descs: seq<Descriptor>, values: seq<StringField>): (r: Option<nat>)
    requires |values| == |descs|
    ensures r.None? <==> forall i :: 0 <= i < |descs| && !descs[i].optional && !descs[i].ignore ==> values[i].ptr.Some?
    ensures r.Some? ==> && r.value < |descs|
                        && !descs[r.value].optional && !descs[r.value].ignore && values[r.value].ptr.None?
                        && forall i :: 0 <= i < r.value && !descs[i].optional && !descs[i].ignore ==> values[i].ptr.Some?
    decreases |descs|
  {
    if |descs| == 0 then None
    else
      var first := MissingRequired(descs[..|descs| - 1], values[..|values| - 1]);
      var last := |descs| - 1;
      if first.Some? then first
      else if !descs[last].optional && !descs[last].ignore && values[last].ptr.None? then Some(last)
      else None
  }

  /** The struct a value refers to: a pointer is followed once. */
  function Target(v: Value): Value {
    if v.Pointer? then v.elem else v
  }

  function Contents(fields: seq<Field>): (r: seq<StringField>)
    requires forall i :: 0 <= i < |fields| ==> fields[i].content.StringContent?
    ensures |r| == |fields|
  {
    seq(|fields|, i requires 0 <= i < |fields| => fields[i].content.field)
  }

  /** How a call to UnmarshalFields ends: it stores the fields and returns
      nil, it returns an error, or it panics at the named field. */
  datatype Outcome = Stored(values: seq<StringField>) | Failed(error: string) | Panicked(field: string)

  /** Every field can be written through reflection: the struct is
      addressable (it was reached through a pointer) and every field is
      exported. A struct with no fields trivially qualifies. */
  predicate CanSetAll(fields: seq<Field>, addressable: bool) {
    forall i :: 0 <= i < |fields| ==> addressable && fields[i].exported
  }

  /** The field at which the loop over a struct's fields panics, if any.
      The loop checks a field's type and name, then takes the address of
      its two parts and converts them to `*string`; taking an address
      panics in a struct that is not addressable, and the conversion
      panics on an unexported field. Both come before the check for a
      repeated name, so the panic is at the first field that passes the
      earlier checks after every field before it passed them all. */
  function PanicField(fields: seq<Field>, addressable: bool): (r: Option<nat>)
    ensures r.Some? ==>
              && r.value < |fields|
              && FieldsOk(fields[..r.value])
              && FieldOk(fields[r.value])
              && !(addressable && fields[r.value].exported)
    decreases |fields|
  {
    if |fields| == 0 then None
    else
      var init := fields[..|fields| - 1];
      var f := fields[|fields| - 1];
      match PanicField(init, addressable)
      case Some(i) =>
        assert fields[..i] == init[..i] && fields[i] == init[i];
        Some(i)
      case None =>
        assert fields[..|fields| - 1] == init;
        if FieldsOk(init) && FieldOk(f) && !(addressable && f.exported) then Some(|fields| - 1)
        else None
  }

  /** In a well-formed struct, the loop panics exactly when some field
      cannot be written. */
  lemma {:induction false} PanicFieldExactly(fields: seq<Field>, addressable: bool)
    requires FieldsOk(fields)
    ensures PanicField(fields, addressable).None? <==> CanSetAll(fields, addressable)
    decreases |fields|
  {
    if |fields| > 0 {
      var init := fields[..|fields| - 1];
      var f := fields[|fields| - 1];
      FieldsOkSnoc(fields);
      PanicFieldExactly(init, addressable);
      assert CanSetAll(fields, addressable) <==> CanSetAll(init, addressable) && addressable && f.exported by {
        assert forall i :: 0 <= i < |init| ==> init[i] == fields[i];
      }
    }
  }

  /** UnmarshalFields: the struct's StringFields after storing the call's
      arguments, the first error, or a panic. It stores the fields exactly
      when the value points to a struct of well-formed, distinctly named,
      exported StringFields, every argument is accepted, and every
      required field ends up assigned; then each field not ignored that an
      argument names holds that argument's literal, and every other field
      is unchanged. A well-formed struct passed by value, or one with an
      unexported field, panics. */
  method UnmarshalFields(v: Value, args: seq<Expr>, show: Show) returns (r: Outcome)
    ensures r.Stored? <==>
              && Target(v).Struct?
              && FieldsOk(Target(v).fields)
              && CanSetAll(Target(v).fields, v.Pointer?)
              && ArgumentsOk(Tags(Target(v).fields), Contents(Target(v).fields), args)
              && MissingRequired(Tags(Target(v).fields), Assigned(Tags(Target(v).fields), Contents(Target(v).fields), args)).None?
    ensures r.Stored? ==> r.values == Assigned(Tags(Target(v).fields), Contents(Target(v).fields), args)
    ensures Target(v).Struct? && FieldsOk(Target(v).fields) && !CanSetAll(Target(v).fields, v.Pointer?) ==> r.Panicked?
    ensures r.Panicked? ==> Target(v).Struct? && !CanSetAll(Target(v).fields, v.Pointer?)
    ensures !Target(v).Struct? ==> r == Failed("invalid set of fields: got " + KindName(Target(v)) + ", expected struct")
  {
    var val := Target(v);
    if !val.Struct? {
      return Failed("invalid set of fields: got " + KindName(val) + ", expected struct");
    }
    var panics := PanicField(val.fields, v.Pointer?);
    if FieldsOk(val.fields) {
      PanicFieldExactly(val.fields, v.Pointer?);
    }
    if panics.Some? {
      return Panicked(val.fields[panics.value].goName);
    }
    var descs := Descriptors(val.fields);
    if descs.Err? {
      return Failed(descs.error);
    }
    var applied := ApplyArguments(descs.value, Contents(val.fields), args, show);
    if applied.Err? {
      return Failed(applied.error);
    }
    var missing := MissingRequired(descs.value, applied.value);
    if missing.Some? {
      return Failed("function call had no value for required field " + descs.value[missing.value].name);
    }
    return Stored(applied.value);
  }

  // ---------------------------------------------------------------------
  // Properties
  // ---------------------------------------------------------------------

  /** Once assigned, a field stays assigned as later arguments are read. */
  lemma AssignedStays(descs: seq<Descriptor>, initial: seq<StringField>, args: seq<Expr>, j: int, k: int, i: int)
    requires |initial| == |descs| && 0 <= j <= k <= |args| && 0 <= i < |descs|
    requires Assigned(descs, initial, args[..j])[i].ptr.Some?
    ensures Assigned(descs, initial, args[..k])[i].ptr.Some?
  {
    if initial[i].ptr.None? {
      var name := descs[i].name;
      var last := LastAssignment(args[..j], name);
      assert last.Some?;
      var p := LastAssignmentIndex(args[..j], name);
      assert args[..k][p] == args[..j][p];
      LastAssignmentFound(args[..k], p, name);
    }
  }

  /** The argument a LastAssignment comes from. */
  lemma {:induction false} LastAssignmentIndex(args: seq<Expr>, name: string) returns (p: int)
    requires LastAssignment(args, name).Some?
    ensures 0 <= p < |args| && AssignsTo(args[p], name) && args[p].rhs.StringExpr?
    decreases |args|
  {
    var e := args[|args| - 1];
    if AssignsTo(e, name) && e.rhs.StringExpr? {
      p := |args| - 1;
    } else {
      p := LastAssignmentIndex(args[..|args| - 1], name);
    }
  }

  /** In an accepted call, a field that is not ignored is assigned by at
      most one argument. */
  lemma AssignedOnce(descs: seq<Descriptor>, initial: seq<StringField>, args: seq<Expr>, i: int, j1: int, j2: int)
    requires |initial| == |descs| && DistinctNames(descs)
    requires ArgumentsOk(descs, initial, args)
    requires 0 <= i < |descs| && !descs[i].ignore
    requires 0 <= j1 < |args| && 0 <= j2 < |args|
    requires AssignsTo(args[j1], descs[i].name) && AssignsTo(args[j2], descs[i].name)
    ensures j1 == j2
  {
    if j1 != j2 {
      var a, b := if j1 < j2 then j1 else j2, if j1 < j2 then j2 else j1;
      FindDistinct(descs, i);
      assert ArgumentOk(descs, initial, args, a) && ArgumentOk(descs, initial, args, b);
      assert args[..a + 1][a] == args[a];
      LastAssignmentFound(args[..a + 1], a, descs[i].name);
      AssignedStays(descs, initial, args, a + 1, b, i);
      assert false;
    }
  }
}

=== FILE: vendeps.dfy ===
/** The dependency manifest's data model and the closed set of filesystem
    actions a plan is made of (internal/vendeps/vendeps.go and the action
    types of cmd/vendor/actions.go). The manifest is taken as already parsed:
    reading `deps.bzl` and the Starlark decoder are not part of this model. */
module Vendeps {
  import opened Results

  /** The generated build file written into every vendored package. */
  const BuildBazel: string := "BUILD.bazel"
  /** The dependency manifest. */
  const DepsBzl: string := "deps.bzl"
  /** The cache manifest, kept inside the vendor directory. */
  const ManifestBzl: string := "manifest.bzl"
  /** The vendor root. */
  const Vendor: string := "vendor"

  /** A package of a Go module. `files`, `testFiles` and `bzlmod` are never
      read from the manifest: the planner sets `bzlmod` and recording a
      package's directory listing fills the two file lists. */
  datatype GoPackage = GoPackage(
    name: string,
    files: seq<string>,
    bzlmod: bool,
    buildFile: string,
    deps: seq<string>,
    embed: seq<string>,
    embedGlobs: seq<string>,
    binary: bool,
    binaryDeps: seq<string>,
    noTests: bool,
    testFiles: seq<string>,
    testSize: string,
    testData: seq<string>,
    testDataGlobs: seq<string>,
    testDeps: seq<string>,
    testEnv: map<string, string>)

  /** A directory of plain files exported verbatim. */
  datatype TextFiles = TextFiles(name: string, exportsFiles: seq<string>)

  /** A Go module to vendor. `digest` and `patchDigest` are only filled in
      the cache manifest. `patchArgs` keeps Go's distinction between a nil
      slice (`None`: the field was absent) and a decoded, possibly empty,
      list (`Some`), which the cache's `reflect.DeepEqual` comparison sees. */
  datatype GoModule = GoModule(
    name: string,
    version: string,
    patchArgs: Option<seq<string>>,
    patches: seq<string>,
    packages: seq<GoPackage>,
    directories: seq<TextFiles>,
    digest: string,
    patchDigest: string)

  /** The whole manifest: modules in document order. */
  datatype Deps = Deps(go: seq<GoModule>)

  /** The filesystem operations of a plan. Paths are the strings the Go code
      builds with path.Join. */
  datatype Action =
    | RemoveAll(path: string)
    | DownloadGoModule(goModule: GoModule, path: string)
    | CopyBUILD(source: string, path: string)
    | GenerateGoPackageBUILD(pkg: GoPackage, path: string)
    | GenerateTextFilesBUILD(files: TextFiles, path: string)
    | BuildCacheManifest(deps: Deps, path: string)

  predicate IsDownload(a: Action) {
    a.DownloadGoModule?
  }

  /** A package with only a name, every other field at its zero value. */
  function NamedPackage(name: string): GoPackage {
    GoPackage(name, [], false, "", [], [], [], false, [], false, [], "", [], [], [], map[])
  }

  /** A module with a name, a version and packages, nothing else set. */
  function SimpleModule(name: string, version: string, packages: seq<GoPackage>): GoModule {
    GoModule(name, version, None, [], packages, [], "", "")
  }
}
